=== FILE: README.md ===
# Patient-consent access control, modelled in Dafny

This project models the consent core of the Ingenium health and farmer
portal. The backend is Express with a Sequelize/MySQL store.

- A patient's **medical account** grants a **hospital** time-limited
  access to chosen scopes (`profile`, `records`, `bills`). The patient
  lists the grants and revokes them.
- Every privileged step appends a row to the **audit log**.
- A hospital sees a patient's data only under a grant that is active
  and unexpired. The view is cut down to that grant's scopes.
- The patient's **file store** holds folders in a tree and files inside
  them.

Around this core sit validators and small state machines:

- farmer KYC registration, login and profile update;
- one-time passwords;
- the JWT role middleware;
- the four-step KYC form of the frontend;
- the grant form of the patient's hospital-access page.

**How the system is represented**

- Each database table that the handlers write is a class. It holds
  `rows: seq<…>` and the autoincrement counter `nextId`.
- `findOne`, `findAll`, `where`, `order` and `limit` are pure functions
  over those sequences (module `Query`).
- A handler that writes is a method. It modifies exactly the tables it
  writes. Its postcondition gives the reply for every branch and the new
  contents of every table.
- A handler that only reads is a function.
- Time is an integer count of milliseconds, passed in as `now`. An
  expiry column keeps what MySQL's `DATETIME` keeps: whole seconds
  between the years 1000 and 9999 (module `DateTimeColumn`).
- `jwt.verify`, `Math.random` and generated ids are parameters.

The table invariants are kept across every handler:

- ids are increasing;
- a grant has `revoked_at` exactly when it is inactive;
- the folder store keeps:
  - each parent folder before its children (by id);
  - sibling names unique;
  - every file inside a folder of its own account.

Modules:

| module | models |
|---|---|
| `HospitalAccessModel` | backend/models/HospitalAccess.js |
| `AuditLogModel` | backend/models/AuditLog.js |
| `MedicalData` | the medical account, record and bill tables |
| `MedicalController` | backend/controllers/medicalController.js |
| `HospitalController` | backend/controllers/hospitalController.js |
| `ConsentProperties` | properties that span both controllers |
| `MedicalFiles`, `MedicalFileController` | the folder and file tables; backend/controllers/medicalFileController.js |
| `FarmerKycController` | backend/controllers/farmerKYCController.js |
| `OneTimePasswords` | backend/utils/otp.js |
| `AuthMiddleware` | backend/middleware/auth.js |
| `FarmerKycRegister` | frontend/src/pages/Farmer/FarmerKYCRegister.js |
| `GrantForm` | frontend/src/pages/Medical/HospitalAccessManagement.js |

The helper modules are these:

- `Text` covers JavaScript's `trim`, `\s`, `\d`, `parseInt` and `String#replace`.
- `Query` covers filtering, sorting and paging.
- `Wrappers` and `Http` hold `Option` and the reply type.
- `DateTimeColumn` holds the range and the precision of a `DATETIME` column.

**Behaviour of the code worth knowing**

Each item below is what the handlers do; the lemma named with it proves it.

- A refused request leaves no audit row: a hospital refused a patient's
  details, or a grant or revoke that fails, is not logged
  (`HospitalController.GetPatientDetails`,
  `MedicalController.GrantHospitalAccess`,
  `MedicalController.RevokeHospitalAccess`).
- When a patient has several grants in force for one hospital, the first
  one found decides what the hospital may do; the grants are not combined
  (`FirstGrantDecides`).
- At the exact expiry instant the patient's list still shows the grant as
  active, while the hospital is refused (`ExpiryInstantDisagreement`).
- A grant made by the patient stores only `{type: …}` as its
  permissions, so it never lets a hospital upload
  (`PatientGrantsNeverPermitUpload`).
- Revoking the same grant twice succeeds both times
  (`RevokeFindsSameGrantAgain`).
- The grant form posts `hospital_id`, `access_scope`, `permissions` and
  `duration_days`, while the endpoint reads `hospital_identifier`,
  `scopes`, `permission_type` and `duration`; a grant submitted through
  the form is refused with "All fields are required"
  (`GrantForm.FormBodyMissesEndpointFields`).
- Toggling a scope twice does not always give back the same list: with
  `[a, b]` ticked, unticking and re-ticking `a` gives `[b, a]`
  (`GrantForm.ToggleTwiceReorders`).

## Model

| member | source | states |
|---|---|---|
| AuditLogModel.ActionTypeNames | backend/models/AuditLog.js:18-21 | the `action_type` column accepts exactly the six event names, and each reads back as its own event |
| AuditLogModel.ActorTypeNames | backend/models/AuditLog.js:22-25 | the `actor_type` column accepts exactly `user`, `hospital` and `system` |
| AuditLogModel.AuditLogTable.constructor | backend/models/AuditLog.js:1-55 | the log starts empty, with the counter at 1 |
| AuditLogModel.AuditLogTable.Append | backend/models/AuditLog.js:10-49 | one row is appended, stamped with the current time and the next id; earlier rows are untouched (the log is append-only) |
| HospitalAccessModel.NewGrant | backend/models/HospitalAccess.js:26-51 | a created grant is active, has no `revoked_at`, is granted now and keeps the given scope, permissions and expiry |
| HospitalAccessModel.Revoked | backend/controllers/medicalController.js:419-422 | a revoked grant is inactive with `revoked_at` set to now; every other column is kept |
| HospitalAccessModel.ExpiryBoundary | backend/controllers/hospitalController.js:14-16 | for an active grant, "usable by the hospital" (`expires_at > now`) and "flagged expired to the patient" (`expires_at < now`) are opposite at every instant but the expiry instant, where neither holds |
| HospitalAccessModel.TypeOnlyPermissions | backend/controllers/medicalController.js:321 | the permissions a patient's grant stores hold only `type`, so they never carry a records upload flag |
| HospitalAccessModel.HospitalAccessTable.Create | backend/models/HospitalAccess.js:4-55 | one new grant with the next id and the model's defaults is appended; earlier grants are untouched; every row stays consistent |
| HospitalAccessModel.HospitalAccessTable.Revoke | backend/controllers/medicalController.js:419-422 | exactly one row is replaced by its revoked form; the others and the counter are unchanged |
| MedicalData.MedicalAccountTable.Insert | backend/models/MedicalAccount.js:12-29 | an insert that would repeat a `user_id`, `medical_id` or `email` is rejected and changes nothing; otherwise one row is appended and the three columns stay unique |
| MedicalData.MedicalAccountTable.SetProfile | backend/controllers/medicalController.js:244-255 | only the health columns of one row change |
| MedicalData.MedicalRecordTable.Append | backend/models/MedicalRecord.js:5-60 | one record with the next id is appended; earlier records are untouched |
| MedicalData.MedicalBillTable.Insert | backend/models/MedicalBill.js:26-29 | a repeated `bill_number` is rejected and changes nothing; otherwise one bill is appended and bill numbers stay unique |
| DateTimeColumn.Stored | backend/models/HospitalAccess.js:40-43 | the instant an expiry column gives back is the written one less its milliseconds: a whole second, at most 999 ms earlier, and still in the column's range |
| MedicalController.CreationProfile | backend/controllers/medicalController.js:67-77 | a new account holds exactly the five creation health fields that were sent non-empty, with their values |
| MedicalController.CreateMedicalAccount | backend/controllers/medicalController.js:34-104 | the handler as intended, with `medical_id` generated before validation (see Findings): a second account for a user is a 400 and a used email a 400; a missing email, a missing password or a taken `medical_id` is a 500; none of them writes; success appends exactly the account and one `login` audit row, and the reply is 201 exactly when all guards pass |
| MedicalController.CreateMedicalAccountAsWritten | backend/controllers/medicalController.js:34-104 | the handler as written: a second account for a user and a used email are 400s, every other request a 500 "Failed to create medical account"; it never succeeds, so it never writes |
| MedicalController.CreationFailsAsWritten | backend/models/MedicalAccount.js:21-25 | every request the handler is meant to fulfil is a 500 as written, because `medical_id` is still null when the not-null check runs |
| MedicalController.FirstAccountNeverCreatedAsWritten | backend/models/MedicalAccount.js:73-78 | a concrete such request: user 7 creating the first account with email "a@b.c" and password "pw" |
| MedicalController.UpdatedProfile | backend/controllers/medicalController.js:244-255 | a health column named in the body takes the body's value (null clears it); every other column keeps its value |
| MedicalController.UpdateMedicalProfile | backend/controllers/medicalController.js:220-277 | an unknown account is a 404 that writes nothing; otherwise only that account's health columns change and one `profile_updated` row listing the body's keys (as a set) is appended |
| MedicalController.UpdateWithoutHealthFields | backend/controllers/medicalController.js:244-255 | a body that names no health column leaves the profile as it was |
| MedicalController.ExpiryForDays | backend/controllers/medicalController.js:306-314 | a duration of `n` days expires `n` days after now as the `expires_at` column stores it (whole seconds) when that instant lies in the column's range, and gives no expiry otherwise |
| MedicalController.ExpiryWithoutNumber | backend/controllers/medicalController.js:312 | a duration with no leading number gives no expiry, so no grant is made |
| MedicalController.GrantHospitalAccess | backend/controllers/medicalController.js:280-354 | the handler on a hospitals table whose `hfr_id` is filled (see Findings): a falsy field is a 400, an unknown HFR id a 404, and a duration that `parseInt` cannot read or whose expiry the `expires_at` column cannot hold a 500; none writes; the reply is 201 exactly when all pass, and then one grant and one `access_granted` row are appended, existing grants untouched |
| MedicalController.GrantHospitalAccessAsWritten | backend/controllers/medicalController.js:280-354 | the handler as written: a falsy field is a 400 and every complete request a 500 (no `hfr_id` column) or a 404 (the column holds no values); it never grants |
| MedicalController.NoGrantWithoutHfrIds | backend/controllers/medicalController.js:294-302 | on a hospitals table where no hospital has an HFR id, the lookup misses for every request, so no request is granted |
| MedicalController.FirstGrantNeverCreatedAsWritten | backend/controllers/medicalController.js:294-302 | a concrete request (hospital "HFR-1", scope records, until revoked) that is granted when the hospital carries the id and refused as written |
| MedicalController.Entries | backend/controllers/medicalController.js:375-384 | the listed entries carry the grants in order, each with its expired flag and status computed at `now` |
| MedicalController.GetActiveAccess | backend/controllers/medicalController.js:357-397 | the list is a permutation of the account's active grants, expired ones included, newest grant first; an entry is flagged expired, with status "expired", exactly when `expires_at < now` |
| MedicalController.GrantIsListed | backend/controllers/medicalController.js:357-384 | a grant just created shows in the patient's list, as "active" exactly until its expiry |
| MedicalController.RevokeHospitalAccess | backend/controllers/medicalController.js:400-445 | a grant the caller does not own is a 404 that writes nothing; otherwise only that grant is revoked and one `access_revoked` row naming its hospital is appended |
| MedicalController.RevokeFindsSameGrantAgain | backend/controllers/medicalController.js:405-432 | a revoked grant is found again by the same lookup, so a second revoke succeeds and is audited again |
| MedicalController.RevokeRemovesFromList | backend/controllers/medicalController.js:361-384 | after a revoke, the grant leaves the patient's list and every other listed grant stays listed |
| MedicalController.GetAuditLogs | backend/controllers/medicalController.js:504-531 | the trail holds only the account's rows, newest first, and exactly min(100, number of the account's rows) of them |
| MedicalController.AuditTrailIsNewestPage | backend/controllers/medicalController.js:508-517 | the trail is a sub-multiset of the account's rows; all of them when there are at most 100; a row left out is never newer than a row shown |
| MedicalController.AppendedEventShown | backend/controllers/medicalController.js:508-517 | an event appended to an account with fewer than 100 rows appears in its trail |
| HospitalController.GetActivePatients | backend/controllers/hospitalController.js:48-84 | the list is a permutation of the hospital's grants that are active with `expires_at > now`, newest grant first |
| HospitalController.GetHospitalDashboard | backend/controllers/hospitalController.js:5-45 | "active patients" is the length of the active-patient list; the record and bill totals count the rows naming the hospital |
| HospitalController.DashboardCountsGrants | backend/controllers/hospitalController.js:10-18 | one patient with two grants in force is counted twice |
| HospitalController.VisibleProfile | backend/controllers/hospitalController.js:144-152 | the shown profile holds exactly the patient's non-null health columns |
| HospitalController.ScopedView | backend/controllers/hospitalController.js:139-170 | the view always names the patient; profile, records and bills are present exactly when their scope is granted; records and bills are drawn without repetition from the patient's own rows, min(20, how many there are), newest first, and no own row left out is newer than one shown |
| HospitalController.GetPatientDetails | backend/controllers/hospitalController.js:87-188 | an unknown patient is a 404 and no grant in force a 403, neither audited; otherwise exactly one `data_viewed` row is appended and the view follows the first grant in force |
| HospitalController.FirstGrantDecides | backend/controllers/hospitalController.js:110-139 | scopes are not combined across grants: with a "profile" grant found before a "bills" grant, the view has no bills |
| HospitalController.UploadMedicalRecord | backend/controllers/hospitalController.js:191-268 | no `medical_id` or a rejected field is a 500, an unknown patient a 404, no grant in force or no upload permission a 403, none writing; success appends one record uploaded by the hospital and one `data_uploaded` row |
| HospitalController.PatientGrantsNeverPermitUpload | backend/controllers/hospitalController.js:227-232 | when no grant stores a `records` permission, as with every grant patients create, the grant found never permits an upload |
| HospitalController.CreateMedicalBill | backend/controllers/hospitalController.js:271-310 | no grant is checked: a known patient gets the bill, an unknown one is a 404, a missing field or a repeated bill number a 500 that writes nothing |
| ConsentProperties.GrantOpensAccess | backend/controllers/hospitalController.js:110-126 | a grant just made is found by the hospital's access check and lists the patient, until its expiry |
| ConsentProperties.GrantLifetime | backend/controllers/medicalController.js:306-323 | a grant of `n` days whose end the column can hold is in force for the hospital exactly before now + `n` days stored without its milliseconds: always until a second before that end, never from the end on |
| ConsentProperties.RevokeClosesAccess | backend/controllers/medicalController.js:419-422 | a revoked grant no longer opens access; when it was the only grant in force, the hospital is refused |
| ConsentProperties.RevokeIsolated | backend/controllers/medicalController.js:419-422 | a revoke leaves the access check of every other patient and every other hospital as it was |
| ConsentProperties.ExpiryInstantDisagreement | backend/controllers/medicalController.js:377 | at the expiry instant the patient's list says "active" while the hospital is refused |
| MedicalFiles.FolderTable.Append | backend/controllers/medicalFileController.js:90-95 | one folder with the next id is appended; earlier folders are untouched |
| MedicalFiles.FolderTable.Rename | backend/controllers/medicalFileController.js:141-142 | only the name of one folder changes |
| MedicalFiles.FolderTable.Remove | backend/controllers/medicalFileController.js:187 | exactly the removed folder's row leaves the table, the others stay in order |
| MedicalFiles.FileTable.Append | backend/controllers/medicalFileController.js:277-287 | one file with the next id is appended; earlier files are untouched |
| MedicalFiles.FileTable.Remove | backend/controllers/medicalFileController.js:346 | exactly the removed file's row leaves the table, the others stay in order |
| MedicalFileController.HasFolderIff | backend/controllers/medicalFileController.js:119-125 | the ownership lookup succeeds exactly when some row is the account's folder with that id |
| MedicalFileController.HasFolderFound | backend/controllers/medicalFileController.js:161-167 | the ownership predicate agrees with the handlers' `findOne` |
| MedicalFileController.IntegrityOrdersParents | backend/controllers/medicalFileController.js:24-37 | in a consistent store every parent id is below its child's, so the parent relation has no cycle and `buildTree` ends |
| MedicalFileController.BuildTreePlaced | backend/controllers/medicalFileController.js:30-37 | each node under a parent is exactly a folder whose `parent_id` is that parent, in list order, and its children are placed the same way |
| MedicalFileController.BuildNodesFolders | backend/controllers/medicalFileController.js:31-36 | the `map` step yields one node per child folder, in order |
| MedicalFileController.BuildNodesPlaced | backend/controllers/medicalFileController.js:31-36 | every node built holds its own sub-tree placed by `parent_id` |
| MedicalFileController.GetFolders | backend/controllers/medicalFileController.js:14-50 | the flat list holds exactly the account's folders of the requested category; each level of the tree holds exactly the listed folders whose parent is that level's folder (the root folders on top), so a listed folder whose parent is not listed is in no place of the tree |
| MedicalFileController.OrphanNotInTree | backend/controllers/medicalFileController.js:30-37 | a folder whose parent is not in the list appears nowhere in a tree built from it |
| MedicalFileController.FilteredParentHidesFolder | backend/controllers/medicalFileController.js:14-37 | with a category filter, a folder under a parent of another category is in the flat list and nowhere in the tree |
| MedicalFileController.CreateKeepsIntegrity | backend/controllers/medicalFileController.js:68-95 | a folder that passed the parent and duplicate checks keeps the store consistent |
| MedicalFileController.CreateFolder | backend/controllers/medicalFileController.js:53-106 | a blank name, a bad category, a foreign parent and a name taken under that parent are each refused in that order without writing; otherwise one folder with the trimmed name is appended and the store stays consistent |
| MedicalFileController.AddFolder | backend/controllers/medicalFileController.js:90-95 | the insert step appends exactly the new folder and keeps the store consistent |
| MedicalFileController.RenameKeepsIntegrity | backend/controllers/medicalFileController.js:128-142 | a name no other sibling uses keeps the store consistent |
| MedicalFileController.RenameToOwnNameAllowed | backend/controllers/medicalFileController.js:128-139 | renaming a folder to its own current name is not refused |
| MedicalFileController.RenameFolder | backend/controllers/medicalFileController.js:109-153 | a blank name is a 400, a folder the account does not own a 404, a name another sibling uses a 400, none writing; otherwise only that folder's name changes, to the trimmed name |
| MedicalFileController.DeleteKeepsIntegrity | backend/controllers/medicalFileController.js:170-187 | removing a folder that no folder and no file points into keeps the store consistent |
| MedicalFileController.DeleteFolder | backend/controllers/medicalFileController.js:156-197 | a folder the account does not own is a 404, one with sub-folders or files a 400, none writing; success holds exactly for an owned empty folder, which is then gone |
| MedicalFileController.RemoveEmptyFolder | backend/controllers/medicalFileController.js:187 | removing an empty folder deletes exactly its row and keeps the store consistent |
| MedicalFileController.EmptyFolderRemovable | backend/controllers/medicalFileController.js:170-187 | a folder with no sub-folder and no file can go: the store stays consistent and the folder is gone |
| MedicalFileController.RemovedFolderGone | backend/controllers/medicalFileController.js:187 | folder ids are unique, so no row carries the removed folder's id |
| MedicalFileController.GetFiles | backend/controllers/medicalFileController.js:202-239 | the list is a permutation of the account's files passing the folder and category filters, newest first |
| MedicalFileController.NullFolderQueryListsNothing | backend/controllers/medicalFileController.js:207-217 | `folder_id=null` is taken as a folder id and lists nothing |
| MedicalFileController.EmptyFolderQueryListsRoot | backend/controllers/medicalFileController.js:207-217 | an empty `folder_id` lists exactly the account's root-level files |
| MedicalFileController.DownloadFile | backend/controllers/medicalFileController.js:304-322 | a file is returned exactly when the account owns one with that id, and it is that file; otherwise a 404 |
| MedicalFileController.DeleteFile | backend/controllers/medicalFileController.js:325-356 | a file the account does not own is a 404 that writes nothing; otherwise exactly that file leaves the table and can no longer be downloaded |
| MedicalFileController.UploadFile | backend/controllers/medicalFileController.js:242-301 | no file, a foreign folder, a MIME type outside the six allowed and a bad category are refused in that order without writing; otherwise one file uploaded by the user is appended, at the root when no folder is given |
| MedicalFileController.AddFile | backend/controllers/medicalFileController.js:277-287 | the insert step appends exactly the new file and keeps every file inside a folder of its account |
| MedicalFileController.UploadedFileListed | backend/controllers/medicalFileController.js:202-239 | an uploaded file is listed in the account's file list and can be downloaded |
| FarmerKycController.FarmerTable.Insert | backend/controllers/farmerKYCController.js:105-116 | one row with the next id is appended; earlier rows are untouched |
| FarmerKycController.FarmerTable.SetColumn | backend/controllers/farmerKYCController.js:119-123 | only one column of one row changes |
| FarmerKycController.FarmerTable.Update | backend/controllers/farmerKYCController.js:265 | only one row changes, as the update function says |
| FarmerKycController.Updated | backend/controllers/farmerKYCController.js:265 | each column the values name takes the given value; every other column and the id keep theirs |
| FarmerKycController.AppendKeepsAadhaarUnique | backend/controllers/farmerKYCController.js:80-89 | a row with an Aadhaar number no row holds keeps the numbers distinct |
| FarmerKycController.MissingLabels | backend/controllers/farmerKYCController.js:27-53 | the message lists exactly the labels of the absent or empty required fields, in the fixed order |
| FarmerKycController.MissingNoneIffAllTruthy | backend/controllers/farmerKYCController.js:27-53 | no label is listed exactly when every listed field is present and non-empty |
| FarmerKycController.MissingLabelsEmpty | backend/controllers/farmerKYCController.js:27-53 | the missing-fields 400 is given exactly when one of the eight required fields is absent or empty |
| FarmerKycController.FormatRejection | backend/controllers/farmerKYCController.js:27-77 | the first failing check among missing fields, Aadhaar of 12 digits, mobile of 10 digits and a listed state decides the message; none fails exactly when all hold |
| FarmerKycController.CopiedFields | backend/controllers/farmerKYCController.js:105-112 | every registration field sent is copied as a string into its column, and nothing else |
| FarmerKycController.CreationColumns | backend/controllers/farmerKYCController.js:105-116 | the new row holds the fields sent, the e-mail as user name, the given password, the KYC id, status pending and active |
| FarmerKycController.NewFarmer | backend/controllers/farmerKYCController.js:105-123 | after registration the user name is the e-mail and the stored password is the KYC id; the row is active and pending |
| FarmerKycController.CreateFarmer | backend/controllers/farmerKYCController.js:105-123 | the create-then-update pair leaves exactly one new row, the registered one |
| FarmerKycController.RegisterFarmerKyc | backend/controllers/farmerKYCController.js:14-145 | format checks come first, then a repeated Aadhaar, then a repeated e-mail, each a 400 that writes nothing; 201 exactly when all pass, appending the new row; Aadhaar numbers stay distinct |
| FarmerKycController.LoginFarmer | backend/controllers/farmerKYCController.js:148-211 | a missing field is a 400; an unknown user name and a wrong KYC id give the same 401; with both fields present, login succeeds exactly when the first active row with that user name holds the KYC id, and the token carries that row |
| FarmerKycController.RegisteredFarmerCanLogIn | backend/controllers/farmerKYCController.js:105-180 | a farmer who just registered logs in with the e-mail and the KYC id and gets a `farmer` token for the new row |
| FarmerKycController.LoginFindsAppended | backend/controllers/farmerKYCController.js:152-180 | a new active row is the one login finds when no earlier active row has its user name |
| FarmerKycController.NoActiveUserYet | backend/controllers/farmerKYCController.js:92-101 | while user names are e-mails, an e-mail no row holds is no active row's user name |
| FarmerKycController.GetFarmerProfile | backend/controllers/farmerKYCController.js:214-240 | the farmer's row is returned without the password column exactly when it exists; otherwise a 404 |
| FarmerKycController.StripProtected | backend/controllers/farmerKYCController.js:249-254 | the body keeps exactly its keys other than the six identity keys, with their values |
| FarmerKycController.UpdateKeepsIdentity | backend/controllers/farmerKYCController.js:249-265 | the update never changes the id, KYC id, Aadhaar, user name, password or creation time, and sets every other column the body names |
| FarmerKycController.UpdateFarmerProfile | backend/controllers/farmerKYCController.js:243-279 | an unknown farmer is a 404 that writes nothing; otherwise only that row changes, by the stripped body; Aadhaar numbers stay distinct |
| FarmerKycController.ChangedEmailBlocksLaterLogin | backend/controllers/farmerKYCController.js:92-180 | after a farmer changes the e-mail, a new farmer may register with the old e-mail but can never log in |
| FarmerKycController.EmailChangeKeepsLogin | backend/controllers/farmerKYCController.js:249-265 | changing only the e-mail leaves the login columns and the Aadhaar as they were |
| OneTimePasswords.OtpTable.Insert | backend/utils/otp.js:22-30 | one unused code row with the next id is appended |
| OneTimePasswords.OtpTable.MarkUsed | backend/utils/otp.js:79-80 | only the used flag of one row changes |
| OneTimePasswords.GenerateOtp | backend/utils/otp.js:15-17 | the code is six decimal digits whose value lies in [100000, 999999] |
| OneTimePasswords.SendOtp | backend/utils/otp.js:19-56 | exactly one unused row is appended, holding the generated code and expiring ten minutes after now as the column stores it, that is less than a second early |
| OneTimePasswords.VerifyOtp | backend/utils/otp.js:58-87 | the newest unused matching row decides: none is "Invalid OTP", one past its stored expiry is "OTP has expired" and stays unused, otherwise that row alone is marked used |
| OneTimePasswords.VerifySpendsOneRow | backend/utils/otp.js:79-80 | after a successful verify the lookup sees the same rows except the one spent |
| OneTimePasswords.SecondVerifyFails | backend/utils/otp.js:60-72 | when the spent row was the only unused match, a second verify of the code says "Invalid OTP" |
| OneTimePasswords.SentCodeFoundUntilExpiry | backend/utils/otp.js:22-30 | a code just sent, newer than every earlier row, is the row verify finds |
| AuthMiddleware.Token | backend/middleware/auth.js:7 | a token exists exactly when the header does |
| AuthMiddleware.Verified | backend/middleware/auth.js:4-25 | a missing or empty token is a 401, a token that fails verification a 401, and the request passes exactly when the token verifies, carrying its claims |
| AuthMiddleware.RoleOrType | backend/middleware/auth.js:42 | the role decides when it is non-empty, the type otherwise |
| AuthMiddleware.AuthMedical | backend/middleware/auth.js:28-58 | a verified token passes exactly when its role, or its type when the role is empty, is `medical_user`; otherwise a 403 |
| AuthMiddleware.AuthFarmer | backend/middleware/auth.js:61-89 | a verified token passes exactly when its role is `farmer`; otherwise a 403 |
| AuthMiddleware.AuthHospital | backend/middleware/auth.js:92-120 | a verified token passes exactly when its role is `hospital`; otherwise a 403 |
| AuthMiddleware.RoleGuard | backend/middleware/auth.js:122-140 | no user is a 401, a type outside the allowed roles a 403, otherwise the request passes |
| AuthMiddleware.BearerHeaderYieldsToken | backend/middleware/auth.js:7 | `Bearer t` yields `t`, and a header without `Bearer ` is taken whole |
| AuthMiddleware.TokenDropsFirstBearer | backend/middleware/auth.js:7 | only the first `Bearer ` is removed, wherever it stands |
| AuthMiddleware.BareSchemeHasNoToken | backend/middleware/auth.js:7-14 | a header that is just `Bearer ` is refused with 401 |
| AuthMiddleware.UnverifiedNeverPasses | backend/middleware/auth.js:16-24 | a token that fails verification is a 401 under every guard |
| AuthMiddleware.RoleGuardsDisjoint | backend/middleware/auth.js:28-120 | no request passes more than one of the medical, farmer and hospital guards |
| AuthMiddleware.TypeOnlyMedicalFallback | backend/middleware/auth.js:42-48 | claims with no role and type `medical_user` pass the medical guard and are refused by the other two |
| AuthMiddleware.RoleAfterAuth | backend/middleware/auth.js:122-140 | behind the token check the role guard never says 401, and passes exactly when the token verifies with an allowed type |
| FarmerKycRegister.PatternHasShape | frontend/src/pages/Farmer/FarmerKYCRegister.js:77 | a match of the e-mail pattern has no white space, one `@` with text before it and a dot after it that is neither next to the `@` nor last |
| FarmerKycRegister.ShapeMatchesPattern | frontend/src/pages/Farmer/FarmerKYCRegister.js:77 | every string of that shape matches the pattern |
| FarmerKycRegister.EmailPatternShape | frontend/src/pages/Farmer/FarmerKYCRegister.js:77 | the pattern accepts exactly the strings of that shape |
| FarmerKycRegister.Utf16Length | frontend/src/pages/Farmer/FarmerKYCRegister.js:88 | a string's `.length` counts UTF-16 code units: between one and two per character, and equal to the character count exactly when no character lies outside the Basic Multilingual Plane |
| FarmerKycRegister.ValidateSection | frontend/src/pages/Farmer/FarmerKYCRegister.js:72-126 | each step passes exactly when its fields pass (e-mail shape; name, Aadhaar of `.length` 12, mobile of `.length` 10, state; land area; bank account, IFSC of `.length` 11, bank name), otherwise it shows its first failing check's message; other step numbers always pass |
| FarmerKycRegister.KycWizard.constructor | frontend/src/pages/Farmer/FarmerKYCRegister.js:10-38 | the form starts at step 1 with the initial values and no error |
| FarmerKycRegister.KycWizard.HandleChange | frontend/src/pages/Farmer/FarmerKYCRegister.js:64-70 | one input writes only its own field |
| FarmerKycRegister.KycWizard.HandleNext | frontend/src/pages/Farmer/FarmerKYCRegister.js:128-132 | the step advances exactly when its check passes, otherwise the error shows; the step stays within 1..4 |
| FarmerKycRegister.KycWizard.HandlePrevious | frontend/src/pages/Farmer/FarmerKYCRegister.js:134-137 | the step goes back without a check and stays within 1..4 |
| FarmerKycRegister.KycWizard.HandleSubmit | frontend/src/pages/Farmer/FarmerKYCRegister.js:139-165 | only step 4 is checked again; the form is posted exactly when that check passes |
| FarmerKycRegister.CompleteFormPassesServerChecks | frontend/src/pages/Farmer/FarmerKYCRegister.js:72-126 | a form passing all four steps, with digit-only Aadhaar and mobile and a listed state, passes every server format check |
| FarmerKycRegister.LengthOnlyAadhaarRefused | frontend/src/pages/Farmer/FarmerKYCRegister.js:88-91 | an Aadhaar of twelve characters with a non-digit passes the form and is refused by the server |
| FarmerKycRegister.SubmitSkipsEarlierSteps | frontend/src/pages/Farmer/FarmerKYCRegister.js:142 | a form whose e-mail was cleared after step 1 is still posted, and the server refuses it |
| GrantForm.ToggleScope | frontend/src/pages/Medical/HospitalAccessManagement.js:39-48 | exactly the toggled scope's membership flips: an unticked one is added at the end, a ticked one removed with the others kept in order; nothing else in the form changes |
| GrantForm.ToggleKeepsScopesWellFormed | frontend/src/pages/Medical/HospitalAccessManagement.js:39-48 | the ticked scopes stay free of duplicates and within the offered choices |
| GrantForm.ToggleTwiceSameScopes | frontend/src/pages/Medical/HospitalAccessManagement.js:39-48 | toggling a scope twice gives back the same set of ticked scopes |
| GrantForm.ToggleTwiceRestores | frontend/src/pages/Medical/HospitalAccessManagement.js:39-48 | on a duplicate-free list, toggling twice restores the form when the scope was unticked or last |
| GrantForm.ToggleTwiceReorders | frontend/src/pages/Medical/HospitalAccessManagement.js:39-42 | with `[a, b]` ticked, toggling `a` twice gives `[b, a]` |
| GrantForm.TogglePermission | frontend/src/pages/Medical/HospitalAccessManagement.js:50-61 | only the flag of that permission under that scope flips (absent reads false); every other flag and field is kept |
| GrantForm.TogglePermissionTwice | frontend/src/pages/Medical/HospitalAccessManagement.js:50-61 | flipping twice restores every flag's reading, though a flag never set is left stored as false |
| GrantForm.GrantAccess | frontend/src/pages/Medical/HospitalAccessManagement.js:63-86 | no ticked scope blocks the request; otherwise the form is posted as it is, and on success it is closed and reset to its defaults |
| GrantForm.ResetBlocksResubmit | frontend/src/pages/Medical/HospitalAccessManagement.js:76-81 | after a successful grant the form is at its defaults, so a second submit is blocked |
| GrantForm.Body | frontend/src/pages/Medical/HospitalAccessManagement.js:73 | the posted body has exactly the form's four keys |
| GrantForm.ReadGrantRequest | backend/controllers/medicalController.js:283 | the endpoint finds a field only when the body has a key of that name |
| GrantForm.FormBodyMissesEndpointFields | backend/controllers/medicalController.js:283-291 | whatever the form holds, the endpoint finds none of its fields and refuses the grant |
| Text.Trim | backend/controllers/medicalFileController.js:58 | what `trim()` leaves neither starts nor ends with white space |
| Text.TrimIsMiddle | backend/controllers/medicalFileController.js:92 | what `trim()` leaves is the middle of the string, with only white space cut off at either end |
| Text.TrimEmptyIffBlank | backend/controllers/medicalFileController.js:58 | the trimmed name is empty exactly when the name is all white space |
| Text.TrimIdempotent | backend/controllers/medicalFileController.js:131 | trimming a stored name again changes nothing |
| Text.DecimalValueRoundTrip | backend/controllers/medicalController.js:312 | reading back the digits of a number gives the number |
| Text.ParseIntRoundTrip | backend/controllers/medicalController.js:312 | `parseInt` of a number written in decimal gives that number |

## Left out

- The database is in-memory sequences. Sequelize queries, MySQL collation, transactions and connection errors are not modelled. A thrown database error is modelled only where the handler's own guards let an invalid row through (a missing email, password or bill field, a taken unique column, an expiry outside the `DATETIME` range).
- `include` joins add hospital, user or folder data to replies. Only the rows themselves are modelled.
- MedicalFileController.GetFolders: keeps the folders in table order, not `folder_name` ascending, because MySQL's collation is not modelled.
- bcrypt hashing and `comparePassword` are left out. `jwt.verify` is the parameter `verify`, and token signing is left out.
- Sending the OTP e-mail with nodemailer is left out (backend/utils/otp.js:39-49).
- `Math.random()` is the fraction `n / d`. The uuid-based `medical_id` (backend/models/MedicalAccount.js:74) and the KYC id hook are parameters; `CreateMedicalAccount` receives the `medical_id` before the row is validated (see Findings).
- File system work is left out: multer storage, `fs.unlink`, `res.download`. Only the MIME and category checks and the rows are modelled.
- `Date#setDate` is modelled as adding `days * 86400000` milliseconds. Calendar and daylight-saving effects are left out.
- MySQL is taken to run in strict mode, its default: an expiry outside the `DATETIME` range makes the insert fail. In non-strict mode a zero date would be stored instead.
- MedicalController.GrantHospitalAccess: models the handler on a hospitals table whose `hfr_id` is filled, which the backend never does (`GrantHospitalAccessAsWritten`, see Findings). The lemmas about created grants (`GrantOpensAccess`, `GrantLifetime`, `GrantIsListed`, the revoke lemmas and the hospital views of granted patients) describe that intended state.
- UpdateMedicalProfile: the `profile_updated` row records the body's keys as a set, while the code stores `Object.keys(req.body)`, an array in the body's key order; request bodies are maps here, which carry no key order.
- `new Date('2099-12-31')` is the constant 4102358400000.
- Column length limits are left out, and so is `ip_address`, which no handler fills.
- These handlers are not modelled: `checkAccountStatus`, `medicalLogin`, `getMedicalProfile`, `getMedicalRecords` and `getMedicalBills` in backend/controllers/medicalController.js, and `getStates` in backend/controllers/farmerKYCController.js. They are single lookups outside the consent rules.
- MedicalController.CreateMedicalAccount: models the handler with `medical_id` set before validation. The code sets it in the `beforeCreate` hook, which runs after the not-null check, so as written no account is ever created (`CreateMedicalAccountAsWritten`, see Findings). The 500 raised when a lookup by a missing email throws is modelled. Other non-string JSON values in the body are left out.
- Request bodies are maps of strings, and JSON type coercion is left out. FarmerKycController.Updated ignores body keys that name no column, as the ORM does.
- The reply bodies keep the rows. The JSON projections the handlers build (for example the `farmer` object at registration) are left out.
- `created_at`, `granted_at` and `timestamp` keep milliseconds in the model; the columns keep whole seconds, so rows from the same second come back in an order MySQL leaves open. The model orders them by millisecond, one of the orders MySQL may give.
- The farmer table follows the columns the KYC controller writes. backend/models/FarmerAccount.js declares a different column set and no `kyc_id` hook; that model is not part of this model.
- Frontend `alert`, navigation, fetching the state list, the active-access list refresh, the revoke button and the handling of the server's reply after the KYC submit are left out.
- GrantForm.ToggleTwiceRestores: holds only when the scope was unticked or last, because in general the order changes (ToggleTwiceReorders).
- Concurrency: every handler is modelled as atomic.

## Findings

| source | as written | input that shows it | evidently intended | confidence | as-written member | corrected member |
|---|---|---|---|---|---|---|
| backend/controllers/medicalController.js:67-77 | `MedicalAccount.create` is called without `medical_id`, a column declared not null (backend/models/MedicalAccount.js:21-25) and filled only by the `beforeCreate` hook (backend/models/MedicalAccount.js:73-78); validation runs before that hook, so the create throws and the handler answers 500 | user 7 with no account, email "a@b.c" unused, password "pw": 500 "Failed to create medical account", no row written (`FirstAccountNeverCreatedAsWritten`; every such request: `CreationFailsAsWritten`) | the account and its `login` audit row are created and the reply is 201, as backend/scripts/testMedical.js:49-62 expects | medium; not executed, rests on the ORM validating before `beforeCreate` hooks | MedicalController.CreateMedicalAccountAsWritten | MedicalController.CreateMedicalAccount |
| backend/controllers/medicalController.js:294-296 | the hospital is looked up by `hfr_id`, a column backend/models/Hospital.js:5-63 does not declare and backend/controllers/authController.js:159-169 never writes; backend/scripts/updateHospitalSchema.js:30-33 adds it empty, and the schema sync at every start (backend/server.js:61) removes undeclared columns | any complete request, e.g. hospital identifier "HFR-1", scopes `["records"]`, type "read", duration "revoked": a 500 without the column, a 404 with it, and no grant (`FirstGrantNeverCreatedAsWritten`; every request: `NoGrantWithoutHfrIds`) | the hospital whose HFR id the patient enters receives the grant, as the handler's own comment at backend/controllers/medicalController.js:293 says | medium; not executed, rests on the ORM passing undeclared where-columns to MySQL and on its schema sync dropping them | MedicalController.GrantHospitalAccessAsWritten | MedicalController.GrantHospitalAccess |

=== FILE: audit_log.dfy ===
/**
  The `audit_logs` table: one row per event on a patient's medical
  account. The handlers only ever insert into it; nothing updates or
  deletes a row.
*/
module AuditLogModel {
  import opened Wrappers

  /** The `action_type` enumeration. */
  datatype ActionType = AccessGranted | AccessRevoked | DataViewed | DataUploaded | ProfileUpdated | Login

  /** The `actor_type` enumeration. */
  datatype ActorType = UserActor | HospitalActor | SystemActor

  function ActionTypeName(a: ActionType): string {
    match a
    case AccessGranted => "access_granted"
    case AccessRevoked => "access_revoked"
    case DataViewed => "data_viewed"
    case DataUploaded => "data_uploaded"
    case ProfileUpdated => "profile_updated"
    case Login => "login"
  }

  /** The value the column accepts for a string; anything outside the enumeration is rejected. */
  function ParseActionType(s: string): Option<ActionType> {
    if s == "access_granted" then Some(AccessGranted)
    else if s == "access_revoked" then Some(AccessRevoked)
    else if s == "data_viewed" then Some(DataViewed)
    else if s == "data_uploaded" then Some(DataUploaded)
    else if s == "profile_updated" then Some(ProfileUpdated)
    else if s == "login" then Some(Login)
    else None
  }

  /** Storing and reading back an action type are inverse: the column holds exactly the six names. */
  lemma ActionTypeNames(s: string, a: ActionType)
    ensures ParseActionType(s) == Some(a) <==> ActionTypeName(a) == s
  {
  }

  function ActorTypeName(a: ActorType): string {
    match a
    case UserActor => "user"
    case HospitalActor => "hospital"
    case SystemActor => "system"
  }

  function ParseActorType(s: string): Option<ActorType> {
    if s == "user" then Some(UserActor)
    else if s == "hospital" then Some(HospitalActor)
    else if s == "system" then Some(SystemActor)
    else None
  }

  /** Storing and reading back an actor type are inverse: the column holds exactly the three names. */
  lemma ActorTypeNames(s: string, a: ActorType)
    ensures ParseActorType(s) == Some(a) <==> ActorTypeName(a) == s
  {
  }

  /** The `details` JSON, one shape per kind of event the handlers record. */
  datatype Details =
    | GrantDetails(scopes: seq<string>, permissionType: string, duration: string)
    | RevokeDetails(accessId: nat)
    | ViewDetails(viewedData: string)
    | UploadDetails(recordType: string, title: string)
    | ProfileDetails(updatedFields: set<string>)
    | ActionDetails(action: string)

  /** One audit row; `ip_address` is never filled by the handlers and is left out. */
  datatype AuditLog = AuditLog(
    id: nat,
    medicalAccountId: nat,
    actionType: ActionType,
    actorType: ActorType,
    actorId: Option<nat>,
    hospitalId: Option<nat>,
    details: Details,
    timestamp: int)

  /** The `audit_logs` table with its autoincrement counter. */
  class AuditLogTable {
    var rows: seq<AuditLog>
    var nextId: nat

    /** Ids are positive, increasing in insertion order and below the counter. */
    ghost predicate Valid()
      reads this
    {
      && nextId > 0
      && (forall i :: 0 <= i < |rows| ==> 0 < rows[i].id < nextId)
      && (forall i, j :: 0 <= i < j < |rows| ==> rows[i].id < rows[j].id)
    }

    constructor ()
      ensures Valid() && rows == [] && nextId == 1
    {
      rows := [];
      nextId := 1;
    }

    /** `AuditLog.create(...)`: appends one row stamped with the current time; earlier rows are untouched. */
    method Append(medicalAccountId: nat, actionType: ActionType, actorType: ActorType,
                  actorId: Option<nat>, hospitalId: Option<nat>, details: Details, now: int)
      returns (e: AuditLog)
      requires Valid()
      modifies this
      ensures Valid()
      ensures e == AuditLog(old(nextId), medicalAccountId, actionType, actorType, actorId, hospitalId, details, now)
      ensures rows == old(rows) + [e] && nextId == old(nextId) + 1
    {
      e := AuditLog(nextId, medicalAccountId, actionType, actorType, actorId, hospitalId, details, now);
      rows := rows + [e];
      nextId := nextId + 1;
    }
  }
}

=== FILE: auth.dfy ===
/**
  The Express middleware that guards every route: it takes the token out
  of the `Authorization` header, has it verified, and admits or refuses
  the request by the role the verified claims carry.
*/
module AuthMiddleware {
  import opened Wrappers
  import opened Http
  import opened Text

  /**
    The decoded token payload, as far as the middleware looks at it:
    `role` and `type`, either of which may be absent.
  */
  datatype Claims = Claims(role: Option<string>, userType: Option<string>)

  /** The middleware's decision: call `next` with the claims attached, or answer with an error. */
  datatype Outcome = Next(claims: Claims) | Reject(status: int, message: string)

  const BearerPrefix := "Bearer "
  const NoToken := "Access denied. No token provided."
  const BadToken := "Invalid or expired token"

  /**
    `req.header('Authorization')?.replace('Bearer ', '')`: absent when the
    header is, otherwise the header with its first `Bearer ` removed.
  */
  function Token(header: Option<string>): (r: Option<string>)
    ensures r.None? <==> header.None?
  {
    match header
    case None => None
    case Some(h) => Some(ReplaceFirst(h, BearerPrefix, ""))
  }

  /**
    The first two steps every middleware shares. `verify` is
    `jwt.verify` with the server's secret: `None` where it throws.
  */
  function Verified(header: Option<string>, verify: string -> Option<Claims>): (r: Outcome)
    ensures !Truthy(Token(header)) ==> r == Reject(Unauthorized, NoToken)
    ensures Truthy(Token(header)) && verify(Token(header).value).None? ==> r == Reject(Unauthorized, BadToken)
    ensures r.Next? <==> Truthy(Token(header)) && verify(Token(header).value).Some?
    ensures r.Next? ==> r.claims == verify(Token(header).value).value
  {
    var token := Token(header);
    if !Truthy(token) then Reject(Unauthorized, NoToken)
    else match verify(token.value)
      case None => Reject(Unauthorized, BadToken)
      case Some(c) => Next(c)
  }

  /** authMiddleware: any verified token is admitted and becomes `req.user`. */
  function AuthUser(header: Option<string>, verify: string -> Option<Claims>): Outcome {
    Verified(header, verify)
  }

  /** `decoded.role || decoded.type`: the role when it is a non-empty string, else the type. */
  function RoleOrType(c: Claims): (r: Option<string>)
    ensures Truthy(c.role) ==> r == c.role
    ensures !Truthy(c.role) ==> r == c.userType
  {
    if Truthy(c.role) then c.role else c.userType
  }

  /**
    authMedical: a verified token passes exactly when its role, or its
    type when the role is missing or empty, is `medical_user`.
  */
  function AuthMedical(header: Option<string>, verify: string -> Option<Claims>): (r: Outcome)
    ensures Verified(header, verify).Reject? ==> r == Verified(header, verify)
    ensures Verified(header, verify).Next? ==>
              if RoleOrType(Verified(header, verify).claims) == Some("medical_user")
              then r == Verified(header, verify)
              else r == Reject(Forbidden, "Access denied. Medical user role required.")
  {
    match Verified(header, verify)
    case Reject(s, m) => Reject(s, m)
    case Next(c) =>
      if RoleOrType(c) != Some("medical_user") then Reject(Forbidden, "Access denied. Medical user role required.")
      else Next(c)
  }

  /** authFarmer: a verified token passes exactly when its role is `farmer`. */
  function AuthFarmer(header: Option<string>, verify: string -> Option<Claims>): (r: Outcome)
    ensures Verified(header, verify).Reject? ==> r == Verified(header, verify)
    ensures Verified(header, verify).Next? ==>
              if Verified(header, verify).claims.role == Some("farmer")
              then r == Verified(header, verify)
              else r == Reject(Forbidden, "Access denied. Farmer role required.")
  {
    match Verified(header, verify)
    case Reject(s, m) => Reject(s, m)
    case Next(c) =>
      if c.role != Some("farmer") then Reject(Forbidden, "Access denied. Farmer role required.")
      else Next(c)
  }

  /** authHospital: a verified token passes exactly when its role is `hospital`. */
  function AuthHospital(header: Option<string>, verify: string -> Option<Claims>): (r: Outcome)
    ensures Verified(header, verify).Reject? ==> r == Verified(header, verify)
    ensures Verified(header, verify).Next? ==>
              if Verified(header, verify).claims.role == Some("hospital")
              then r == Verified(header, verify)
              else r == Reject(Forbidden, "Access denied. Hospital role required.")
  {
    match Verified(header, verify)
    case Reject(s, m) => Reject(s, m)
    case Next(c) =>
      if c.role != Some("hospital") then Reject(Forbidden, "Access denied. Hospital role required.")
      else Next(c)
  }

  /**
    roleMiddleware(...allowed) on `req.user`: 401 without a user, 403 when
    the user's `type` is not one of the allowed roles, `next` otherwise.
  */
  function RoleGuard(allowed: seq<string>, user: Option<Claims>): (r: Outcome)
    ensures user.None? ==> r == Reject(Unauthorized, "Unauthorized")
    ensures user.Some? ==>
              if user.value.userType.Some? && user.value.userType.value in allowed
              then r == Next(user.value)
              else r == Reject(Forbidden, "Access forbidden. Insufficient permissions.")
  {
    match user
    case None => Reject(Unauthorized, "Unauthorized")
    case Some(u) =>
      if u.userType.None? || u.userType.value !in allowed then Reject(Forbidden, "Access forbidden. Insufficient permissions.")
      else Next(u)
  }

  /** A route guarded by authMiddleware and then roleMiddleware(...allowed). */
  function UserWithRole(header: Option<string>, verify: string -> Option<Claims>, allowed: seq<string>): Outcome {
    match AuthUser(header, verify)
    case Reject(s, m) => Reject(s, m)
    case Next(c) => RoleGuard(allowed, Some(c))
  }

  /**
    A header of the form `Bearer <t>` yields `t`, and a header that
    contains no `Bearer ` at all is taken whole.
  */
  lemma BearerHeaderYieldsToken(t: string)
    ensures Token(Some(BearerPrefix + t)) == Some(t)
    ensures (forall j :: 0 <= j <= |t| ==> !OccursAt(t, BearerPrefix, j)) ==> Token(Some(t)) == Some(t)
  {
    var h := BearerPrefix + t;
    assert h[..|BearerPrefix|] == BearerPrefix;
    assert OccursAt(h, BearerPrefix, 0);
    assert IndexFrom(h, BearerPrefix, 0) == Some(0);
    assert ReplaceFirst(h, BearerPrefix, "") == h[..0] + "" + h[|BearerPrefix|..];
    assert h[..0] + "" + h[|BearerPrefix|..] == t;
  }

  /**
    Only the first `Bearer ` is removed, wherever it stands: a header
    `a + "Bearer " + b` with no earlier occurrence yields `a + b`, so the
    scheme name need not lead the header.
  */
  lemma TokenDropsFirstBearer(a: string, b: string)
    requires forall j :: 0 <= j < |a| ==> !OccursAt(a + BearerPrefix + b, BearerPrefix, j)
    ensures Token(Some(a + BearerPrefix + b)) == Some(a + b)
  {
    var h := a + BearerPrefix + b;
    assert h[|a|..|a| + |BearerPrefix|] == BearerPrefix;
    assert OccursAt(h, BearerPrefix, |a|);
    assert IndexFrom(h, BearerPrefix, 0) == Some(|a|);
    assert ReplaceFirst(h, BearerPrefix, "") == h[..|a|] + "" + h[|a| + |BearerPrefix|..];
    assert h[..|a|] == a && h[|a| + |BearerPrefix|..] == b;
    assert h[..|a|] + "" + h[|a| + |BearerPrefix|..] == a + b;
  }

  /** A header that is just `Bearer ` carries no token and is refused with 401. */
  lemma BareSchemeHasNoToken(verify: string -> Option<Claims>)
    ensures Verified(Some(BearerPrefix), verify) == Reject(Unauthorized, NoToken)
  {
    BearerHeaderYieldsToken("");
    assert BearerPrefix + "" == BearerPrefix;
  }

  /**
    Whatever the guard, a token that does not verify is answered with 401
    and never reaches `next`.
  */
  lemma UnverifiedNeverPasses(header: Option<string>, verify: string -> Option<Claims>, allowed: seq<string>)
    requires Truthy(Token(header)) && verify(Token(header).value).None?
    ensures AuthUser(header, verify) == Reject(Unauthorized, BadToken)
    ensures AuthMedical(header, verify) == Reject(Unauthorized, BadToken)
    ensures AuthFarmer(header, verify) == Reject(Unauthorized, BadToken)
    ensures AuthHospital(header, verify) == Reject(Unauthorized, BadToken)
    ensures UserWithRole(header, verify, allowed) == Reject(Unauthorized, BadToken)
  {
  }

  /**
    The three role guards admit disjoint sets of tokens: no request passes
    more than one of authMedical, authFarmer and authHospital.
  */
  lemma RoleGuardsDisjoint(header: Option<string>, verify: string -> Option<Claims>)
    ensures !(AuthMedical(header, verify).Next? && AuthFarmer(header, verify).Next?)
    ensures !(AuthMedical(header, verify).Next? && AuthHospital(header, verify).Next?)
    ensures !(AuthFarmer(header, verify).Next? && AuthHospital(header, verify).Next?)
  {
  }

  /**
    authFarmer and authHospital never look at `type`, while authMedical
    falls back to it: claims without a role but with type `medical_user`
    pass authMedical and are refused by the other two.
  */
  lemma TypeOnlyMedicalFallback(header: Option<string>, verify: string -> Option<Claims>, role: Option<string>)
    requires Truthy(Token(header)) && verify(Token(header).value) == Some(Claims(role, Some("medical_user")))
    requires !Truthy(role)
    ensures AuthMedical(header, verify) == Next(Claims(role, Some("medical_user")))
    ensures AuthFarmer(header, verify) == Reject(Forbidden, "Access denied. Farmer role required.")
    ensures AuthHospital(header, verify) == Reject(Forbidden, "Access denied. Hospital role required.")
  {
  }

  /**
    Behind authMiddleware, roleMiddleware never answers "Unauthorized":
    the route passes exactly when the token verifies and its `type` is
    allowed, and a verified token of another type is refused with 403.
  */
  lemma RoleAfterAuth(header: Option<string>, verify: string -> Option<Claims>, allowed: seq<string>)
    ensures UserWithRole(header, verify, allowed) != Reject(Unauthorized, "Unauthorized")
    ensures UserWithRole(header, verify, allowed).Next? <==>
              && Truthy(Token(header))
              && verify(Token(header).value).Some?
              && verify(Token(header).value).value.userType.Some?
              && verify(Token(header).value).value.userType.value in allowed
    ensures Verified(header, verify).Next? && !UserWithRole(header, verify, allowed).Next? ==>
              UserWithRole(header, verify, allowed) == Reject(Forbidden, "Access forbidden. Insufficient permissions.")
  {
  }
}

=== FILE: consent_properties.dfy ===
/**
  Properties that connect the patient-side handlers, which write grants,
  with the hospital-side handlers, which read them.
*/
module ConsentProperties {
  import opened Wrappers
  import opened Query
  import opened Text
  import opened HospitalAccessModel
  import opened MedicalController
  import opened HospitalController
  import opened DateTimeColumn

  /**
    A grant just inserted is in force for its hospital until its expiry:
    the hospital's access check finds a grant for the patient and the
    patient is on the hospital's active list.
  */
  lemma GrantOpensAccess(rows: seq<HospitalAccess>, g: HospitalAccess, t: int)
    requires g.isActive && t < g.expiresAt
    ensures FindFirst(rows + [g], GrantFor(g.medicalAccountId, g.hospitalId, t)).Some?
    ensures g in GetActivePatients(rows + [g], g.hospitalId, t)
  {
    var p := GrantFor(g.medicalAccountId, g.hospitalId, t);
    assert p((rows + [g])[|rows|]);
  }

  /**
    A grant of `n` days given at `now` (the form's duration, written in
    decimal) is in force for the hospital exactly at the instants before
    `now + n` days as the column stores it, that is without its
    milliseconds: always up to a second before `now + n` days, never from
    then on. (When `now + n` days is past the last date the column holds,
    no grant is created at all: `ExpiryForDays`.)
  */
  lemma GrantLifetime(id: nat, accountId: nat, hospitalId: nat, scope: seq<string>, permissionType: string,
                      n: nat, now: int, t: int)
    requires Storable(now + n * DayMillis)
    ensures ExpiryFor(DecimalString(n), now).Some?
    ensures var g := NewGrant(id, accountId, hospitalId, scope, TypeOnlyPermissions(permissionType),
                              ExpiryFor(DecimalString(n), now).value, now);
            && (GrantFor(accountId, hospitalId, t)(g) <==> t < Stored(now + n * DayMillis))
            && (t + 1000 <= now + n * DayMillis ==> GrantFor(accountId, hospitalId, t)(g))
            && (t >= now + n * DayMillis ==> !GrantFor(accountId, hospitalId, t)(g))
  {
    ExpiryForDays(n, now);
  }

  /**
    After a revoke, the revoked grant no longer opens access; when it was
    the patient's only grant in force for that hospital, the hospital's
    access check fails.
  */
  lemma RevokeClosesAccess(rows: seq<HospitalAccess>, i: nat, now: int, t: int)
    requires i < |rows|
    ensures var after := rows[i := Revoked(rows[i], now)];
            FindFirst(after, GrantFor(rows[i].medicalAccountId, rows[i].hospitalId, t)) != Some(i)
    ensures (forall j :: 0 <= j < |rows| && j != i ==> !GrantFor(rows[i].medicalAccountId, rows[i].hospitalId, t)(rows[j])) ==>
              FindFirst(rows[i := Revoked(rows[i], now)], GrantFor(rows[i].medicalAccountId, rows[i].hospitalId, t)) == None
  {
  }

  /**
    A revoke touches nobody else: the access check of any other hospital,
    or for any other patient, gives the same answer before and after.
  */
  lemma RevokeIsolated(rows: seq<HospitalAccess>, i: nat, now: int, accountId: nat, hospitalId: nat, t: int)
    requires i < |rows|
    requires accountId != rows[i].medicalAccountId || hospitalId != rows[i].hospitalId
    ensures FindFirst(rows[i := Revoked(rows[i], now)], GrantFor(accountId, hospitalId, t))
         == FindFirst(rows, GrantFor(accountId, hospitalId, t))
  {
    var after := rows[i := Revoked(rows[i], now)];
    forall j | 0 <= j < |rows| ensures GrantFor(accountId, hospitalId, t)(rows[j]) <==> GrantFor(accountId, hospitalId, t)(after[j]) {
    }
    FindFirstPointwise(rows, after, GrantFor(accountId, hospitalId, t));
  }

  /**
    The hospital's view and the patient's list can disagree at the expiry
    instant: at `t == expires_at` an active grant is listed to the patient
    as "active" while the hospital is refused.
  */
  lemma ExpiryInstantDisagreement(g: HospitalAccess)
    requires g.isActive
    ensures EntryAt(g, g.expiresAt).status == "active"
    ensures !GrantFor(g.medicalAccountId, g.hospitalId, g.expiresAt)(g)
  {
  }
}

=== FILE: date_time.dfy ===
/**
  The `DATE` columns of the tables. On MySQL they are `DATETIME` columns
  (written in UTC), which hold the instants from 1000-01-01 00:00:00 to
  9999-12-31 23:59:59 and keep whole seconds: the ORM writes an instant
  as `YYYY-MM-DD HH:mm:ss`, dropping its milliseconds. An instant outside
  the range is refused by the insert.
*/
module DateTimeColumn {
  /** 1000-01-01 00:00:00 UTC, in milliseconds since the epoch. */
  const MinStored := -30610224000000

  /** The last millisecond of 9999-12-31 23:59:59 UTC. */
  const MaxStored := 253402300799999

  /** An instant the column accepts. */
  predicate Storable(t: int) {
    MinStored <= t <= MaxStored
  }

  /** The instant the column gives back: `t` without its milliseconds. */
  function Stored(t: int): (s: int)
    ensures s <= t < s + 1000
    ensures s % 1000 == 0
    ensures Storable(t) ==> Storable(s)
  {
    t - t % 1000
  }
}

=== FILE: farmer_kyc_controller.dfy ===
/**
  The farmer KYC handlers: registration with its validation order and
  uniqueness checks, login with the e-mail as user name and the KYC id as
  password, reading the profile, and the profile update that strips the
  identity columns from the request body.

  A farmer row is its primary key plus a map from column name to the
  value stored there, as the handler sees it; a column with no entry
  reads as `null`.
*/
module FarmerKycController {
  import opened Wrappers
  import opened Http
  import opened Query
  import opened Text

  /** A value of a JSON request body or of a column. */
  datatype JsonValue = JString(s: string) | JNumber(n: int) | JBool(b: bool) | JNull

  /** The columns of a farmer row besides the primary key. */
  datatype Column =
    | FullName | Aadhaar | Mobile | Email | City | State
    | LandOwnership | LandArea | Village | Taluka | District | Pincode
    | CropType | IrrigationType | StorageCapacity
    | BankAccount | BankIfsc | BankName | KccNumber | FarmerCode
    | Username | PasswordHash | KycId | KycStatus | IsActive | CreatedAt

  /** The column's name in the table and in request bodies. */
  function Name(c: Column): string {
    match c
    case FullName => "full_name"
    case Aadhaar => "aadhaar"
    case Mobile => "mobile"
    case Email => "email"
    case City => "city"
    case State => "state"
    case LandOwnership => "land_ownership"
    case LandArea => "land_area"
    case Village => "village"
    case Taluka => "taluka"
    case District => "district"
    case Pincode => "pincode"
    case CropType => "crop_type"
    case IrrigationType => "irrigation_type"
    case StorageCapacity => "storage_capacity"
    case BankAccount => "bank_account"
    case BankIfsc => "bank_ifsc"
    case BankName => "bank_name"
    case KccNumber => "kcc_number"
    case FarmerCode => "farmer_id"
    case Username => "username"
    case PasswordHash => "password_hash"
    case KycId => "kyc_id"
    case KycStatus => "kyc_status"
    case IsActive => "is_active"
    case CreatedAt => "created_at"
  }

  /** The account columns the handler fills itself rather than from the registration fields. */
  predicate IsAccountColumn(c: Column) {
    c.Username? || c.PasswordHash? || c.KycId? || c.KycStatus? || c.IsActive? || c.CreatedAt?
  }

  datatype FarmerAccount = FarmerAccount(id: nat, columns: map<Column, JsonValue>)

  /** The value of a column; an absent column reads as `null`. */
  function Col(a: FarmerAccount, c: Column): JsonValue {
    if c in a.columns then a.columns[c] else JNull
  }

  function FarmerId(a: FarmerAccount): int {
    a.id
  }

  /** The 28 names the `state` field may take. */
  const IndianStates: seq<string> := [
    "Andhra Pradesh", "Arunachal Pradesh", "Assam", "Bihar", "Chhattisgarh",
    "Goa", "Gujarat", "Haryana", "Himachal Pradesh", "Jharkhand", "Karnataka",
    "Kerala", "Madhya Pradesh", "Maharashtra", "Manipur", "Meghalaya", "Mizoram",
    "Nagaland", "Odisha", "Punjab", "Rajasthan", "Sikkim", "Tamil Nadu",
    "Telangana", "Tripura", "Uttar Pradesh", "Uttarakhand", "West Bengal"]

  /** The keys the profile update deletes from the body, in the order it deletes them. */
  const ProtectedKeys: seq<string> := ["id", "kyc_id", "aadhaar", "username", "password_hash", "created_at"]

  /** The placeholder password the row is created with, before it is replaced by the KYC id. */
  const TempPassword := "TEMP_PASSWORD"

  // ---------------------------------------------------------------- the table

  /** The `farmer_accounts` table. */
  class FarmerTable {
    var rows: seq<FarmerAccount>
    var nextId: nat

    ghost predicate Valid()
      reads this
    {
      && nextId > 0
      && (forall a :: a in rows ==> 0 < a.id < nextId)
      && IncreasingKeys(rows, FarmerId)
    }

    constructor ()
      ensures Valid() && rows == [] && nextId == 1
    {
      rows := [];
      nextId := 1;
    }

    /** INSERT with the next primary key. */
    method Insert(columns: map<Column, JsonValue>) returns (a: FarmerAccount)
      requires Valid()
      modifies this
      ensures Valid()
      ensures a == FarmerAccount(old(nextId), columns)
      ensures rows == old(rows) + [a] && nextId == old(nextId) + 1
    {
      a := FarmerAccount(nextId, columns);
      rows := rows + [a];
      nextId := nextId + 1;
    }

    /** `row.update({ column: v })` with a column the code names, on the row at index `i`. */
    method SetColumn(i: nat, c: Column, v: JsonValue)
      requires Valid() && i < |rows|
      modifies this
      ensures Valid()
      ensures rows == old(rows)[i := FarmerAccount(old(rows)[i].id, old(rows)[i].columns[c := v])] && nextId == old(nextId)
    {
      rows := rows[i := FarmerAccount(rows[i].id, rows[i].columns[c := v])];
      assert forall j :: 0 <= j < |rows| ==> rows[j].id == old(rows)[j].id;
      forall a | a in rows ensures 0 < a.id < nextId {
        var j :| 0 <= j < |rows| && rows[j] == a;
        assert old(rows)[j] in old(rows);
      }
    }

    /** `row.update(values)` with a request body, on the row at index `i`. */
    method Update(i: nat, values: map<string, JsonValue>)
      requires Valid() && i < |rows|
      modifies this
      ensures Valid()
      ensures rows == old(rows)[i := Updated(old(rows)[i], values)] && nextId == old(nextId)
    {
      rows := rows[i := Updated(rows[i], values)];
      assert forall j :: 0 <= j < |rows| ==> rows[j].id == old(rows)[j].id;
      forall a | a in rows ensures 0 < a.id < nextId {
        var j :| 0 <= j < |rows| && rows[j] == a;
        assert old(rows)[j] in old(rows);
      }
    }
  }

  /**
    A row after `update(values)`: each column the values name takes the
    given value; names that are not columns are ignored; the primary key
    and every other column keep their values.
  */
  function Updated(a: FarmerAccount, values: map<string, JsonValue>): (r: FarmerAccount)
    ensures r.id == a.id
    ensures forall c :: Name(c) in values ==> Col(r, c) == values[Name(c)]
    ensures forall c :: Name(c) !in values ==> Col(r, c) == Col(a, c)
  {
    FarmerAccount(a.id, map c: Column | c in a.columns || Name(c) in values ::
                          if Name(c) in values then values[Name(c)] else a.columns[c])
  }

  /** No two rows hold the same Aadhaar number. */
  predicate AadhaarUnique(rows: seq<FarmerAccount>) {
    forall i, j :: 0 <= i < j < |rows| && Col(rows[i], Aadhaar) != JNull ==>
      Col(rows[i], Aadhaar) != Col(rows[j], Aadhaar)
  }

  /** A row whose Aadhaar number no row holds yet keeps the numbers distinct. */
  lemma AppendKeepsAadhaarUnique(rows: seq<FarmerAccount>, a: FarmerAccount, aadhaar: string)
    requires AadhaarUnique(rows)
    requires forall i :: 0 <= i < |rows| ==> Col(rows[i], Aadhaar) != JString(aadhaar)
    requires Col(a, Aadhaar) == JString(aadhaar)
    ensures AadhaarUnique(rows + [a])
  {
  }

  // ---------------------------------------------------------------- registration

  /** The registration body: every field the form sends is a string. */
  type Body = map<string, string>

  function Field(body: Body, name: string): Option<string> {
    if name in body then Some(body[name]) else None
  }

  /** A required field of the registration body with the label the error message uses for it. */
  datatype Required = Required(key: string, caption: string)

  const RequiredFields: seq<Required> := [
    Required("full_name", "Full Name"), Required("aadhaar", "Aadhaar"), Required("mobile", "Mobile"),
    Required("email", "Email"), Required("state", "State"), Required("bank_account", "Bank Account"),
    Required("bank_ifsc", "IFSC Code"), Required("bank_name", "Bank Name")]

  function Labels(fields: seq<Required>): seq<string> {
    if fields == [] then [] else [fields[0].caption] + Labels(fields[1..])
  }

  /** `a` is `b` with some elements left out, the rest in the same order. */
  predicate Subsequence(a: seq<string>, b: seq<string>) {
    if a == [] then true
    else if b == [] then false
    else (a[0] == b[0] && Subsequence(a[1..], b[1..])) || Subsequence(a, b[1..])
  }

  /**
    The labels of the required fields that are absent or empty: a label
    appears iff its field is falsy, in the order the fields are listed.
  */
  function MissingLabels(fields: seq<Required>, body: Body): (r: seq<string>)
    ensures |r| <= |fields|
    ensures Subsequence(r, Labels(fields))
    ensures forall l :: l in r <==> exists f :: f in fields && f.caption == l && !Truthy(Field(body, f.key))
  {
    if fields == [] then []
    else
      var rest := MissingLabels(fields[1..], body);
      assert forall f :: f in fields[1..] ==> f in fields;
      assert forall f :: f in fields ==> f == fields[0] || f in fields[1..];
      if Truthy(Field(body, fields[0].key)) then rest else [fields[0].caption] + rest
  }

  /** Every required field is present and non-empty. */
  predicate AllRequiredPresent(body: Body) {
    && Truthy(Field(body, "full_name")) && Truthy(Field(body, "aadhaar")) && Truthy(Field(body, "mobile"))
    && Truthy(Field(body, "email")) && Truthy(Field(body, "state")) && Truthy(Field(body, "bank_account"))
    && Truthy(Field(body, "bank_ifsc")) && Truthy(Field(body, "bank_name"))
  }

  /** Every field of the list is present and non-empty. */
  predicate AllTruthy(fields: seq<Required>, body: Body) {
    forall i :: 0 <= i < |fields| ==> Truthy(Field(body, fields[i].key))
  }

  /** No label is missing exactly when every listed field is present and non-empty. */
  lemma {:induction false} MissingNoneIffAllTruthy(fields: seq<Required>, body: Body)
    ensures MissingLabels(fields, body) == [] <==> AllTruthy(fields, body)
  {
    if fields != [] {
      MissingNoneIffAllTruthy(fields[1..], body);
      assert AllTruthy(fields, body) <==> Truthy(Field(body, fields[0].key)) && AllTruthy(fields[1..], body) by {
        assert forall i :: 0 < i < |fields| ==> fields[i] == fields[1..][i - 1];
      }
    }
  }

  /** The missing-fields message lists something exactly when a required field is absent or empty. */
  lemma MissingLabelsEmpty(body: Body)
    ensures MissingLabels(RequiredFields, body) == [] <==> AllRequiredPresent(body)
  {
    MissingNoneIffAllTruthy(RequiredFields, body);
    var fs := RequiredFields;
    if AllTruthy(fs, body) {
      forall i | 0 <= i < 8 ensures Truthy(Field(body, fs[i].key)) {
      }
      assert fs[0].key == "full_name" && fs[1].key == "aadhaar" && fs[2].key == "mobile" && fs[3].key == "email";
      assert fs[4].key == "state" && fs[5].key == "bank_account" && fs[6].key == "bank_ifsc" && fs[7].key == "bank_name";
    }
    if AllRequiredPresent(body) {
      forall i | 0 <= i < |fs| ensures Truthy(Field(body, fs[i].key)) {
        if i < 4 {
          assert i == 0 || i == 1 || i == 2 || i == 3;
        } else {
          assert i == 4 || i == 5 || i == 6 || i == 7;
        }
      }
    }
  }

  /** The message of the first registration check that fails before any table is read, if one fails. */
  function FormatRejection(body: Body): (r: Option<string>)
    ensures !AllRequiredPresent(body) ==>
              r == Some("Required fields are missing: " + Join(MissingLabels(RequiredFields, body), ", "))
    ensures AllRequiredPresent(body) && !DigitsOfLength(body["aadhaar"], 12) ==>
              r == Some("Aadhaar must be exactly 12 digits")
    ensures AllRequiredPresent(body) && DigitsOfLength(body["aadhaar"], 12) && !DigitsOfLength(body["mobile"], 10) ==>
              r == Some("Mobile must be exactly 10 digits")
    ensures r.None? <==>
              && AllRequiredPresent(body)
              && DigitsOfLength(body["aadhaar"], 12) && DigitsOfLength(body["mobile"], 10)
              && body["state"] in IndianStates
  {
    if !AllRequiredPresent(body) then Some("Required fields are missing: " + Join(MissingLabels(RequiredFields, body), ", "))
    else if !DigitsOfLength(body["aadhaar"], 12) then Some("Aadhaar must be exactly 12 digits")
    else if !DigitsOfLength(body["mobile"], 10) then Some("Mobile must be exactly 10 digits")
    else if body["state"] !in IndianStates then Some("Invalid state selected")
    else None
  }

  function AadhaarIs(aadhaar: string): FarmerAccount -> bool {
    (a: FarmerAccount) => Col(a, Aadhaar) == JString(aadhaar)
  }

  function EmailIs(email: string): FarmerAccount -> bool {
    (a: FarmerAccount) => Col(a, Email) == JString(email)
  }

  predicate AadhaarTaken(rows: seq<FarmerAccount>, aadhaar: string) {
    exists i :: 0 <= i < |rows| && AadhaarIs(aadhaar)(rows[i])
  }

  predicate EmailTaken(rows: seq<FarmerAccount>, email: string) {
    exists i :: 0 <= i < |rows| && EmailIs(email)(rows[i])
  }

  /** The registration fields sent, each copied as a string into the column of that name. */
  function CopiedFields(body: Body): (m: map<Column, JsonValue>)
    ensures forall c :: c in m <==> !IsAccountColumn(c) && Name(c) in body
    ensures forall c :: c in m ==> m[c] == JString(body[Name(c)])
  {
    map c: Column | !IsAccountColumn(c) && Name(c) in body :: JString(body[Name(c)])
  }

  /** The columns the row is created with: the fields sent, the e-mail as user name and the given password. */
  function CreationColumns(body: Body, password: string, kycId: string, now: int): (m: map<Column, JsonValue>)
    requires "email" in body
    ensures forall c :: !IsAccountColumn(c) ==> (c in m <==> Name(c) in body)
    ensures forall c :: !IsAccountColumn(c) && c in m ==> m[c] == JString(body[Name(c)])
    ensures Username in m && m[Username] == JString(body["email"])
    ensures PasswordHash in m && m[PasswordHash] == JString(password) && KycId in m && m[KycId] == JString(kycId)
    ensures KycStatus in m && m[KycStatus] == JString("pending") && IsActive in m && m[IsActive] == JBool(true)
    ensures CreatedAt in m && m[CreatedAt] == JNumber(now)
  {
    var copied := CopiedFields(body);
    copied[Username := JString(body["email"])][PasswordHash := JString(password)][KycId := JString(kycId)]
          [KycStatus := JString("pending")][IsActive := JBool(true)][CreatedAt := JNumber(now)]
  }

  /**
    The row a successful registration leaves: active, KYC pending, the
    e-mail as user name and the KYC id as the stored password, and the
    fields sent copied as strings.
  */
  function NewFarmer(id: nat, body: Body, kycId: string, now: int): (a: FarmerAccount)
    requires "email" in body
    ensures a.id == id
    ensures Col(a, Username) == JString(body["email"]) == Col(a, Email)
    ensures Col(a, PasswordHash) == JString(kycId) == Col(a, KycId)
    ensures Col(a, IsActive) == JBool(true) && Col(a, KycStatus) == JString("pending")
    ensures "aadhaar" in body ==> Col(a, Aadhaar) == JString(body["aadhaar"])
    ensures forall c :: !IsAccountColumn(c) ==> Col(a, c) == if Name(c) in body then JString(body[Name(c)]) else JNull
  {
    var c := CreationColumns(body, TempPassword, kycId, now);
    FarmerAccount(id, c[PasswordHash := JString(kycId)])
  }

  /**
    The two writes of a successful registration: the row is created with
    the placeholder password, then its password is set to its KYC id.
  */
  method CreateFarmer(farmers: FarmerTable, body: Body, kycId: string, now: int) returns (a: FarmerAccount)
    requires farmers.Valid() && "email" in body
    modifies farmers
    ensures farmers.Valid()
    ensures a == NewFarmer(old(farmers.nextId), body, kycId, now)
    ensures farmers.rows == old(farmers.rows) + [a]
  {
    var created := farmers.Insert(CreationColumns(body, TempPassword, kycId, now));
    farmers.SetColumn(|farmers.rows| - 1, PasswordHash, Col(created, KycId));
    a := farmers.rows[|farmers.rows| - 1];
  }

  /**
    registerFarmerKYC. The format checks come first (required fields,
    Aadhaar, mobile, state), then the Aadhaar and the e-mail must be new;
    each failure is a 400 that writes nothing. On success the row is
    created with the placeholder password and then updated to hold the
    KYC id, which the row's creation hook generates (here the parameter
    `kycId`). Registration never lets two rows share an Aadhaar number.
  */
  method RegisterFarmerKyc(farmers: FarmerTable, body: Body, kycId: string, now: int)
    returns (reply: Reply<FarmerAccount>)
    requires farmers.Valid()
    modifies farmers
    ensures farmers.Valid()
    ensures FormatRejection(body).Some? ==>
              reply == Fail(BadRequest, FormatRejection(body).value) && unchanged(farmers)
    ensures FormatRejection(body).None? && AadhaarTaken(old(farmers.rows), body["aadhaar"]) ==>
              reply == Fail(BadRequest, "Farmer with this Aadhaar already registered") && unchanged(farmers)
    ensures FormatRejection(body).None? && !AadhaarTaken(old(farmers.rows), body["aadhaar"])
            && EmailTaken(old(farmers.rows), body["email"]) ==>
              reply == Fail(BadRequest, "Email already registered") && unchanged(farmers)
    ensures reply.Ok? <==>
              && FormatRejection(body).None?
              && !AadhaarTaken(old(farmers.rows), body["aadhaar"])
              && !EmailTaken(old(farmers.rows), body["email"])
    ensures reply.Ok? ==>
              && reply == Ok(Created, NewFarmer(old(farmers.nextId), body, kycId, now))
              && farmers.rows == old(farmers.rows) + [reply.body]
    ensures AadhaarUnique(old(farmers.rows)) ==> AadhaarUnique(farmers.rows)
  {
    var rejection := FormatRejection(body);
    if rejection.Some? {
      return Fail(BadRequest, rejection.value);
    }
    var byAadhaar := FindFirst(farmers.rows, AadhaarIs(body["aadhaar"]));
    if byAadhaar.Some? {
      return Fail(BadRequest, "Farmer with this Aadhaar already registered");
    }
    assert forall i :: 0 <= i < |farmers.rows| ==> Col(farmers.rows[i], Aadhaar) != JString(body["aadhaar"]) by {
      forall i | 0 <= i < |farmers.rows| ensures Col(farmers.rows[i], Aadhaar) != JString(body["aadhaar"]) {
        assert !AadhaarIs(body["aadhaar"])(farmers.rows[i]);
      }
    }
    var byEmail := FindFirst(farmers.rows, EmailIs(body["email"]));
    if byEmail.Some? {
      return Fail(BadRequest, "Email already registered");
    }
    ghost var before := farmers.rows;
    var a := CreateFarmer(farmers, body, kycId, now);
    if AadhaarUnique(before) {
      AppendKeepsAadhaarUnique(before, a, body["aadhaar"]);
    }
    reply := Ok(Created, a);
  }

  // ---------------------------------------------------------------- login

  /** The claims of the token a successful login issues. */
  datatype FarmerClaims = FarmerClaims(id: nat, kycId: JsonValue, username: JsonValue, role: string)

  /** `findOne({ where: { username: email, is_active: true } })`. */
  function ActiveUser(email: string): FarmerAccount -> bool {
    (a: FarmerAccount) => Col(a, Username) == JString(email) && Col(a, IsActive) == JBool(true)
  }

  /**
    loginFarmer: both fields are required (400); the first active row
    whose user name is the e-mail must hold the KYC id as its password.
    An unknown user name and a wrong KYC id give the same 401.
  */
  function LoginFarmer(rows: seq<FarmerAccount>, email: Option<string>, kycId: Option<string>): (r: Reply<FarmerClaims>)
    ensures !Truthy(email) || !Truthy(kycId) ==> r == Fail(BadRequest, "Email and KYC ID are required")
    ensures Truthy(email) && Truthy(kycId) && r.Fail? ==> r == Fail(Unauthorized, "Invalid email or KYC ID")
    ensures Truthy(email) && Truthy(kycId) && (forall i :: 0 <= i < |rows| ==> !ActiveUser(email.value)(rows[i])) ==>
              r.Fail?
    ensures r.Ok? ==>
              exists i :: 0 <= i < |rows| && ActiveUser(email.value)(rows[i])
                && Col(rows[i], PasswordHash) == JString(kycId.value)
                && (forall j :: 0 <= j < i ==> !ActiveUser(email.value)(rows[j]))
                && r == Ok(Success, FarmerClaims(rows[i].id, Col(rows[i], KycId), Col(rows[i], Username), "farmer"))
    ensures Truthy(email) && Truthy(kycId) ==>
              (r.Ok? <==>
                 exists i :: 0 <= i < |rows| && ActiveUser(email.value)(rows[i])
                   && (forall j :: 0 <= j < i ==> !ActiveUser(email.value)(rows[j]))
                   && Col(rows[i], PasswordHash) == JString(kycId.value))
  {
    if !Truthy(email) || !Truthy(kycId) then Fail(BadRequest, "Email and KYC ID are required")
    else
      FindFirstIsFirstMatch(rows, ActiveUser(email.value));
      match FindFirst(rows, ActiveUser(email.value))
      case None => Fail(Unauthorized, "Invalid email or KYC ID")
      case Some(i) =>
        if Col(rows[i], PasswordHash) != JString(kycId.value) then Fail(Unauthorized, "Invalid email or KYC ID")
        else Ok(Success, FarmerClaims(rows[i].id, Col(rows[i], KycId), Col(rows[i], Username), "farmer"))
  }

  /** Every row's user name is still its e-mail: no profile update has changed an e-mail. */
  predicate UsernamesAreEmails(rows: seq<FarmerAccount>) {
    forall i :: 0 <= i < |rows| ==> Col(rows[i], Username) == Col(rows[i], Email)
  }

  /**
    While every user name is still the row's e-mail, a farmer who has just
    registered logs in with the e-mail and the KYC id and receives a token
    for the new row with the role `farmer`.
  */
  lemma RegisteredFarmerCanLogIn(rows: seq<FarmerAccount>, id: nat, body: Body, kycId: string, now: int)
    requires FormatRejection(body).None? && !EmailTaken(rows, body["email"]) && UsernamesAreEmails(rows)
    requires kycId != ""
    ensures LoginFarmer(rows + [NewFarmer(id, body, kycId, now)], Some(body["email"]), Some(kycId))
         == Ok(Success, FarmerClaims(id, JString(kycId), JString(body["email"]), "farmer"))
  {
    var email := body["email"];
    assert Truthy(Some(email));
    NoActiveUserYet(rows, email);
    LoginFindsAppended(rows, NewFarmer(id, body, kycId, now), email, kycId);
  }

  /** A new active row is the one login finds when no earlier active row has its user name. */
  lemma LoginFindsAppended(rows: seq<FarmerAccount>, a: FarmerAccount, email: string, kycId: string)
    requires email != "" && kycId != ""
    requires forall j :: 0 <= j < |rows| ==> !ActiveUser(email)(rows[j])
    requires ActiveUser(email)(a) && Col(a, PasswordHash) == JString(kycId)
    ensures LoginFarmer(rows + [a], Some(email), Some(kycId))
         == Ok(Success, FarmerClaims(a.id, Col(a, KycId), Col(a, Username), "farmer"))
  {
    var all := rows + [a];
    forall j | 0 <= j < |rows| ensures !ActiveUser(email)(all[j]) {
      assert all[j] == rows[j];
    }
    assert ActiveUser(email)(all[|rows|]);
    assert FindFirst(all, ActiveUser(email)) == Some(|rows|);
  }

  /** While user names are e-mails, an e-mail no row holds is no active row's user name. */
  lemma NoActiveUserYet(rows: seq<FarmerAccount>, email: string)
    requires !EmailTaken(rows, email) && UsernamesAreEmails(rows)
    ensures forall j :: 0 <= j < |rows| ==> !ActiveUser(email)(rows[j])
  {
    forall j | 0 <= j < |rows| ensures !ActiveUser(email)(rows[j]) {
      assert !EmailIs(email)(rows[j]);
    }
  }

  // ---------------------------------------------------------------- profile

  /** getFarmerProfile: the farmer's row without the password column, or 404. */
  function GetFarmerProfile(rows: seq<FarmerAccount>, farmerId: nat): (r: Reply<FarmerAccount>)
    ensures r.Ok? <==> exists i :: 0 <= i < |rows| && rows[i].id == farmerId
    ensures r.Ok? ==> r.status == Success && r.body.id == farmerId && Col(r.body, PasswordHash) == JNull
    ensures r.Ok? ==> exists i :: 0 <= i < |rows| && rows[i].id == farmerId
                        && forall c :: c != PasswordHash ==> Col(r.body, c) == Col(rows[i], c)
    ensures r.Fail? ==> r == Fail(NotFound, "Farmer profile not found")
  {
    match FindFirst(rows, (a: FarmerAccount) => a.id == farmerId)
    case None => Fail(NotFound, "Farmer profile not found")
    case Some(i) => Ok(Success, FarmerAccount(rows[i].id, rows[i].columns - {PasswordHash}))
  }

  /**
    The request body with the six identity keys deleted, one after the
    other, as the handler does before it looks the farmer up.
  */
  method StripProtected(updates: map<string, JsonValue>) returns (r: map<string, JsonValue>)
    ensures forall k :: k in r <==> k in updates && k !in ProtectedKeys
    ensures forall k :: k in r ==> r[k] == updates[k]
  {
    r := updates;
    for i := 0 to |ProtectedKeys|
      invariant forall k :: k in r <==> k in updates && k !in ProtectedKeys[..i]
      invariant forall k :: k in r ==> r[k] == updates[k]
    {
      assert ProtectedKeys[..i + 1] == ProtectedKeys[..i] + [ProtectedKeys[i]];
      r := r - {ProtectedKeys[i]};
    }
    assert ProtectedKeys[..|ProtectedKeys|] == ProtectedKeys;
  }

  /**
    Whatever the body says, an update with the identity keys stripped
    keeps the row's id, KYC id, Aadhaar, user name, password and creation
    time, and sets every other column the body names. The e-mail,
    `is_active` and `kyc_status` are among the columns it may set.
  */
  lemma UpdateKeepsIdentity(a: FarmerAccount, body: map<string, JsonValue>, stripped: map<string, JsonValue>)
    requires forall k :: k in stripped <==> k in body && k !in ProtectedKeys
    requires forall k :: k in stripped ==> stripped[k] == body[k]
    ensures var r := Updated(a, stripped);
            && r.id == a.id
            && Col(r, KycId) == Col(a, KycId) && Col(r, Aadhaar) == Col(a, Aadhaar)
            && Col(r, Username) == Col(a, Username) && Col(r, PasswordHash) == Col(a, PasswordHash)
            && Col(r, CreatedAt) == Col(a, CreatedAt)
    ensures forall c :: Name(c) in body && Name(c) !in ProtectedKeys ==> Col(Updated(a, stripped), c) == body[Name(c)]
    ensures forall c :: Name(c) !in body ==> Col(Updated(a, stripped), c) == Col(a, c)
  {
    assert Name(KycId) == ProtectedKeys[1] && Name(Aadhaar) == ProtectedKeys[2] && Name(Username) == ProtectedKeys[3];
    assert Name(PasswordHash) == ProtectedKeys[4] && Name(CreatedAt) == ProtectedKeys[5];
  }

  /**
    updateFarmerProfile: the identity keys are stripped from the body; an
    unknown farmer is a 404 that writes nothing; otherwise the row is
    updated with what is left and returned whole, password column included.
    The Aadhaar numbers of the table stay distinct.
  */
  method UpdateFarmerProfile(farmers: FarmerTable, farmerId: nat, updates: map<string, JsonValue>)
    returns (reply: Reply<FarmerAccount>)
    requires farmers.Valid()
    modifies farmers
    ensures farmers.Valid()
    ensures var f := FindFirst(old(farmers.rows), (a: FarmerAccount) => a.id == farmerId);
            && (f.None? ==> reply == Fail(NotFound, "Farmer not found") && unchanged(farmers))
            && (f.Some? ==>
                  && reply.Ok? && reply.status == Success
                  && farmers.rows == old(farmers.rows)[f.value := reply.body]
                  && reply.body == Updated(old(farmers.rows)[f.value], map k | k in updates && k !in ProtectedKeys :: updates[k]))
    ensures AadhaarUnique(old(farmers.rows)) ==> AadhaarUnique(farmers.rows)
  {
    var stripped := StripProtected(updates);
    var f := FindFirst(farmers.rows, (a: FarmerAccount) => a.id == farmerId);
    if f.None? {
      return Fail(NotFound, "Farmer not found");
    }
    UpdateKeepsIdentity(farmers.rows[f.value], updates, stripped);
    assert stripped == map k | k in updates && k !in ProtectedKeys :: updates[k];
    farmers.Update(f.value, stripped);
    reply := Ok(Success, farmers.rows[f.value]);
    assert forall j :: 0 <= j < |farmers.rows| ==> Col(farmers.rows[j], Aadhaar) == Col(old(farmers.rows)[j], Aadhaar);
  }

  /**
    The user name does not follow the e-mail. Once a farmer has changed
    the e-mail through a profile update, a new farmer passes every
    registration check with the first farmer's old e-mail, but can never
    log in: the login finds the first farmer's row by user name and
    compares the first farmer's KYC id.
  */
  lemma ChangedEmailBlocksLaterLogin(first: FarmerAccount, newEmail: string, body: Body, kycId: string, id: nat, now: int)
    requires FormatRejection(body).None? && kycId != ""
    requires Col(first, Username) == JString(body["email"]) && Col(first, IsActive) == JBool(true)
    requires Col(first, PasswordHash) != JString(kycId) && Col(first, Aadhaar) != JString(body["aadhaar"])
    requires newEmail != body["email"]
    ensures var moved := Updated(first, map["email" := JString(newEmail)]);
            && !AadhaarTaken([moved], body["aadhaar"])
            && !EmailTaken([moved], body["email"])
            && LoginFarmer([moved, NewFarmer(id, body, kycId, now)], Some(body["email"]), Some(kycId))
               == Fail(Unauthorized, "Invalid email or KYC ID")
  {
    assert "email" in body && "aadhaar" in body && body["email"] != "";
    var moved := Updated(first, map["email" := JString(newEmail)]);
    EmailChangeKeepsLogin(first, newEmail);
    var rows := [moved, NewFarmer(id, body, kycId, now)];
    assert ActiveUser(body["email"])(rows[0]);
    assert FindFirst(rows, ActiveUser(body["email"])) == Some(0);
  }

  /** Changing only the e-mail leaves the login columns and the aadhaar as they were. */
  lemma EmailChangeKeepsLogin(a: FarmerAccount, newEmail: string)
    ensures var moved := Updated(a, map["email" := JString(newEmail)]);
            && Col(moved, Email) == JString(newEmail)
            && Col(moved, Username) == Col(a, Username) && Col(moved, IsActive) == Col(a, IsActive)
            && Col(moved, PasswordHash) == Col(a, PasswordHash) && Col(moved, Aadhaar) == Col(a, Aadhaar)
  {
    var change := map["email" := JString(newEmail)];
    assert Name(Email) in change && Name(Username) !in change && Name(IsActive) !in change;
    assert Name(PasswordHash) !in change && Name(Aadhaar) !in change;
  }
}

=== FILE: farmer_kyc_register.dfy ===
/**
  The four-step KYC registration form of the farmer portal: the check
  each step runs before the form moves on, the step counter, and the
  submit guard, together with how the form's checks relate to the
  server's own checks of the same body.
*/
module FarmerKycRegister {
  import opened Wrappers
  import opened Text
  import opened FarmerKycController

  // ---------------------------------------------------------------- e-mail pattern

  /** A character `[^\s@]` matches. */
  predicate Plain(c: char) {
    !IsJsSpace(c) && c != '@'
  }

  predicate AllPlain(t: string) {
    forall i :: 0 <= i < |t| ==> Plain(t[i])
  }

  /**
    The regular expression `^[^\s@]+@[^\s@]+\.[^\s@]+$`, by its split
    points: the `@` at `a` and the literal dot at `d`.
  */
  predicate EmailPattern(s: string) {
    exists a, d :: 0 < a && a + 1 < d && d + 1 < |s| && s[a] == '@' && s[d] == '.'
                   && AllPlain(s[..a]) && AllPlain(s[a + 1..d]) && AllPlain(s[d + 1..])
  }

  /**
    The shape of an address the pattern accepts, described directly: no
    white space, exactly one `@` with something before it, and a dot
    after it that is neither right after the `@` nor the last character.
  */
  predicate EmailShape(s: string) {
    && (forall i :: 0 <= i < |s| ==> !IsJsSpace(s[i]))
    && exists a :: 0 < a < |s| && s[a] == '@'
                   && (forall i :: 0 <= i < |s| && i != a ==> s[i] != '@')
                   && (exists d :: a + 1 < d < |s| - 1 && s[d] == '.')
  }

  lemma PatternHasShape(s: string, a: nat, d: nat)
    requires 0 < a && a + 1 < d && d + 1 < |s| && s[a] == '@' && s[d] == '.'
    requires AllPlain(s[..a]) && AllPlain(s[a + 1..d]) && AllPlain(s[d + 1..])
    ensures EmailShape(s)
  {
    forall i | 0 <= i < |s| && i != a && i != d ensures Plain(s[i]) {
      if i < a {
        assert s[..a][i] == s[i];
      } else if i < d {
        assert s[a + 1..d][i - a - 1] == s[i];
      } else {
        assert s[d + 1..][i - d - 1] == s[i];
      }
    }
    assert a + 1 < d < |s| - 1 && s[d] == '.';
  }

  lemma ShapeMatchesPattern(s: string)
    requires EmailShape(s)
    ensures EmailPattern(s)
  {
    var a :| 0 < a < |s| && s[a] == '@'
             && (forall i :: 0 <= i < |s| && i != a ==> s[i] != '@')
             && (exists d :: a + 1 < d < |s| - 1 && s[d] == '.');
    var d :| a + 1 < d < |s| - 1 && s[d] == '.';
    PlainSlice(s, a, 0, a);
    PlainSlice(s, a, a + 1, d);
    PlainSlice(s, a, d + 1, |s|);
  }

  /** A stretch of a space-free string with its only `@` at `a` outside the stretch is plain. */
  lemma PlainSlice(s: string, a: nat, lo: nat, hi: nat)
    requires lo <= hi <= |s| && (a < lo || hi <= a)
    requires forall i :: 0 <= i < |s| ==> !IsJsSpace(s[i])
    requires forall i :: 0 <= i < |s| && i != a ==> s[i] != '@'
    ensures AllPlain(s[lo..hi])
  {
    forall i | 0 <= i < hi - lo ensures Plain(s[lo..hi][i]) {
      assert s[lo..hi][i] == s[lo + i];
    }
  }

  /** The pattern accepts exactly the strings of that shape. */
  lemma EmailPatternShape(s: string)
    ensures EmailPattern(s) <==> EmailShape(s)
  {
    if EmailPattern(s) {
      var a, d :| 0 < a && a + 1 < d && d + 1 < |s| && s[a] == '@' && s[d] == '.'
                  && AllPlain(s[..a]) && AllPlain(s[a + 1..d]) && AllPlain(s[d + 1..]);
      PatternHasShape(s, a, d);
    }
    if EmailShape(s) {
      ShapeMatchesPattern(s);
    }
  }

  // ---------------------------------------------------------------- step checks

  /**
    A string's JavaScript `.length`: the number of UTF-16 code units, one
    for a character of the Basic Multilingual Plane and two (a surrogate
    pair) for any other.
  */
  function Utf16Length(s: string): (r: nat)
    ensures |s| <= r <= 2 * |s|
    ensures r == |s| <==> forall i :: 0 <= i < |s| ==> s[i] as int < 0x1_0000
  {
    if s == [] then 0
    else
      assert forall i :: 1 <= i < |s| ==> s[1..][i - 1] == s[i];
      (if s[0] as int < 0x1_0000 then 1 else 2) + Utf16Length(s[1..])
  }

  /** `formData[name]` is present and its `.length` is exactly `n`. */
  predicate HasLength(form: Body, name: string, n: nat) {
    name in form && Utf16Length(form[name]) == n
  }

  /**
    validateSection(section): `None` where it returns true, otherwise the
    error it shows. Each step stops at its first failing check; a step
    number without checks is always valid. The aadhaar, mobile and IFSC
    checks look at the length only.
  */
  function ValidateSection(form: Body, section: int): (r: Option<string>)
    ensures section == 1 ==>
              (r.None? <==> "email" in form && EmailShape(form["email"]))
              && (r.Some? ==> r == Some("Please enter a valid email address"))
    ensures section == 2 ==>
              (r.None? <==> Truthy(Field(form, "full_name")) && HasLength(form, "aadhaar", 12)
                            && HasLength(form, "mobile", 10) && Truthy(Field(form, "state")))
              && (!Truthy(Field(form, "full_name")) ==> r == Some("Full name is required"))
              && (Truthy(Field(form, "full_name")) && !HasLength(form, "aadhaar", 12) ==>
                    r == Some("Aadhaar must be 12 digits"))
              && ((Truthy(Field(form, "full_name")) && HasLength(form, "aadhaar", 12)
                   && !HasLength(form, "mobile", 10)) ==> r == Some("Mobile must be 10 digits"))
              && ((Truthy(Field(form, "full_name")) && HasLength(form, "aadhaar", 12)
                   && HasLength(form, "mobile", 10) && !Truthy(Field(form, "state"))) ==> r == Some("State is required"))
    ensures section == 3 ==>
              (r.None? <==> Truthy(Field(form, "land_area")))
              && (r.Some? ==> r == Some("Land area is required"))
    ensures section == 4 ==>
              (r.None? <==> Truthy(Field(form, "bank_account")) && HasLength(form, "bank_ifsc", 11)
                            && Truthy(Field(form, "bank_name")))
              && (!Truthy(Field(form, "bank_account")) ==> r == Some("Bank account number is required"))
              && (Truthy(Field(form, "bank_account")) && !HasLength(form, "bank_ifsc", 11) ==>
                    r == Some("IFSC code must be 11 characters"))
              && ((Truthy(Field(form, "bank_account")) && HasLength(form, "bank_ifsc", 11)
                   && !Truthy(Field(form, "bank_name"))) ==> r == Some("Bank name is required"))
    ensures section !in {1, 2, 3, 4} ==> r.None?
  {
    if section == 1 then
      var email := Field(form, "email");
      EmailPatternShape(email.GetOr(""));
      if !Truthy(email) || !EmailPattern(email.value) then Some("Please enter a valid email address") else None
    else if section == 2 then
      if !Truthy(Field(form, "full_name")) then Some("Full name is required")
      else if !Truthy(Field(form, "aadhaar")) || Utf16Length(form["aadhaar"]) != 12 then Some("Aadhaar must be 12 digits")
      else if !Truthy(Field(form, "mobile")) || Utf16Length(form["mobile"]) != 10 then Some("Mobile must be 10 digits")
      else if !Truthy(Field(form, "state")) then Some("State is required")
      else None
    else if section == 3 then
      if !Truthy(Field(form, "land_area")) then Some("Land area is required") else None
    else if section == 4 then
      if !Truthy(Field(form, "bank_account")) then Some("Bank account number is required")
      else if !Truthy(Field(form, "bank_ifsc")) || Utf16Length(form["bank_ifsc"]) != 11 then Some("IFSC code must be 11 characters")
      else if !Truthy(Field(form, "bank_name")) then Some("Bank name is required")
      else None
    else None
  }

  // ---------------------------------------------------------------- the form's state

  /** The values the form starts with: every field empty except the land ownership. */
  const InitialForm: Body := map[
    "full_name" := "", "aadhaar" := "", "mobile" := "", "email" := "",
    "village" := "", "taluka" := "", "district" := "", "city" := "", "state" := "", "pincode" := "",
    "land_ownership" := "own", "land_area" := "", "crop_type" := "", "irrigation_type" := "", "storage_capacity" := "",
    "bank_account" := "", "bank_ifsc" := "", "bank_name" := "", "kcc_number" := "", "farmer_id" := ""]

  /**
    The component's state: the step shown, the form's fields and the
    error line. Previous is shown only past step 1 and Next only before
    step 4, which keeps the step within 1..4.
  */
  class KycWizard {
    var currentSection: int
    var form: Body
    var error: string

    ghost predicate Valid()
      reads this
    {
      1 <= currentSection <= 4
    }

    constructor ()
      ensures Valid()
      ensures currentSection == 1 && form == InitialForm && error == ""
    {
      currentSection := 1;
      form := InitialForm;
      error := "";
    }

    /** handleChange: one input writes its field. */
    method HandleChange(name: string, value: string)
      modifies this
      ensures form == old(form)[name := value]
      ensures currentSection == old(currentSection) && error == old(error)
    {
      form := form[name := value];
    }

    /** handleNext, behind the Next button: the step advances only when its check passes. */
    method HandleNext()
      requires Valid() && currentSection < 4
      modifies this
      ensures Valid()
      ensures form == old(form)
      ensures ValidateSection(old(form), old(currentSection)).None? ==>
                currentSection == old(currentSection) + 1 && error == ""
      ensures ValidateSection(old(form), old(currentSection)).Some? ==>
                currentSection == old(currentSection) && error == ValidateSection(old(form), old(currentSection)).value
    {
      var v := ValidateSection(form, currentSection);
      error := "";
      if v.Some? {
        error := v.value;
      } else {
        currentSection := currentSection + 1;
      }
    }

    /** handlePrevious, behind the Previous button: the step goes back without any check. */
    method HandlePrevious()
      requires Valid() && currentSection > 1
      modifies this
      ensures Valid()
      ensures currentSection == old(currentSection) - 1 && error == "" && form == old(form)
    {
      error := "";
      currentSection := currentSection - 1;
    }

    /**
      handleSubmit up to the request: only step 4 is checked again, on
      whatever step the form is; when it passes, the whole form is the
      body posted.
    */
    method HandleSubmit() returns (posted: Option<Body>)
      modifies this
      ensures form == old(form) && currentSection == old(currentSection)
      ensures ValidateSection(old(form), 4).Some? ==>
                posted.None? && error == ValidateSection(old(form), 4).value
      ensures ValidateSection(old(form), 4).None? ==> posted == Some(old(form)) && error == ""
    {
      var v := ValidateSection(form, 4);
      error := "";
      if v.Some? {
        error := v.value;
        return None;
      }
      posted := Some(form);
    }
  }

  // ---------------------------------------------------------------- form and server

  /**
    A form that passes all four steps, whose aadhaar and mobile are
    digits and whose state is one of the listed ones, also passes every
    format check of the registration endpoint: the steps cover all the
    fields the server requires.
  */
  lemma CompleteFormPassesServerChecks(form: Body)
    requires forall s :: 1 <= s <= 4 ==> ValidateSection(form, s).None?
    requires "aadhaar" in form && "mobile" in form && "state" in form
    requires forall i :: 0 <= i < |form["aadhaar"]| ==> IsDigit(form["aadhaar"][i])
    requires forall i :: 0 <= i < |form["mobile"]| ==> IsDigit(form["mobile"][i])
    requires form["state"] in IndianStates
    ensures FormatRejection(form) == None
  {
    assert Utf16Length(form["aadhaar"]) == |form["aadhaar"]| && Utf16Length(form["mobile"]) == |form["mobile"]|;
    assert ValidateSection(form, 1).None? && ValidateSection(form, 2).None?;
    assert ValidateSection(form, 4).None?;
    var email := form["email"];
    var a :| 0 < a < |email| && email[a] == '@'
             && (forall i :: 0 <= i < |email| && i != a ==> email[i] != '@')
             && (exists d :: a + 1 < d < |email| - 1 && email[d] == '.');
    assert Truthy(Field(form, "email"));
  }

  /**
    The form checks the aadhaar's length only: a twelve-character aadhaar
    with a non-digit passes step 2 and is refused by the server.
  */
  lemma LengthOnlyAadhaarRefused(form: Body, k: nat)
    requires ValidateSection(form, 2).None?
    requires k < |form["aadhaar"]| && !IsDigit(form["aadhaar"][k])
    ensures FormatRejection(form).Some?
  {
  }

  /**
    Submit checks step 4 only: clearing the e-mail of a form that passes
    step 4 still lets it be posted, although step 1 now fails; the server
    then refuses it for the missing e-mail.
  */
  lemma SubmitSkipsEarlierSteps(form: Body)
    requires ValidateSection(form, 4).None?
    ensures ValidateSection(form["email" := ""], 4).None?
    ensures ValidateSection(form["email" := ""], 1).Some?
    ensures FormatRejection(form["email" := ""]).Some?
  {
    var f := form["email" := ""];
    assert Field(f, "bank_account") == Field(form, "bank_account");
    assert Field(f, "bank_name") == Field(form, "bank_name");
    assert f["bank_ifsc"] == form["bank_ifsc"];
    assert !Truthy(Field(f, "email"));
  }
}

=== FILE: hospital_access.dfy ===
/**
  The `hospital_access` table: one row per consent grant from a patient's
  medical account to a hospital. Rows are never deleted; a revoke clears
  `is_active` and stamps `revoked_at`.
*/
module HospitalAccessModel {
  import opened Wrappers

  /** A value inside the `permissions` JSON object: a string, or an object of boolean flags. */
  datatype PermissionValue = Text(text: string) | Flags(flags: map<string, bool>)

  type Permissions = map<string, PermissionValue>

  /**
    One grant. `access_scope` and `permissions` are required; `expires_at`
    can never be null (it is an `int` of milliseconds here); `revoked_at`
    is nullable.
  */
  datatype HospitalAccess = HospitalAccess(
    id: nat,
    medicalAccountId: nat,
    hospitalId: nat,
    accessScope: seq<string>,
    permissions: Permissions,
    grantedAt: int,
    expiresAt: int,
    isActive: bool,
    revokedAt: Option<int>)

  /** The row invariant the handlers keep: a grant carries a revocation time exactly when it is no longer active. */
  predicate Consistent(g: HospitalAccess) {
    g.isActive <==> g.revokedAt.None?
  }

  /**
    A row as the ORM inserts it from the required columns: `granted_at`
    defaults to the creation time, `is_active` to true, `revoked_at` to null.
  */
  function NewGrant(id: nat, medicalAccountId: nat, hospitalId: nat, scope: seq<string>,
                    permissions: Permissions, expiresAt: int, now: int): (g: HospitalAccess)
    ensures Consistent(g) && g.isActive && g.revokedAt == None
    ensures g.grantedAt == now && g.expiresAt == expiresAt
    ensures g.id == id && g.medicalAccountId == medicalAccountId && g.hospitalId == hospitalId
    ensures g.accessScope == scope && g.permissions == permissions
  {
    HospitalAccess(id, medicalAccountId, hospitalId, scope, permissions, now, expiresAt, true, None)
  }

  /** `access.update({is_active: false, revoked_at: now})`: every other column is kept. */
  function Revoked(g: HospitalAccess, now: int): (r: HospitalAccess)
    ensures Consistent(r) && !r.isActive && r.revokedAt == Some(now)
    ensures r.id == g.id && r.medicalAccountId == g.medicalAccountId && r.hospitalId == g.hospitalId
    ensures r.accessScope == g.accessScope && r.permissions == g.permissions
    ensures r.grantedAt == g.grantedAt && r.expiresAt == g.expiresAt
  {
    g.(isActive := false, revokedAt := Some(now))
  }

  /** The ordering key of both access lists. */
  function GrantedAt(g: HospitalAccess): int {
    g.grantedAt
  }

  /** What the hospital-side queries accept: `is_active` and `expires_at > now`. */
  predicate UsableAt(g: HospitalAccess, now: int) {
    g.isActive && g.expiresAt > now
  }

  /** What the patient's access list flags as expired: `expires_at < now`. */
  predicate FlaggedExpiredAt(g: HospitalAccess, now: int) {
    g.expiresAt < now
  }

  /**
    The two comparisons disagree on one instant: at `now == expires_at` an
    active grant is neither usable by the hospital nor shown as expired to
    the patient. At every other instant exactly one of the two holds.
  */
  lemma ExpiryBoundary(g: HospitalAccess, now: int)
    requires g.isActive
    ensures now == g.expiresAt ==> !UsableAt(g, now) && !FlaggedExpiredAt(g, now)
    ensures now != g.expiresAt ==> (UsableAt(g, now) <==> !FlaggedExpiredAt(g, now))
  {
  }

  /** `permissions.records?.upload` is truthy. */
  predicate RecordsUploadFlag(p: Permissions) {
    "records" in p && p["records"].Flags? && "upload" in p["records"].flags && p["records"].flags["upload"]
  }

  /** The `permissions` object a patient's grant stores: `{type: permission_type}`. */
  function TypeOnlyPermissions(permissionType: string): (p: Permissions)
    ensures p.Keys == {"type"}
    ensures !RecordsUploadFlag(p)
  {
    map["type" := Text(permissionType)]
  }

  /** The `hospital_access` table with its autoincrement counter. */
  class HospitalAccessTable {
    var rows: seq<HospitalAccess>
    var nextId: nat

    /** Ids are positive, increasing in insertion order and below the counter; every row is consistent. */
    ghost predicate Valid()
      reads this
    {
      && nextId > 0
      && (forall i :: 0 <= i < |rows| ==> 0 < rows[i].id < nextId && Consistent(rows[i]))
      && (forall i, j :: 0 <= i < j < |rows| ==> rows[i].id < rows[j].id)
    }

    constructor ()
      ensures Valid() && rows == [] && nextId == 1
    {
      rows := [];
      nextId := 1;
    }

    /** `HospitalAccess.create(...)`: appends a new grant with the next id. */
    method Create(medicalAccountId: nat, hospitalId: nat, scope: seq<string>,
                  permissions: Permissions, expiresAt: int, now: int) returns (g: HospitalAccess)
      requires Valid()
      modifies this
      ensures Valid()
      ensures g == NewGrant(old(nextId), medicalAccountId, hospitalId, scope, permissions, expiresAt, now)
      ensures rows == old(rows) + [g] && nextId == old(nextId) + 1
    {
      g := NewGrant(nextId, medicalAccountId, hospitalId, scope, permissions, expiresAt, now);
      rows := rows + [g];
      nextId := nextId + 1;
    }

    /** `access.update({is_active: false, revoked_at: now})` on the row at index `i`. */
    method Revoke(i: nat, now: int)
      requires Valid() && i < |rows|
      modifies this
      ensures Valid()
      ensures rows == old(rows)[i := Revoked(old(rows)[i], now)] && nextId == old(nextId)
    {
      rows := rows[i := Revoked(rows[i], now)];
    }
  }
}

=== FILE: hospital_access_management.dfy ===
/**
  The patient's grant form on the hospital-access page: ticking scopes,
  flipping per-scope permissions, the guard in front of the grant
  request, and the reset after a grant.

  React state is replaced wholesale on every change, so each handler is
  a function from the old page state to the new one.
*/
module GrantForm {
  import opened Wrappers
  import opened Query
  import opened MedicalController

  /** `formData`: the hospital, the ticked scopes, the permission flags and the duration in days. */
  datatype FormData = FormData(
    hospitalId: string,
    accessScope: seq<string>,
    permissions: map<string, map<string, bool>>,
    durationDays: int)

  /** The form as it starts and as it is reset after a grant. */
  const DefaultForm := FormData("", [], map[], 7)

  /** The scopes the form offers a checkbox for. */
  const ScopeChoices := ["profile", "records", "bills", "insurance"]

  const NoScopeMessage := "\U{274C} Please select at least one access scope"
  const GrantedMessage := "\U{2705} Hospital access granted successfully"
  const FailurePrefix := "\U{274C} Failed to grant access: "

  predicate Distinct(s: seq<string>) {
    forall i, j :: 0 <= i < j < |s| ==> s[i] != s[j]
  }

  function Other(scope: string): string -> bool {
    (s: string) => s != scope
  }

  // ---------------------------------------------------------------- scopes

  /**
    handleScopeChange: a ticked scope is unticked, leaving the others in
    order, and an unticked one is added at the end. Exactly that scope's
    checkbox changes and nothing else in the form does.
  */
  function ToggleScope(form: FormData, scope: string): (r: FormData)
    ensures r.hospitalId == form.hospitalId && r.permissions == form.permissions && r.durationDays == form.durationDays
    ensures forall x :: x in r.accessScope <==> (x == scope) != (x in form.accessScope)
    ensures scope !in form.accessScope ==> r.accessScope == form.accessScope + [scope]
    ensures scope in form.accessScope ==> r.accessScope == Filter(form.accessScope, Other(scope))
  {
    var scopes := if scope in form.accessScope then Filter(form.accessScope, Other(scope))
                  else form.accessScope + [scope];
    form.(accessScope := scopes)
  }

  lemma {:induction false} FilterAllKept(s: seq<string>, scope: string)
    requires scope !in s
    ensures Filter(s, Other(scope)) == s
  {
    if s != [] {
      assert s == [s[0]] + s[1..];
      FilterAllKept(s[1..], scope);
    }
  }

  lemma {:induction false} FilterKeepsDistinct(s: seq<string>, scope: string)
    requires Distinct(s)
    ensures Distinct(Filter(s, Other(scope)))
  {
    if s != [] {
      assert s == [s[0]] + s[1..];
      FilterKeepsDistinct(s[1..], scope);
      var rest := Filter(s[1..], Other(scope));
      assert s[0] !in s[1..];
      assert s[0] !in rest;
    }
  }

  /**
    Toggling keeps the ticked scopes free of duplicates and within the
    offered choices, so every list the form can hold is such a list.
  */
  lemma ToggleKeepsScopesWellFormed(form: FormData, scope: string)
    requires Distinct(form.accessScope) && (forall x :: x in form.accessScope ==> x in ScopeChoices)
    requires scope in ScopeChoices
    ensures Distinct(ToggleScope(form, scope).accessScope)
    ensures forall x :: x in ToggleScope(form, scope).accessScope ==> x in ScopeChoices
  {
    if scope in form.accessScope {
      FilterKeepsDistinct(form.accessScope, scope);
    }
  }

  /** Toggling the same scope twice gives back the same set of ticked scopes, for any list. */
  lemma ToggleTwiceSameScopes(form: FormData, scope: string)
    ensures forall x :: x in ToggleScope(ToggleScope(form, scope), scope).accessScope <==> x in form.accessScope
  {
  }

  /**
    On a duplicate-free list, toggling a scope twice gives back the very
    same form when the scope was unticked or the last one ticked.
  */
  lemma ToggleTwiceRestores(form: FormData, scope: string)
    requires Distinct(form.accessScope)
    requires scope !in form.accessScope || form.accessScope[|form.accessScope| - 1] == scope
    ensures ToggleScope(ToggleScope(form, scope), scope) == form
  {
    var s := form.accessScope;
    if scope !in s {
      FilterAppend(s, scope, Other(scope));
      FilterAllKept(s, scope);
    } else {
      var p := s[..|s| - 1];
      assert s == p + [scope];
      assert scope !in p by {
        forall i | 0 <= i < |p| ensures p[i] != scope {
          assert s[i] == p[i] && s[|s| - 1] == scope;
        }
      }
      FilterAppend(p, scope, Other(scope));
      FilterAllKept(p, scope);
      assert ToggleScope(form, scope).accessScope == p;
    }
  }

  /**
    Toggling twice does not restore the order in general: with `a` ticked
    before `b`, unticking and re-ticking `a` moves it behind `b`.
  */
  lemma ToggleTwiceReorders(form: FormData, a: string, b: string)
    requires a != b && form.accessScope == [a, b]
    ensures ToggleScope(ToggleScope(form, a), a).accessScope == [b, a]
  {
    assert Filter([a, b], Other(a)) == [b] by {
      assert [a, b][1..] == [b];
      assert [b][1..] == [];
    }
  }

  // ---------------------------------------------------------------- permissions

  /** `permissions[scope]?.[permission]` is true. */
  predicate Granted(form: FormData, scope: string, permission: string) {
    scope in form.permissions && permission in form.permissions[scope] && form.permissions[scope][permission]
  }

  /**
    handlePermissionChange: the flag of `permission` under `scope` is set
    to the negation of what it read as (absent reads as false); every
    other flag, and every other field of the form, stays as it was.
  */
  function TogglePermission(form: FormData, scope: string, permission: string): (r: FormData)
    ensures r.hospitalId == form.hospitalId && r.accessScope == form.accessScope && r.durationDays == form.durationDays
    ensures Granted(r, scope, permission) == !Granted(form, scope, permission)
    ensures forall s, p :: s != scope || p != permission ==> (Granted(r, s, p) <==> Granted(form, s, p))
    ensures r.permissions.Keys == form.permissions.Keys + {scope}
  {
    var inner := if scope in form.permissions then form.permissions[scope] else map[];
    var permissions := form.permissions[scope := inner[permission := !Granted(form, scope, permission)]];
    assert permissions.Keys == form.permissions.Keys + {scope};
    form.(permissions := permissions)
  }

  /**
    Flipping a permission twice restores every flag's reading, though not
    the stored object: a flag never set before is left stored as false.
  */
  lemma TogglePermissionTwice(form: FormData, scope: string, permission: string)
    ensures var twice := TogglePermission(TogglePermission(form, scope, permission), scope, permission);
            forall s, p :: Granted(twice, s, p) <==> Granted(form, s, p)
    ensures form.permissions == map[] ==>
              TogglePermission(TogglePermission(form, scope, permission), scope, permission).permissions
              == map[scope := map[permission := false]]
  {
    if form.permissions == map[] {
      var once := TogglePermission(form, scope, permission);
      assert once.permissions == map[scope := map[permission := true]];
      assert Granted(once, scope, permission);
      var twice := TogglePermission(once, scope, permission);
      assert twice.permissions == map[scope := map[permission := true][permission := false]];
      assert map[permission := true][permission := false] == map[permission := false];
    }
  }

  // ---------------------------------------------------------------- the grant request

  /** The part of the page the grant handler changes. */
  datatype Page = Page(form: FormData, showGrantForm: bool, message: string)

  /** How the grant request came back: accepted, or refused with the server's message if it sent one. */
  datatype PostResult = Accepted | Refused(serverMessage: Option<string>)

  /** The new page and the body posted, if the request was sent. */
  datatype GrantStep = GrantStep(page: Page, posted: Option<FormData>)

  /**
    handleGrantAccess given how the request fares: with no scope ticked
    nothing is sent; otherwise the form is posted as it is, and on success
    the form is closed and reset to its defaults.
  */
  function GrantAccess(page: Page, result: PostResult): (r: GrantStep)
    ensures page.form.accessScope == [] ==> r == GrantStep(page.(message := NoScopeMessage), None)
    ensures page.form.accessScope != [] ==> r.posted == Some(page.form)
    ensures page.form.accessScope != [] && result.Accepted? ==>
              r.page == Page(DefaultForm, false, GrantedMessage)
    ensures page.form.accessScope != [] && result.Refused? ==>
              r.page == page.(message := FailurePrefix + result.serverMessage.GetOr(""))
  {
    if |page.form.accessScope| == 0 then GrantStep(page.(message := NoScopeMessage), None)
    else match result
      case Accepted => GrantStep(Page(DefaultForm, false, GrantedMessage), Some(page.form))
      case Refused(m) => GrantStep(page.(message := FailurePrefix + m.GetOr("")), Some(page.form))
  }

  /**
    After a successful grant the form is back to its defaults, so an
    immediate second submit is blocked until a scope is ticked again.
  */
  lemma ResetBlocksResubmit(page: Page, result: PostResult)
    requires page.form.accessScope != []
    ensures var after := GrantAccess(page, Accepted).page;
            after.form == DefaultForm && GrantAccess(after, result).posted.None?
  {
  }

  /** The JSON values a posted body holds, as the grant endpoint sees them. */
  datatype Json = JText(text: string) | JNumber(number: int) | JList(items: seq<string>)
                | JFlags(flags: map<string, map<string, bool>>)

  /** The body `api.post` sends: the form's fields under their own names. */
  function Body(form: FormData): (b: map<string, Json>)
    ensures b.Keys == {"hospital_id", "access_scope", "permissions", "duration_days"}
  {
    map["hospital_id" := JText(form.hospitalId), "access_scope" := JList(form.accessScope),
        "permissions" := JFlags(form.permissions), "duration_days" := JNumber(form.durationDays)]
  }

  /**
    What grantHospitalAccess takes out of a body: the string or list
    under each of the four names it reads, absent when missing.
  */
  function ReadGrantRequest(body: map<string, Json>): (req: GrantRequest)
    ensures req.hospitalIdentifier.Some? ==> "hospital_identifier" in body
    ensures req.scopes.Some? ==> "scopes" in body
    ensures req.permissionType.Some? ==> "permission_type" in body
    ensures req.duration.Some? ==> "duration" in body
  {
    GrantRequest(
      if "hospital_identifier" in body && body["hospital_identifier"].JText? then Some(body["hospital_identifier"].text) else None,
      if "scopes" in body && body["scopes"].JList? then Some(body["scopes"].items) else None,
      if "permission_type" in body && body["permission_type"].JText? then Some(body["permission_type"].text) else None,
      if "duration" in body && body["duration"].JText? then Some(body["duration"].text) else None)
  }

  /**
    The form posts its fields under names the grant endpoint does not
    read, so whatever the patient fills in, the endpoint finds none of
    its fields and answers "All fields are required".
  */
  lemma FormBodyMissesEndpointFields(form: FormData)
    ensures ReadGrantRequest(Body(form)) == GrantRequest(None, None, None, None)
    ensures !Complete(ReadGrantRequest(Body(form)))
  {
  }
}

=== FILE: hospital_controller.dfy ===
/**
  The hospital-side handlers: the dashboard counts, the list of patients
  whose consent is in force, the consent-filtered patient view, uploading
  a medical record and creating a bill.

  `hospitalId` is the hospital the authentication layer identified; `now`
  is the current time in milliseconds. A grant is in force for a
  hospital when it names that hospital, is active and expires strictly
  after now.
*/
module HospitalController {
  import opened Wrappers
  import opened Http
  import opened Query
  import opened HospitalAccessModel
  import opened AuditLogModel
  import opened MedicalData

  /** How many records and how many bills the patient view shows at most. */
  const PageSize := 20

  function InForceFor(hospitalId: nat, now: int): HospitalAccess -> bool {
    (g: HospitalAccess) => g.hospitalId == hospitalId && UsableAt(g, now)
  }

  /**
    getActivePatients: the grants in force for this hospital, newest grant
    first. A patient with two grants in force appears twice.
  */
  function GetActivePatients(grants: seq<HospitalAccess>, hospitalId: nat, now: int): (r: seq<HospitalAccess>)
    ensures multiset(r) == multiset(Filter(grants, InForceFor(hospitalId, now)))
    ensures forall g :: g in r <==> g in grants && g.hospitalId == hospitalId && UsableAt(g, now)
    ensures SortedDesc(r, GrantedAt)
  {
    var r := SortDesc(Filter(grants, InForceFor(hospitalId, now)), GrantedAt);
    forall g ensures g in r <==> g in grants && g.hospitalId == hospitalId && UsableAt(g, now) {
      assert g in r <==> g in multiset(r);
      assert g in Filter(grants, InForceFor(hospitalId, now)) <==> g in multiset(Filter(grants, InForceFor(hospitalId, now)));
    }
    r
  }

  datatype Dashboard = Dashboard(activePatients: nat, totalRecords: nat, totalBills: nat)

  function RecordFrom(hospitalId: nat): MedicalRecord -> bool {
    (r: MedicalRecord) => r.hospitalId == Some(hospitalId)
  }

  function BillFrom(hospitalId: nat): MedicalBill -> bool {
    (b: MedicalBill) => b.hospitalId == hospitalId
  }

  /**
    getHospitalDashboard: the "active patients" figure is the length of the
    hospital's active-patient list; the other two count the records and
    bills that name the hospital.
  */
  function GetHospitalDashboard(grants: seq<HospitalAccess>, records: seq<MedicalRecord>, bills: seq<MedicalBill>,
                                hospitalId: nat, now: int): (d: Dashboard)
    ensures d.activePatients == |GetActivePatients(grants, hospitalId, now)|
    ensures d.totalRecords <= |records| && d.totalBills <= |bills|
    ensures d.totalRecords == |Filter(records, RecordFrom(hospitalId))|
    ensures d.totalBills == |Filter(bills, BillFrom(hospitalId))|
  {
    var active := Count(grants, InForceFor(hospitalId, now));
    assert |multiset(GetActivePatients(grants, hospitalId, now))| == active;
    Dashboard(active, Count(records, RecordFrom(hospitalId)), Count(bills, BillFrom(hospitalId)))
  }

  /**
    The dashboard counts grants, not patients: one patient with two grants
    in force for the same hospital is counted twice.
  */
  lemma DashboardCountsGrants(g1: HospitalAccess, g2: HospitalAccess, now: int)
    requires g1 != g2 && g1.medicalAccountId == g2.medicalAccountId && g1.hospitalId == g2.hospitalId
    requires UsableAt(g1, now) && UsableAt(g2, now)
    ensures GetHospitalDashboard([g1, g2], [], [], g1.hospitalId, now).activePatients == 2
  {
    FilterAppend([g1], g2, InForceFor(g1.hospitalId, now));
    FilterAppend([], g1, InForceFor(g1.hospitalId, now));
    assert [g1, g2] == [g1] + [g2];
    assert [g1] == [] + [g1];
  }

  function MedicalIdIs(medicalId: string): MedicalAccount -> bool {
    (a: MedicalAccount) => a.medicalId == medicalId
  }

  /** The access check of both the view and the upload: a grant of this patient to this hospital in force now. */
  function GrantFor(accountId: nat, hospitalId: nat, now: int): HospitalAccess -> bool {
    (g: HospitalAccess) => g.medicalAccountId == accountId && g.hospitalId == hospitalId && UsableAt(g, now)
  }

  /** What the patient view shows of a grant-holding patient; each optional part is present only when its scope is granted. */
  datatype PatientView = PatientView(
    medicalId: string,
    userId: nat,
    profile: Option<map<string, string>>,
    records: Option<seq<MedicalRecord>>,
    bills: Option<seq<MedicalBill>>)

  datatype PatientDetails = PatientDetails(patient: PatientView, scopes: seq<string>, permissions: Permissions, expiresAt: int)

  function RecordOf(accountId: nat): MedicalRecord -> bool {
    (r: MedicalRecord) => r.medicalAccountId == accountId
  }

  function BillOf(accountId: nat): MedicalBill -> bool {
    (b: MedicalBill) => b.medicalAccountId == accountId
  }

  function RecordDate(r: MedicalRecord): int {
    r.recordDate
  }

  function BillDate(b: MedicalBill): int {
    b.billDate
  }

  /** The six health columns the view copies; the ones that are null are absent. */
  function VisibleProfile(profile: map<string, string>): (p: map<string, string>)
    ensures p.Keys == profile.Keys * ProfileColumns
    ensures forall k :: k in p ==> p[k] == profile[k]
  {
    map k | k in profile && k in ProfileColumns :: profile[k]
  }

  /**
    The patient view under one grant's scope list: the health profile when
    "profile" is granted, the 20 most recent records when "records" is, the
    20 most recent bills when "bills" is; records and bills are the
    patient's own, from any hospital, newest first.
  */
  function ScopedView(account: MedicalAccount, scope: seq<string>, records: seq<MedicalRecord>, bills: seq<MedicalBill>)
    : (v: PatientView)
    ensures v.medicalId == account.medicalId && v.userId == account.userId
    ensures v.profile.Some? <==> "profile" in scope
    ensures v.records.Some? <==> "records" in scope
    ensures v.bills.Some? <==> "bills" in scope
    ensures v.profile.Some? ==> v.profile.value.Keys <= ProfileColumns
    ensures v.records.Some? ==>
              && |v.records.value| == Min(PageSize, Count(records, RecordOf(account.id)))
              && (forall r :: r in v.records.value ==> r in records && r.medicalAccountId == account.id)
              && SortedDesc(v.records.value, RecordDate)
              && multiset(v.records.value) <= multiset(Filter(records, RecordOf(account.id)))
    ensures v.records.Some? ==>
              forall r, s :: r in v.records.value && s in records && s.medicalAccountId == account.id && s !in v.records.value
                ==> RecordDate(s) <= RecordDate(r)
    ensures v.bills.Some? ==>
              && |v.bills.value| == Min(PageSize, Count(bills, BillOf(account.id)))
              && (forall b :: b in v.bills.value ==> b in bills && b.medicalAccountId == account.id)
              && SortedDesc(v.bills.value, BillDate)
              && multiset(v.bills.value) <= multiset(Filter(bills, BillOf(account.id)))
    ensures v.bills.Some? ==>
              forall b, c :: b in v.bills.value && c in bills && c.medicalAccountId == account.id && c !in v.bills.value
                ==> BillDate(c) <= BillDate(b)
  {
    NewestPage(records, RecordOf(account.id), RecordDate, PageSize);
    NewestPage(bills, BillOf(account.id), BillDate, PageSize);
    PatientView(
      account.medicalId,
      account.userId,
      if "profile" in scope then Some(VisibleProfile(account.profile)) else None,
      if "records" in scope then Some(Newest(Filter(records, RecordOf(account.id)), RecordDate, PageSize)) else None,
      if "bills" in scope then Some(Newest(Filter(bills, BillOf(account.id)), BillDate, PageSize)) else None)
  }

  /**
    getPatientDetails. An unknown medical id is a 404 and a patient
    without a grant in force for this hospital a 403; neither is audited.
    Otherwise the first grant in force decides the view, and one
    `data_viewed` row is appended whatever the scope.
  */
  method GetPatientDetails(accounts: seq<MedicalAccount>, grants: seq<HospitalAccess>, records: seq<MedicalRecord>,
                           bills: seq<MedicalBill>, audit: AuditLogTable, hospitalId: nat, medicalId: string, now: int)
    returns (reply: Reply<PatientDetails>)
    requires audit.Valid()
    modifies audit
    ensures audit.Valid()
    ensures var a := FindFirst(accounts, MedicalIdIs(medicalId));
            && (a.None? ==> reply == Fail(NotFound, "Patient not found") && unchanged(audit))
            && (a.Some? ==>
                  var account := accounts[a.value];
                  var f := FindFirst(grants, GrantFor(account.id, hospitalId, now));
                  && (f.None? ==> reply == Fail(Forbidden, "Access denied or expired") && unchanged(audit))
                  && (f.Some? ==>
                        var g := grants[f.value];
                        && reply == Ok(Success, PatientDetails(ScopedView(account, g.accessScope, records, bills),
                                                               g.accessScope, g.permissions, g.expiresAt))
                        && audit.rows == old(audit.rows) +
                             [AuditLog(old(audit.nextId), account.id, DataViewed, HospitalActor, Some(hospitalId),
                                       Some(hospitalId), ViewDetails("profile"), now)]))
  {
    var a := FindFirst(accounts, MedicalIdIs(medicalId));
    if a.None? {
      return Fail(NotFound, "Patient not found");
    }
    var account := accounts[a.value];
    var f := FindFirst(grants, GrantFor(account.id, hospitalId, now));
    if f.None? {
      return Fail(Forbidden, "Access denied or expired");
    }
    var access := grants[f.value];
    var _ := audit.Append(account.id, DataViewed, HospitalActor, Some(hospitalId), Some(hospitalId),
                          ViewDetails("profile"), now);
    var scopes := access.accessScope;
    var view := PatientView(account.medicalId, account.userId, None, None, None);
    if "profile" in scopes {
      view := view.(profile := Some(VisibleProfile(account.profile)));
    }
    if "records" in scopes {
      view := view.(records := Some(Newest(Filter(records, RecordOf(account.id)), RecordDate, PageSize)));
    }
    if "bills" in scopes {
      view := view.(bills := Some(Newest(Filter(bills, BillOf(account.id)), BillDate, PageSize)));
    }
    reply := Ok(Success, PatientDetails(view, scopes, access.permissions, access.expiresAt));
  }

  /**
    Scopes are not combined across grants: with a "profile" grant found
    first and a "bills" grant behind it, both in force, the view has a
    profile but no bills.
  */
  lemma FirstGrantDecides(account: MedicalAccount, g1: HospitalAccess, g2: HospitalAccess, hospitalId: nat, now: int,
                          bills: seq<MedicalBill>)
    requires GrantFor(account.id, hospitalId, now)(g1) && GrantFor(account.id, hospitalId, now)(g2)
    requires g1.accessScope == ["profile"] && g2.accessScope == ["bills"]
    ensures FindFirst([g1, g2], GrantFor(account.id, hospitalId, now)) == Some(0)
    ensures ScopedView(account, [g1, g2][0].accessScope, [], bills).bills == None
  {
    assert "bills" !in g1.accessScope;
  }

  /** A record upload: `None` stands for a field missing from the body. */
  datatype RecordUpload = RecordUpload(
    medicalId: Option<string>,
    recordType: Option<string>,
    title: Option<string>,
    description: Option<string>,
    recordDate: Option<int>)

  /** The upload check: "records" in the scope and a truthy `permissions.records.upload`. */
  predicate UploadPermitted(g: HospitalAccess) {
    "records" in g.accessScope && RecordsUploadFlag(g.permissions)
  }

  /** The not-null and enumeration constraints of `medical_records` accept the fields. */
  predicate RecordInsertable(req: RecordUpload) {
    req.recordType.Some? && req.recordType.value in RecordTypes && req.title.Some? && req.recordDate.Some?
  }

  /**
    uploadMedicalRecord. A body without `medical_id` makes the lookup throw
    (500); an unknown patient is a 404; no grant in force a 403; a grant in
    force without the "records" scope and the upload flag a 403; fields the
    table rejects a 500. None of these writes a row. Otherwise one record
    marked as uploaded by this hospital and one `data_uploaded` row are
    appended.
  */
  method UploadMedicalRecord(accounts: seq<MedicalAccount>, grants: seq<HospitalAccess>, records: MedicalRecordTable,
                             audit: AuditLogTable, hospitalId: nat, req: RecordUpload, now: int)
    returns (reply: Reply<MedicalRecord>)
    requires records.Valid() && audit.Valid()
    modifies records, audit
    ensures records.Valid() && audit.Valid()
    ensures req.medicalId.None? ==> reply == Fail(ServerError, "Failed to upload record") && unchanged(records, audit)
    ensures req.medicalId.Some? ==>
              var a := FindFirst(accounts, MedicalIdIs(req.medicalId.value));
              && (a.None? ==> reply == Fail(NotFound, "Patient not found") && unchanged(records, audit))
              && (a.Some? ==>
                    var account := accounts[a.value];
                    var f := FindFirst(grants, GrantFor(account.id, hospitalId, now));
                    && (f.None? ==> reply == Fail(Forbidden, "Access denied or expired") && unchanged(records, audit))
                    && (f.Some? && !UploadPermitted(grants[f.value]) ==>
                          reply == Fail(Forbidden, "No permission to upload records") && unchanged(records, audit))
                    && (f.Some? && UploadPermitted(grants[f.value]) && !RecordInsertable(req) ==>
                          reply == Fail(ServerError, "Failed to upload record") && unchanged(records, audit))
                    && (f.Some? && UploadPermitted(grants[f.value]) && RecordInsertable(req) ==>
                          var rec := MedicalRecord(old(records.nextId), account.id, req.recordType.value, req.title.value,
                                                   req.description, ByHospital, hospitalId, Some(hospitalId),
                                                   req.recordDate.value, now);
                          && reply == Ok(Created, rec)
                          && records.rows == old(records.rows) + [rec]
                          && audit.rows == old(audit.rows) +
                               [AuditLog(old(audit.nextId), account.id, DataUploaded, HospitalActor, Some(hospitalId),
                                         Some(hospitalId), UploadDetails(req.recordType.value, req.title.value), now)]))
  {
    if req.medicalId.None? {
      return Fail(ServerError, "Failed to upload record");
    }
    var a := FindFirst(accounts, MedicalIdIs(req.medicalId.value));
    if a.None? {
      return Fail(NotFound, "Patient not found");
    }
    var account := accounts[a.value];
    var f := FindFirst(grants, GrantFor(account.id, hospitalId, now));
    if f.None? {
      return Fail(Forbidden, "Access denied or expired");
    }
    if !UploadPermitted(grants[f.value]) {
      return Fail(Forbidden, "No permission to upload records");
    }
    if !RecordInsertable(req) {
      return Fail(ServerError, "Failed to upload record");
    }
    var rec := records.Append(account.id, req.recordType.value, req.title.value, req.description, ByHospital,
                              hospitalId, Some(hospitalId), req.recordDate.value, now);
    var _ := audit.Append(account.id, DataUploaded, HospitalActor, Some(hospitalId), Some(hospitalId),
                          UploadDetails(req.recordType.value, req.title.value), now);
    reply := Ok(Created, rec);
  }

  /**
    Grants created by patients store only a permission type, so no grant a
    patient creates ever lets a hospital upload, whatever its scope.
  */
  lemma PatientGrantsNeverPermitUpload(grants: seq<HospitalAccess>, accountId: nat, hospitalId: nat, now: int)
    requires forall i :: 0 <= i < |grants| ==> "records" !in grants[i].permissions
    ensures forall i :: FindFirst(grants, GrantFor(accountId, hospitalId, now)) == Some(i) ==> !UploadPermitted(grants[i])
  {
  }

  /** A bill request: `None` stands for a field missing from the body. */
  datatype BillRequest = BillRequest(
    medicalId: Option<string>,
    billNumber: Option<string>,
    billDate: Option<int>,
    totalAmount: Option<string>,
    description: Option<string>)

  /**
    createMedicalBill: only the patient's existence is checked, never a
    grant, so any hospital can bill any patient whose medical id it knows.
    A missing `medical_id` is a 500, an unknown patient a 404, a missing
    bill number, date or amount or a duplicate bill number a 500; none
    writes a row.
  */
  method CreateMedicalBill(accounts: seq<MedicalAccount>, bills: MedicalBillTable, hospitalId: nat, req: BillRequest, now: int)
    returns (reply: Reply<MedicalBill>)
    requires bills.Valid()
    modifies bills
    ensures bills.Valid()
    ensures req.medicalId.None? ==> reply == Fail(ServerError, "Failed to create bill") && unchanged(bills)
    ensures req.medicalId.Some? ==>
              var a := FindFirst(accounts, MedicalIdIs(req.medicalId.value));
              && (a.None? ==> reply == Fail(NotFound, "Patient not found") && unchanged(bills))
              && (a.Some? && (req.billNumber.None? || req.billDate.None? || req.totalAmount.None?
                              || old(bills.HasBillNumber(req.billNumber.value))) ==>
                    reply == Fail(ServerError, "Failed to create bill") && unchanged(bills))
              && (a.Some? && req.billNumber.Some? && req.billDate.Some? && req.totalAmount.Some?
                  && !old(bills.HasBillNumber(req.billNumber.value)) ==>
                    var b := MedicalBill(old(bills.nextId), accounts[a.value].id, hospitalId, req.billNumber.value,
                                         req.billDate.value, req.totalAmount.value, req.description, now);
                    && reply == Ok(Created, b)
                    && bills.rows == old(bills.rows) + [b])
  {
    if req.medicalId.None? {
      return Fail(ServerError, "Failed to create bill");
    }
    var a := FindFirst(accounts, MedicalIdIs(req.medicalId.value));
    if a.None? {
      return Fail(NotFound, "Patient not found");
    }
    if req.billNumber.None? || req.billDate.None? || req.totalAmount.None? {
      return Fail(ServerError, "Failed to create bill");
    }
    var b := bills.Insert(accounts[a.value].id, hospitalId, req.billNumber.value, req.billDate.value,
                          req.totalAmount.value, req.description, now);
    if b.None? {
      return Fail(ServerError, "Failed to create bill");
    }
    reply := Ok(Created, b.value);
  }
}

=== FILE: medical_controller.dfy ===
/**
  The patient-side handlers of the medical service: creating the medical
  account, updating its health profile, granting, listing and revoking
  hospital access, and reading the audit trail.

  Each handler receives the identity the authentication layer put on the
  request (`accountId`, `userId`) and the current time `now` in
  milliseconds; a handler that writes takes the tables it writes.
*/
module MedicalController {
  import opened Wrappers
  import opened Http
  import opened Query
  import opened Text
  import opened HospitalAccessModel
  import opened AuditLogModel
  import opened MedicalData
  import opened DateTimeColumn

  const DayMillis := 86400000


  /** `new Date('2099-12-31')` in milliseconds since the epoch: the expiry of a grant "until revoked". */
  const UntilRevoked := 4102358400000

  /** How many audit rows the trail shows at most. */
  const AuditPageSize := 100

  // ---------------------------------------------------------------- accounts

  /** The body of an account-creation request; `fields` holds the optional health fields that were sent. */
  datatype AccountRequest = AccountRequest(email: Option<string>, password: Option<string>, fields: map<string, string>)

  /** The health fields account creation copies, each `|| null`. */
  const CreationColumns: set<string> :=
    {"blood_group", "allergies", "chronic_conditions", "emergency_contact_name", "emergency_contact_phone"}

  /** The health columns a new account starts with: the creation fields sent with a non-empty value. */
  function CreationProfile(fields: map<string, string>): (p: map<string, string>)
    ensures p.Keys <= CreationColumns && p.Keys <= ProfileColumns
    ensures forall k :: k in CreationColumns && k in fields && fields[k] != "" ==> k in p && p[k] == fields[k]
    ensures forall k :: k in p ==> k in fields && fields[k] != ""
  {
    map k | k in fields && k in CreationColumns && fields[k] != "" :: fields[k]
  }

  predicate AccountOfUser(rows: seq<MedicalAccount>, userId: nat) {
    exists i :: 0 <= i < |rows| && rows[i].userId == userId
  }

  predicate EmailInUse(rows: seq<MedicalAccount>, email: string) {
    exists i :: 0 <= i < |rows| && rows[i].email == email
  }

  predicate MedicalIdInUse(rows: seq<MedicalAccount>, medicalId: string) {
    exists i :: 0 <= i < |rows| && rows[i].medicalId == medicalId
  }

  function UserIs(userId: nat): MedicalAccount -> bool {
    (a: MedicalAccount) => a.userId == userId
  }

  function EmailIs(email: string): MedicalAccount -> bool {
    (a: MedicalAccount) => a.email == email
  }

  /**
    The requests createMedicalAccount is meant to fulfil: the user has no
    account yet, an email and a password are sent, the email is unused and
    the generated `medical_id` is free.
  */
  predicate CreationAllowed(rows: seq<MedicalAccount>, userId: nat, req: AccountRequest, medicalId: string) {
    && !AccountOfUser(rows, userId) && req.email.Some? && req.password.Some?
    && !EmailInUse(rows, req.email.value) && !MedicalIdInUse(rows, medicalId)
  }

  /**
    createMedicalAccount as the code runs it. `MedicalAccount.create`
    validates the new row before it runs the `beforeCreate` hook that
    generates `medical_id`, and the create call passes no `medical_id`; so
    once the guards pass, the not-null check fails and the handler answers
    500. Nothing is ever written.
  */
  function CreateMedicalAccountAsWritten(rows: seq<MedicalAccount>, userId: nat, req: AccountRequest)
    : (r: Reply<MedicalAccount>)
    ensures r.Fail?
    ensures AccountOfUser(rows, userId) ==> r == Fail(BadRequest, "Medical account already exists")
    ensures !AccountOfUser(rows, userId) && req.email.Some? && EmailInUse(rows, req.email.value) ==>
              r == Fail(BadRequest, "Email already in use")
    ensures r.status == BadRequest || r == Fail(ServerError, "Failed to create medical account")
  {
    if FindFirst(rows, UserIs(userId)).Some? then Fail(BadRequest, "Medical account already exists")
    else if req.email.None? then Fail(ServerError, "Failed to create medical account")
    else if FindFirst(rows, EmailIs(req.email.value)).Some? then Fail(BadRequest, "Email already in use")
    else
      // the not-null check of `medical_id` fails: the hook that sets it has not run yet
      Fail(ServerError, "Failed to create medical account")
  }

  /**
    Every request the handler is meant to fulfil is answered 500 by the
    code as written, where `CreateMedicalAccount` answers 201.
  */
  lemma CreationFailsAsWritten(rows: seq<MedicalAccount>, userId: nat, req: AccountRequest, medicalId: string)
    requires CreationAllowed(rows, userId, req, medicalId)
    ensures CreateMedicalAccountAsWritten(rows, userId, req) == Fail(ServerError, "Failed to create medical account")
  {
  }

  /** Such requests exist: user 7 asking for the first account, with email "a@b.c" and password "pw". */
  lemma FirstAccountNeverCreatedAsWritten(medicalId: string)
    ensures CreationAllowed([], 7, AccountRequest(Some("a@b.c"), Some("pw"), map[]), medicalId)
    ensures CreateMedicalAccountAsWritten([], 7, AccountRequest(Some("a@b.c"), Some("pw"), map[]))
              == Fail(ServerError, "Failed to create medical account")
  {
  }

  /**
    createMedicalAccount, with `medical_id` generated before the row is
    validated. A user holds at most one account and an email serves at
    most one account. A missing email makes the email lookup throw, a
    missing password breaks the not-null constraint and a generated
    `medical_id` that is already taken breaks its unique constraint: each
    is a 500 that writes nothing. On success the account and one `login`
    audit row ("Account created", actor the user) are written.
  */
  method CreateMedicalAccount(accounts: MedicalAccountTable, audit: AuditLogTable, userId: nat,
                              req: AccountRequest, medicalId: string, now: int)
    returns (reply: Reply<MedicalAccount>)
    requires accounts.Valid() && audit.Valid()
    modifies accounts, audit
    ensures accounts.Valid() && audit.Valid()
    ensures AccountOfUser(old(accounts.rows), userId) ==>
              reply == Fail(BadRequest, "Medical account already exists") && unchanged(accounts, audit)
    ensures !AccountOfUser(old(accounts.rows), userId) && req.email.None? ==>
              reply == Fail(ServerError, "Failed to create medical account") && unchanged(accounts, audit)
    ensures !AccountOfUser(old(accounts.rows), userId) && req.email.Some? && EmailInUse(old(accounts.rows), req.email.value) ==>
              reply == Fail(BadRequest, "Email already in use") && unchanged(accounts, audit)
    ensures !AccountOfUser(old(accounts.rows), userId) && req.email.Some? && !EmailInUse(old(accounts.rows), req.email.value)
            && (req.password.None? || MedicalIdInUse(old(accounts.rows), medicalId)) ==>
              reply == Fail(ServerError, "Failed to create medical account") && unchanged(accounts, audit)
    ensures reply.Ok? <==> CreationAllowed(old(accounts.rows), userId, req, medicalId)
    ensures reply.Ok? ==>
              && reply.status == Created
              && reply.body == MedicalAccount(old(accounts.nextId), userId, medicalId, req.email.value,
                                              CreationProfile(req.fields), true, now)
              && accounts.rows == old(accounts.rows) + [reply.body]
              && audit.rows == old(audit.rows) +
                   [AuditLog(old(audit.nextId), reply.body.id, Login, UserActor, Some(userId), None,
                             ActionDetails("Account created"), now)]
  {
    var byUser := FindFirst(accounts.rows, UserIs(userId));
    if byUser.Some? {
      return Fail(BadRequest, "Medical account already exists");
    }
    if req.email.None? {
      return Fail(ServerError, "Failed to create medical account");
    }
    var byEmail := FindFirst(accounts.rows, EmailIs(req.email.value));
    if byEmail.Some? {
      return Fail(BadRequest, "Email already in use");
    }
    if req.password.None? {
      return Fail(ServerError, "Failed to create medical account");
    }
    var created := accounts.Insert(userId, medicalId, req.email.value, CreationProfile(req.fields), now);
    if created.None? {
      return Fail(ServerError, "Failed to create medical account");
    }
    var _ := audit.Append(created.value.id, Login, UserActor, Some(userId), None, ActionDetails("Account created"), now);
    reply := Ok(Created, created.value);
  }

  /**
    The health columns after `update` with a JSON body: a health column the
    body names takes the body's value (null clears it); every other column
    keeps its value. Names that are not health columns are ignored.
  */
  function UpdatedProfile(profile: map<string, string>, body: map<string, Option<string>>): (p: map<string, string>)
    ensures forall k :: k in ProfileColumns && k in body ==> (k in p <==> body[k].Some?) && (k in p ==> p[k] == body[k].value)
    ensures forall k :: !(k in ProfileColumns && k in body) ==> (k in p <==> k in profile) && (k in p ==> p[k] == profile[k])
  {
    map k | k in profile.Keys + body.Keys && (if k in ProfileColumns && k in body then body[k].Some? else k in profile)
      :: if k in ProfileColumns && k in body then body[k].value else profile[k]
  }

  function AccountIs(accountId: nat): MedicalAccount -> bool {
    (a: MedicalAccount) => a.id == accountId
  }

  /**
    updateMedicalProfile: an unknown account is a 404 that writes nothing;
    otherwise the health columns are updated and one `profile_updated`
    row is appended whose `updated_fields` are all the names in the body,
    whether or not they are columns, and whose actor is the `user_id` of
    the token (absent from some tokens).
  */
  method UpdateMedicalProfile(accounts: MedicalAccountTable, audit: AuditLogTable, accountId: nat,
                              tokenUserId: Option<nat>, body: map<string, Option<string>>, now: int)
    returns (reply: Reply<()>)
    requires accounts.Valid() && audit.Valid()
    modifies accounts, audit
    ensures accounts.Valid() && audit.Valid()
    ensures var f := FindFirst(old(accounts.rows), AccountIs(accountId));
            && (f.None? ==> reply == Fail(NotFound, "Medical account not found") && unchanged(accounts, audit))
            && (f.Some? ==>
                  && reply == Ok(Success, ())
                  && accounts.rows == old(accounts.rows)[f.value := old(accounts.rows)[f.value].(
                       profile := UpdatedProfile(old(accounts.rows)[f.value].profile, body))]
                  && audit.rows == old(audit.rows) +
                       [AuditLog(old(audit.nextId), accountId, ProfileUpdated, UserActor, tokenUserId, None,
                                 ProfileDetails(body.Keys), now)])
  {
    var f := FindFirst(accounts.rows, AccountIs(accountId));
    if f.None? {
      return Fail(NotFound, "Medical account not found");
    }
    accounts.SetProfile(f.value, UpdatedProfile(accounts.rows[f.value].profile, body));
    var _ := audit.Append(accountId, ProfileUpdated, UserActor, tokenUserId, None, ProfileDetails(body.Keys), now);
    reply := Ok(Success, ());
  }

  /** Updating the profile with a body that names no health column changes no column. */
  lemma UpdateWithoutHealthFields(profile: map<string, string>, body: map<string, Option<string>>)
    requires forall k :: k in body ==> k !in ProfileColumns
    ensures UpdatedProfile(profile, body) == profile
  {
  }

  // ---------------------------------------------------------------- grants

  /** The body of a grant request; an array `scopes` is truthy even when empty. */
  datatype GrantRequest = GrantRequest(
    hospitalIdentifier: Option<string>,
    scopes: Option<seq<string>>,
    permissionType: Option<string>,
    duration: Option<string>)

  /** No field of the request is falsy. */
  predicate Complete(req: GrantRequest) {
    Truthy(req.hospitalIdentifier) && req.scopes.Some? && Truthy(req.permissionType) && Truthy(req.duration)
  }

  function HfrIdIs(hfrId: string): Hospital -> bool {
    (h: Hospital) => h.hfrId == Some(hfrId)
  }

  /**
    The stored expiry of a new grant: the fixed far date for "revoked",
    otherwise `parseInt(duration)` days from now, in whole seconds. `None`
    when no grant can be stored: `parseInt` gives NaN (an invalid date),
    or the instant lies outside what the `expires_at` column holds (which
    includes every instant past the range of a JavaScript `Date`).
  */
  function ExpiryFor(duration: string, now: int): Option<int> {
    if duration == "revoked" then Some(UntilRevoked)
    else
      match ParseInt(duration)
      case None => None
      case Some(days) =>
        if Storable(now + days * DayMillis) then Some(Stored(now + days * DayMillis)) else None
  }

  /**
    A duration of `n` days, written as the form writes it, expires `n`
    days from now, less the milliseconds the column drops; when that
    instant is past the last date the column holds there is no expiry, so
    no grant is created.
  */
  lemma ExpiryForDays(n: nat, now: int)
    ensures Storable(now + n * DayMillis) ==> ExpiryFor(DecimalString(n), now) == Some(Stored(now + n * DayMillis))
    ensures !Storable(now + n * DayMillis) ==> ExpiryFor(DecimalString(n), now) == None
  {
    var s := DecimalString(n);
    assert s != "revoked" by {
      assert IsDigit(s[0]);
    }
    ParseIntRoundTrip(n);
  }

  /** A duration with no leading number, such as "forever", gives no expiry, so no grant is created. */
  lemma ExpiryWithoutNumber(duration: string, now: int)
    requires duration != "revoked"
    requires TrimStart(duration) != [] && !IsDigit(TrimStart(duration)[0])
    requires TrimStart(duration)[0] !in {'-', '+'}
    ensures ExpiryFor(duration, now) == None
  {
  }

  /**
    The requests grantHospitalAccess is meant to fulfil: every field set,
    a hospital carrying the HFR id, and a duration that gives an expiry.
  */
  predicate GrantAllowed(hospitals: seq<Hospital>, req: GrantRequest, now: int) {
    && Complete(req) && FindFirst(hospitals, HfrIdIs(req.hospitalIdentifier.value)).Some?
    && ExpiryFor(req.duration.value, now).Some?
  }

  /**
    The hospitals table as the backend leaves it: the hospital model
    declares no `hfr_id` column and registration writes none, so no
    hospital carries an HFR id.
  */
  predicate HfrIdsUnset(hospitals: seq<Hospital>) {
    forall i :: 0 <= i < |hospitals| ==> hospitals[i].hfrId.None?
  }

  /**
    grantHospitalAccess as the code runs it. The lookup filters on
    `hfr_id`, a column the hospital model does not declare; `hfrColumn`
    says whether the table has it anyway. Without it the query fails and
    the handler answers 500. With it, added empty by a schema script,
    every hospital's value is null and none matches: 404. No grant and
    no audit row is ever written.
  */
  function GrantHospitalAccessAsWritten(req: GrantRequest, hfrColumn: bool): (r: Reply<HospitalAccess>)
    ensures r.Fail?
    ensures !Complete(req) ==> r == Fail(BadRequest, "All fields are required")
    ensures Complete(req) ==>
              r == Fail(ServerError, "Failed to grant access") || r == Fail(NotFound, "Hospital not found with this HFR ID")
  {
    if !Complete(req) then Fail(BadRequest, "All fields are required")
    else if !hfrColumn then Fail(ServerError, "Failed to grant access")
    else Fail(NotFound, "Hospital not found with this HFR ID")
  }

  /**
    On a hospitals table the backend can produce, the intended handler
    grants nothing either: its lookup by HFR id misses every hospital.
  */
  lemma NoGrantWithoutHfrIds(hospitals: seq<Hospital>, req: GrantRequest, now: int)
    requires HfrIdsUnset(hospitals)
    ensures !GrantAllowed(hospitals, req, now)
    ensures Complete(req) ==> FindFirst(hospitals, HfrIdIs(req.hospitalIdentifier.value)).None?
  {
  }

  /**
    A request the intended handler grants, for hospital 1 with HFR id
    "HFR-1" until revoked, which the code as written refuses.
  */
  lemma FirstGrantNeverCreatedAsWritten(now: int, hfrColumn: bool)
    ensures var req := GrantRequest(Some("HFR-1"), Some(["records"]), Some("read"), Some("revoked"));
            && GrantAllowed([Hospital(1, Some("HFR-1"))], req, now)
            && GrantHospitalAccessAsWritten(req, hfrColumn).Fail?
  {
    var hospitals := [Hospital(1, Some("HFR-1"))];
    assert HfrIdIs("HFR-1")(hospitals[0]);
  }

  /**
    grantHospitalAccess, on a hospitals table whose `hfr_id` is filled.
    A falsy field is a 400, an unknown HFR id a 404 and
    a duration that gives no valid expiry date (see `ExpiryFor`) a 500;
    none of them writes a row (a denial is not audited). Otherwise one
    active grant with the request's scopes and permissions
    `{type: permission_type}` is inserted, and one `access_granted` row
    recording scopes, permission type and duration.
  */
  method GrantHospitalAccess(grants: HospitalAccessTable, audit: AuditLogTable, hospitals: seq<Hospital>,
                             accountId: nat, req: GrantRequest, now: int)
    returns (reply: Reply<HospitalAccess>)
    requires grants.Valid() && audit.Valid()
    modifies grants, audit
    ensures grants.Valid() && audit.Valid()
    ensures !Complete(req) ==> reply == Fail(BadRequest, "All fields are required") && unchanged(grants, audit)
    ensures Complete(req) && FindFirst(hospitals, HfrIdIs(req.hospitalIdentifier.value)).None? ==>
              reply == Fail(NotFound, "Hospital not found with this HFR ID") && unchanged(grants, audit)
    ensures Complete(req) && FindFirst(hospitals, HfrIdIs(req.hospitalIdentifier.value)).Some?
            && ExpiryFor(req.duration.value, now).None? ==>
              reply == Fail(ServerError, "Failed to grant access") && unchanged(grants, audit)
    ensures reply.Ok? <==> GrantAllowed(hospitals, req, now)
    ensures reply.Ok? ==>
              var h := hospitals[FindFirst(hospitals, HfrIdIs(req.hospitalIdentifier.value)).value];
              && reply.status == Created
              && reply.body == NewGrant(old(grants.nextId), accountId, h.id, req.scopes.value,
                                        TypeOnlyPermissions(req.permissionType.value),
                                        ExpiryFor(req.duration.value, now).value, now)
              && grants.rows == old(grants.rows) + [reply.body]
              && audit.rows == old(audit.rows) +
                   [AuditLog(old(audit.nextId), accountId, AccessGranted, UserActor, Some(accountId), Some(h.id),
                             GrantDetails(req.scopes.value, req.permissionType.value, req.duration.value), now)]
  {
    if !Complete(req) {
      return Fail(BadRequest, "All fields are required");
    }
    var hi := FindFirst(hospitals, HfrIdIs(req.hospitalIdentifier.value));
    if hi.None? {
      return Fail(NotFound, "Hospital not found with this HFR ID");
    }
    var hospital := hospitals[hi.value];
    var expiresAt := ExpiryFor(req.duration.value, now);
    if expiresAt.None? {
      return Fail(ServerError, "Failed to grant access");
    }
    var g := grants.Create(accountId, hospital.id, req.scopes.value, TypeOnlyPermissions(req.permissionType.value),
                           expiresAt.value, now);
    var _ := audit.Append(accountId, AccessGranted, UserActor, Some(accountId), Some(hospital.id),
                          GrantDetails(req.scopes.value, req.permissionType.value, req.duration.value), now);
    reply := Ok(Created, g);
  }

  /** One entry of the patient's access list: the grant with its expiry flag and status word. */
  datatype AccessEntry = AccessEntry(access: HospitalAccess, isExpired: bool, status: string)

  function OwnActive(accountId: nat): HospitalAccess -> bool {
    (g: HospitalAccess) => g.medicalAccountId == accountId && g.isActive
  }

  function EntryAt(g: HospitalAccess, now: int): AccessEntry {
    var expired := g.expiresAt < now;
    AccessEntry(g, expired, if expired then "expired" else "active")
  }

  function Grants(entries: seq<AccessEntry>): seq<HospitalAccess> {
    seq(|entries|, i requires 0 <= i < |entries| => entries[i].access)
  }

  /** The `.map` step of getActiveAccess: one entry per grant, in the same order. */
  function Entries(gs: seq<HospitalAccess>, now: int): (r: seq<AccessEntry>)
    ensures Grants(r) == gs
    ensures forall i :: 0 <= i < |r| ==> r[i] == EntryAt(gs[i], now)
  {
    var r := seq(|gs|, i requires 0 <= i < |gs| => EntryAt(gs[i], now));
    assert Grants(r) == gs;
    r
  }

  /**
    getActiveAccess: exactly the account's active grants, expired ones
    included, newest grant first; an entry is flagged expired, with status
    "expired", exactly when its expiry lies strictly before now.
  */
  function GetActiveAccess(rows: seq<HospitalAccess>, accountId: nat, now: int): (r: seq<AccessEntry>)
    ensures multiset(Grants(r)) == multiset(Filter(rows, OwnActive(accountId)))
    ensures forall g :: g in Grants(r) <==> g in rows && g.medicalAccountId == accountId && g.isActive
    ensures SortedDesc(Grants(r), GrantedAt)
    ensures forall i :: 0 <= i < |r| ==>
              && (r[i].isExpired <==> FlaggedExpiredAt(r[i].access, now))
              && r[i].status == (if r[i].isExpired then "expired" else "active")
  {
    var listed := SortDesc(Filter(rows, OwnActive(accountId)), GrantedAt);
    SameMembers(listed, Filter(rows, OwnActive(accountId)));
    Entries(listed, now)
  }

  lemma SameMembers(a: seq<HospitalAccess>, b: seq<HospitalAccess>)
    requires multiset(a) == multiset(b)
    ensures forall g :: g in a <==> g in b
  {
    forall g ensures g in a <==> g in b {
      assert g in a <==> g in multiset(a);
      assert g in b <==> g in multiset(b);
    }
  }

  /** A grant just created by the patient appears in the patient's list, and as "active" until it expires. */
  lemma GrantIsListed(rows: seq<HospitalAccess>, g: HospitalAccess, now: int)
    requires g.isActive
    ensures exists i :: 0 <= i < |GetActiveAccess(rows + [g], g.medicalAccountId, now)|
              && GetActiveAccess(rows + [g], g.medicalAccountId, now)[i].access == g
              && (GetActiveAccess(rows + [g], g.medicalAccountId, now)[i].status == "active" <==> g.expiresAt >= now)
  {
    var r := GetActiveAccess(rows + [g], g.medicalAccountId, now);
    assert g in Grants(r);
    var i :| 0 <= i < |Grants(r)| && Grants(r)[i] == g;
    assert r[i].access == g;
  }

  function Owned(accountId: nat, accessId: nat): HospitalAccess -> bool {
    (g: HospitalAccess) => g.id == accessId && g.medicalAccountId == accountId
  }

  /**
    revokeHospitalAccess: a grant that does not exist or belongs to another
    account is a 404 that writes nothing; otherwise that one grant is made
    inactive with `revoked_at` now, every other grant is untouched, and one
    `access_revoked` row naming the grant's hospital is appended. Revoking
    an already revoked grant succeeds again and appends another row.
  */
  method RevokeHospitalAccess(grants: HospitalAccessTable, audit: AuditLogTable, accountId: nat, accessId: nat, now: int)
    returns (reply: Reply<()>)
    requires grants.Valid() && audit.Valid()
    modifies grants, audit
    ensures grants.Valid() && audit.Valid()
    ensures var f := FindFirst(old(grants.rows), Owned(accountId, accessId));
            && (f.None? ==> reply == Fail(NotFound, "Access record not found") && unchanged(grants, audit))
            && (f.Some? ==>
                  && reply == Ok(Success, ())
                  && grants.rows == old(grants.rows)[f.value := Revoked(old(grants.rows)[f.value], now)]
                  && grants.nextId == old(grants.nextId)
                  && audit.rows == old(audit.rows) +
                       [AuditLog(old(audit.nextId), accountId, AccessRevoked, UserActor, Some(accountId),
                                 Some(old(grants.rows)[f.value].hospitalId), RevokeDetails(accessId), now)])
  {
    var f := FindFirst(grants.rows, Owned(accountId, accessId));
    if f.None? {
      return Fail(NotFound, "Access record not found");
    }
    var hospitalId := grants.rows[f.value].hospitalId;
    grants.Revoke(f.value, now);
    var _ := audit.Append(accountId, AccessRevoked, UserActor, Some(accountId), Some(hospitalId), RevokeDetails(accessId), now);
    reply := Ok(Success, ());
  }

  /**
    A revoked grant is found again by the same lookup, so revoking is not
    idempotent: a second revoke succeeds, moves `revoked_at` and appends a
    second `access_revoked` row.
  */
  lemma RevokeFindsSameGrantAgain(rows: seq<HospitalAccess>, accountId: nat, accessId: nat, i: nat, now: int)
    requires FindFirst(rows, Owned(accountId, accessId)) == Some(i)
    ensures FindFirst(rows[i := Revoked(rows[i], now)], Owned(accountId, accessId)) == Some(i)
  {
    var after := rows[i := Revoked(rows[i], now)];
    forall j | 0 <= j < |rows| ensures Owned(accountId, accessId)(rows[j]) <==> Owned(accountId, accessId)(after[j]) {
    }
    FindFirstPointwise(rows, after, Owned(accountId, accessId));
  }

  /** After a revoke the grant is gone from the patient's list, and every other listed grant is still listed. */
  lemma RevokeRemovesFromList(rows: seq<HospitalAccess>, i: nat, now: int, accountId: nat, t: int)
    requires i < |rows|
    ensures Revoked(rows[i], now) !in Grants(GetActiveAccess(rows[i := Revoked(rows[i], now)], accountId, t))
    ensures forall g :: g in Grants(GetActiveAccess(rows, accountId, t)) && g != rows[i] ==>
              g in Grants(GetActiveAccess(rows[i := Revoked(rows[i], now)], accountId, t))
  {
    var after := rows[i := Revoked(rows[i], now)];
    forall g | g in rows && g != rows[i] ensures g in after {
      var j :| 0 <= j < |rows| && rows[j] == g;
      assert after[j] == g;
    }
  }

  // ---------------------------------------------------------------- audit trail

  function OwnEntry(accountId: nat): AuditLog -> bool {
    (e: AuditLog) => e.medicalAccountId == accountId
  }

  function Timestamp(e: AuditLog): int {
    e.timestamp
  }

  /**
    getAuditLogs: at most the 100 newest rows of the account, newest first.
  */
  function GetAuditLogs(rows: seq<AuditLog>, accountId: nat): (logs: seq<AuditLog>)
    ensures |logs| == Min(AuditPageSize, Count(rows, OwnEntry(accountId)))
    ensures forall e :: e in logs ==> e in rows && e.medicalAccountId == accountId
    ensures SortedDesc(logs, Timestamp)
  {
    Newest(Filter(rows, OwnEntry(accountId)), Timestamp, AuditPageSize)
  }

  /**
    The trail is the newest page of the account's rows: when the account
    has at most 100 rows every one is shown, and a row left out is never
    newer than a row shown.
  */
  lemma AuditTrailIsNewestPage(rows: seq<AuditLog>, accountId: nat)
    ensures multiset(GetAuditLogs(rows, accountId)) <= multiset(Filter(rows, OwnEntry(accountId)))
    ensures Count(rows, OwnEntry(accountId)) <= AuditPageSize ==>
              multiset(GetAuditLogs(rows, accountId)) == multiset(Filter(rows, OwnEntry(accountId)))
    ensures forall e, d | e in GetAuditLogs(rows, accountId) && d in rows && d.medicalAccountId == accountId
              && d !in GetAuditLogs(rows, accountId) :: d.timestamp <= e.timestamp
  {
    var logs := GetAuditLogs(rows, accountId);
    NewestPage(rows, OwnEntry(accountId), Timestamp, AuditPageSize);
    forall e, d | e in logs && d in rows && d.medicalAccountId == accountId && d !in logs
      ensures d.timestamp <= e.timestamp
    {
      assert OwnEntry(accountId)(d);
      assert Timestamp(d) <= Timestamp(e);
    }
  }

  /** An event appended to an account with fewer than 100 rows shows up in its trail. */
  lemma AppendedEventShown(rows: seq<AuditLog>, e: AuditLog)
    requires Count(rows, OwnEntry(e.medicalAccountId)) < AuditPageSize
    ensures e in GetAuditLogs(rows + [e], e.medicalAccountId)
  {
    FilterAppend(rows, e, OwnEntry(e.medicalAccountId));
    var logs := GetAuditLogs(rows + [e], e.medicalAccountId);
    assert e in multiset(Filter(rows + [e], OwnEntry(e.medicalAccountId)));
    assert e in multiset(logs);
  }
}

=== FILE: medical_data.dfy ===
/**
  The tables the consent handlers read and write besides grants and audit
  rows: medical accounts, hospitals, medical records and medical bills.
*/
module MedicalData {
  import opened Wrappers

  /** The optional health columns of a medical account. */
  const ProfileColumns: set<string> :=
    {"allergies", "chronic_conditions", "current_medications",
     "emergency_contact_name", "emergency_contact_phone", "blood_group"}

  /**
    A patient's medical account. `profile` holds the health columns that are
    not null; the password hash is left out.
  */
  datatype MedicalAccount = MedicalAccount(
    id: nat,
    userId: nat,
    medicalId: string,
    email: string,
    profile: map<string, string>,
    isActive: bool,
    createdAt: int)

  /**
    A hospital; `hfr_id` is the registry identifier a patient types in to
    grant access. The hospital model declares no such column, so in the
    backend it is never set (`MedicalController.HfrIdsUnset`).
  */
  datatype Hospital = Hospital(id: nat, hfrId: Option<string>)

  /** Who inserted a record or a file: the `uploaded_by_type` enumeration. */
  datatype Uploader = ByUser | ByHospital

  /** The values `record_type` accepts. */
  const RecordTypes: set<string> := {"lab_report", "prescription", "diagnosis", "scan", "other"}

  datatype MedicalRecord = MedicalRecord(
    id: nat,
    medicalAccountId: nat,
    recordType: string,
    title: string,
    description: Option<string>,
    uploadedByType: Uploader,
    uploadedById: nat,
    hospitalId: Option<nat>,
    recordDate: int,
    uploadedAt: int)

  datatype MedicalBill = MedicalBill(
    id: nat,
    medicalAccountId: nat,
    hospitalId: nat,
    billNumber: string,
    billDate: int,
    totalAmount: string,
    description: Option<string>,
    createdAt: int)

  /** The `medical_accounts` table with its unique columns `user_id`, `medical_id` and `email`. */
  class MedicalAccountTable {
    var rows: seq<MedicalAccount>
    var nextId: nat

    ghost predicate Valid()
      reads this
    {
      && nextId > 0
      && (forall i :: 0 <= i < |rows| ==> 0 < rows[i].id < nextId)
      && (forall i, j :: 0 <= i < j < |rows| ==>
            && rows[i].id < rows[j].id
            && rows[i].userId != rows[j].userId
            && rows[i].medicalId != rows[j].medicalId
            && rows[i].email != rows[j].email)
    }

    constructor ()
      ensures Valid() && rows == [] && nextId == 1
    {
      rows := [];
      nextId := 1;
    }

    /** Whether inserting a row with these values would break one of the unique constraints. */
    predicate Clashes(userId: nat, medicalId: string, email: string)
      reads this
    {
      exists i :: 0 <= i < |rows| && (rows[i].userId == userId || rows[i].medicalId == medicalId || rows[i].email == email)
    }

    /** INSERT: rejected, changing nothing, when a unique column clashes; otherwise appends with the next id. */
    method Insert(userId: nat, medicalId: string, email: string, profile: map<string, string>, now: int)
      returns (r: Option<MedicalAccount>)
      requires Valid()
      modifies this
      ensures Valid()
      ensures old(Clashes(userId, medicalId, email)) ==> r == None && unchanged(this)
      ensures !old(Clashes(userId, medicalId, email)) ==>
                && r == Some(MedicalAccount(old(nextId), userId, medicalId, email, profile, true, now))
                && rows == old(rows) + [r.value] && nextId == old(nextId) + 1
    {
      if Clashes(userId, medicalId, email) {
        return None;
      }
      var a := MedicalAccount(nextId, userId, medicalId, email, profile, true, now);
      rows := rows + [a];
      nextId := nextId + 1;
      r := Some(a);
    }

    /** UPDATE of the health columns of the row at index `i`. */
    method SetProfile(i: nat, profile: map<string, string>)
      requires Valid() && i < |rows|
      modifies this
      ensures Valid()
      ensures rows == old(rows)[i := old(rows)[i].(profile := profile)] && nextId == old(nextId)
    {
      rows := rows[i := rows[i].(profile := profile)];
    }
  }

  /** The `medical_records` table. */
  class MedicalRecordTable {
    var rows: seq<MedicalRecord>
    var nextId: nat

    ghost predicate Valid()
      reads this
    {
      && nextId > 0
      && (forall i :: 0 <= i < |rows| ==> 0 < rows[i].id < nextId)
      && (forall i, j :: 0 <= i < j < |rows| ==> rows[i].id < rows[j].id)
    }

    constructor ()
      ensures Valid() && rows == [] && nextId == 1
    {
      rows := [];
      nextId := 1;
    }

    method Append(medicalAccountId: nat, recordType: string, title: string, description: Option<string>,
                  uploadedByType: Uploader, uploadedById: nat, hospitalId: Option<nat>, recordDate: int, now: int)
      returns (r: MedicalRecord)
      requires Valid()
      modifies this
      ensures Valid()
      ensures r == MedicalRecord(old(nextId), medicalAccountId, recordType, title, description,
                                 uploadedByType, uploadedById, hospitalId, recordDate, now)
      ensures rows == old(rows) + [r] && nextId == old(nextId) + 1
    {
      r := MedicalRecord(nextId, medicalAccountId, recordType, title, description,
                         uploadedByType, uploadedById, hospitalId, recordDate, now);
      rows := rows + [r];
      nextId := nextId + 1;
    }
  }

  /** The `medical_bills` table with its unique column `bill_number`. */
  class MedicalBillTable {
    var rows: seq<MedicalBill>
    var nextId: nat

    ghost predicate Valid()
      reads this
    {
      && nextId > 0
      && (forall i :: 0 <= i < |rows| ==> 0 < rows[i].id < nextId)
      && (forall i, j :: 0 <= i < j < |rows| ==> rows[i].id < rows[j].id && rows[i].billNumber != rows[j].billNumber)
    }

    constructor ()
      ensures Valid() && rows == [] && nextId == 1
    {
      rows := [];
      nextId := 1;
    }

    predicate HasBillNumber(billNumber: string)
      reads this
    {
      exists i :: 0 <= i < |rows| && rows[i].billNumber == billNumber
    }

    /** INSERT: rejected, changing nothing, on a duplicate `bill_number`; otherwise appends with the next id. */
    method Insert(medicalAccountId: nat, hospitalId: nat, billNumber: string, billDate: int,
                  totalAmount: string, description: Option<string>, now: int)
      returns (r: Option<MedicalBill>)
      requires Valid()
      modifies this
      ensures Valid()
      ensures old(HasBillNumber(billNumber)) ==> r == None && unchanged(this)
      ensures !old(HasBillNumber(billNumber)) ==>
                && r == Some(MedicalBill(old(nextId), medicalAccountId, hospitalId, billNumber, billDate, totalAmount, description, now))
                && rows == old(rows) + [r.value] && nextId == old(nextId) + 1
    {
      if HasBillNumber(billNumber) {
        return None;
      }
      var b := MedicalBill(nextId, medicalAccountId, hospitalId, billNumber, billDate, totalAmount, description, now);
      rows := rows + [b];
      nextId := nextId + 1;
      r := Some(b);
    }
  }
}

=== FILE: medical_file_controller.dfy ===
/**
  The patient's folder and file handlers: folder tree listing, folder
  create/rename/delete, file listing, upload, download and delete. Every
  handler acts for the logged-in medical account `accountId`.

  The handlers keep one store invariant, `Integrity`: folder ids are
  positive, stored names are trimmed and non-blank, a folder's parent is an
  earlier folder of the same account, a file's folder is a folder of the
  same account, and no two folders of one account with the same parent
  share a name.
*/
module MedicalFileController {
  import opened Wrappers
  import opened Http
  import opened Query
  import opened Text
  import opened MedicalData
  import opened MedicalFiles

  // ---------------------------------------------------------------- store invariant

  function OwnedFolder(accountId: nat, id: nat): MedicalFolder -> bool {
    (f: MedicalFolder) => f.id == id && f.medicalAccountId == accountId
  }

  /** Whether the account owns a folder with this id (`findOne({ id, medical_account_id })`). */
  predicate HasFolder(fs: seq<MedicalFolder>, accountId: nat, id: nat) {
    fs != [] && (OwnedFolder(accountId, id)(fs[|fs| - 1]) || HasFolder(fs[..|fs| - 1], accountId, id))
  }

  /** `HasFolder` holds exactly when some row is the account's folder with that id. */
  lemma {:induction false} HasFolderIff(fs: seq<MedicalFolder>, accountId: nat, id: nat)
    ensures HasFolder(fs, accountId, id) <==> exists j :: 0 <= j < |fs| && OwnedFolder(accountId, id)(fs[j])
  {
    if fs != [] {
      var init := fs[..|fs| - 1];
      HasFolderIff(init, accountId, id);
      assert forall j :: 0 <= j < |init| ==> init[j] == fs[j];
    }
  }

  /** `HasFolder` answers what the handlers' `findOne` lookup answers. */
  lemma HasFolderFound(fs: seq<MedicalFolder>, accountId: nat, id: nat)
    ensures HasFolder(fs, accountId, id) <==> FindFirst(fs, OwnedFolder(accountId, id)).Some?
  {
    HasFolderIff(fs, accountId, id);
  }

  /** A name as the handlers store it, a trimmed non-blank name: not empty, no white space at either end. */
  predicate StoredName(name: string) {
    name != "" && !IsJsSpace(name[0]) && !IsJsSpace(name[|name| - 1])
  }

  predicate FoldersWellFormed(fs: seq<MedicalFolder>) {
    forall f :: f in fs ==> f.id > 0 && StoredName(f.folderName)
  }

  predicate ParentsExist(fs: seq<MedicalFolder>) {
    forall f :: f in fs && f.parentId.Some? ==> f.parentId.value < f.id && HasFolder(fs, f.medicalAccountId, f.parentId.value)
  }

  predicate FilesInFolders(fs: seq<MedicalFolder>, files: seq<MedicalFile>) {
    forall d :: d in files && d.folderId.Some? ==> HasFolder(fs, d.medicalAccountId, d.folderId.value)
  }

  /** Two folders of one account under one parent with the same name are the same folder. */
  predicate SiblingNamesUnique(fs: seq<MedicalFolder>) {
    forall f, g ::
      (f in fs && g in fs && f.medicalAccountId == g.medicalAccountId && f.parentId == g.parentId && f.folderName == g.folderName)
      ==> f.id == g.id
  }

  predicate Integrity(fs: seq<MedicalFolder>, files: seq<MedicalFile>) {
    && FoldersWellFormed(fs)
    && ParentsExist(fs)
    && FilesInFolders(fs, files)
    && SiblingNamesUnique(fs)
  }

  // ---------------------------------------------------------------- folder tree

  /** A folder with its sub-folders, as `buildTree` returns it. */
  datatype FolderNode = FolderNode(folder: MedicalFolder, children: seq<FolderNode>)

  /** The response of getFolders: the tree and the flat list it was built from. */
  datatype FolderListing = FolderListing(folders: seq<FolderNode>, flatFolders: seq<MedicalFolder>)

  /** Every parent id is smaller than its child's id: the parent relation has no cycle. */
  predicate ParentsPrecede(fs: seq<MedicalFolder>) {
    forall i :: 0 <= i < |fs| && fs[i].parentId.Some? ==> fs[i].parentId.value < fs[i].id
  }

  lemma IntegrityOrdersParents(fs: seq<MedicalFolder>, files: seq<MedicalFile>)
    requires Integrity(fs, files)
    ensures ParentsPrecede(fs)
  {
  }

  /** A number above every folder id. */
  function IdBound(fs: seq<MedicalFolder>): (b: nat)
    ensures forall i :: 0 <= i < |fs| ==> fs[i].id < b
  {
    if fs == [] then 0
    else
      var rest := IdBound(fs[1..]);
      assert forall i :: 1 <= i < |fs| ==> fs[i] == fs[1..][i - 1];
      if fs[0].id + 1 > rest then fs[0].id + 1 else rest
  }

  /** How deep a parent sits in the id order: the root is 0, folder `p` is `p + 1`. */
  function Rank(parent: Option<nat>): nat {
    match parent
    case None => 0
    case Some(p) => p + 1
  }

  function ChildOf(parent: Option<nat>): MedicalFolder -> bool {
    (f: MedicalFolder) => f.parentId == parent
  }

  /** A folder's own rank lies above its parent's and within the bound, so `buildTree` descends. */
  lemma ChildRanksHigher(fs: seq<MedicalFolder>, c: MedicalFolder)
    requires ParentsPrecede(fs) && c in fs
    ensures Rank(c.parentId) < Rank(Some(c.id)) <= IdBound(fs)
  {
  }

  /** `buildTree(parentId)`: the folders whose parent is `parent`, in list order, each with its own sub-tree. */
  function BuildTree(fs: seq<MedicalFolder>, parent: Option<nat>): seq<FolderNode>
    requires ParentsPrecede(fs)
    requires Rank(parent) <= IdBound(fs) + 1
    decreases IdBound(fs) + 1 - Rank(parent), 1
  {
    BuildNodes(fs, parent, Filter(fs, ChildOf(parent)))
  }

  /** The `.map` step of `buildTree` over the children `cs` of `parent`. */
  function BuildNodes(fs: seq<MedicalFolder>, parent: Option<nat>, cs: seq<MedicalFolder>): seq<FolderNode>
    requires ParentsPrecede(fs)
    requires Rank(parent) <= IdBound(fs) + 1
    requires forall c :: c in cs ==> c in fs && c.parentId == parent
    decreases IdBound(fs) + 1 - Rank(parent), 0, |cs|
  {
    if cs == [] then []
    else
      var c := cs[0];
      ChildRanksHigher(fs, c);
      [FolderNode(c, BuildTree(fs, Some(c.id)))] + BuildNodes(fs, parent, cs[1..])
  }

  /** The folders of a list of nodes, in order. */
  function Folders(nodes: seq<FolderNode>): (r: seq<MedicalFolder>)
    ensures |r| == |nodes| && forall i :: 0 <= i < |nodes| ==> r[i] == nodes[i].folder
  {
    if nodes == [] then [] else [nodes[0].folder] + Folders(nodes[1..])
  }

  /**
    The shape `buildTree` promises: the nodes under `parent` hold exactly
    the folders of `fs` whose `parent_id` is `parent`, in the order of
    `fs`, and the same holds under every node for that node's id.
  */
  ghost predicate Placed(fs: seq<MedicalFolder>, nodes: seq<FolderNode>, parent: Option<nat>)
    decreases nodes
  {
    && Folders(nodes) == Filter(fs, ChildOf(parent))
    && forall n :: n in nodes ==> Placed(fs, n.children, Some(n.folder.id))
  }

  lemma {:induction false} BuildTreePlaced(fs: seq<MedicalFolder>, parent: Option<nat>)
    requires ParentsPrecede(fs)
    requires Rank(parent) <= IdBound(fs) + 1
    ensures Placed(fs, BuildTree(fs, parent), parent)
    decreases IdBound(fs) + 1 - Rank(parent), 1
  {
    BuildNodesFolders(fs, parent, Filter(fs, ChildOf(parent)));
    BuildNodesPlaced(fs, parent, Filter(fs, ChildOf(parent)));
  }

  /** The nodes built over `cs` carry the folders of `cs`, in order. */
  lemma {:induction false} BuildNodesFolders(fs: seq<MedicalFolder>, parent: Option<nat>, cs: seq<MedicalFolder>)
    requires ParentsPrecede(fs)
    requires Rank(parent) <= IdBound(fs) + 1
    requires forall c :: c in cs ==> c in fs && c.parentId == parent
    ensures Folders(BuildNodes(fs, parent, cs)) == cs
    decreases |cs|
  {
    if cs != [] {
      var c := cs[0];
      ChildRanksHigher(fs, c);
      BuildNodesFolders(fs, parent, cs[1..]);
      var rest := BuildNodes(fs, parent, cs[1..]);
      var nodes := [FolderNode(c, BuildTree(fs, Some(c.id)))] + rest;
      assert BuildNodes(fs, parent, cs) == nodes;
      assert Folders(nodes) == [c] + Folders(rest);
      assert cs == [c] + cs[1..];
    }
  }

  /** Every node built over `cs` holds its own sub-tree as `buildTree` promises. */
  lemma {:induction false} BuildNodesPlaced(fs: seq<MedicalFolder>, parent: Option<nat>, cs: seq<MedicalFolder>)
    requires ParentsPrecede(fs)
    requires Rank(parent) <= IdBound(fs) + 1
    requires forall c :: c in cs ==> c in fs && c.parentId == parent
    ensures forall n :: n in BuildNodes(fs, parent, cs) ==> Placed(fs, n.children, Some(n.folder.id))
    decreases IdBound(fs) + 1 - Rank(parent), 0, |cs|
  {
    if cs != [] {
      var c := cs[0];
      ChildRanksHigher(fs, c);
      BuildTreePlaced(fs, Some(c.id));
      BuildNodesPlaced(fs, parent, cs[1..]);
      var head := FolderNode(c, BuildTree(fs, Some(c.id)));
      var rest := BuildNodes(fs, parent, cs[1..]);
      assert BuildNodes(fs, parent, cs) == [head] + rest;
      forall n | n in [head] + rest ensures Placed(fs, n.children, Some(n.folder.id)) {
        if n != head {
          assert n in rest;
        }
      }
    }
  }

  function FolderMatches(accountId: nat, category: Option<string>): MedicalFolder -> bool {
    (f: MedicalFolder) => f.medicalAccountId == accountId && (Truthy(category) ==> f.category == category.value)
  }

  /** Folder `f` sits somewhere in the tree `nodes`. */
  ghost predicate InTree(nodes: seq<FolderNode>, f: MedicalFolder)
    decreases nodes
  {
    exists i :: 0 <= i < |nodes| && (nodes[i].folder == f || InTree(nodes[i].children, f))
  }

  /**
    A folder whose parent is not in the list is in no placed tree below
    any other parent: `buildTree` never reaches it.
  */
  lemma {:induction false} OrphanNotInTree(fs: seq<MedicalFolder>, nodes: seq<FolderNode>, parent: Option<nat>, f: MedicalFolder)
    requires Placed(fs, nodes, parent)
    requires f.parentId.Some? && f.parentId != parent
    requires forall g :: g in fs ==> g.id != f.parentId.value
    ensures !InTree(nodes, f)
    decreases nodes
  {
    forall i | 0 <= i < |nodes| ensures nodes[i].folder != f && !InTree(nodes[i].children, f) {
      PlacedNode(fs, nodes, parent, i);
      OrphanNotInTree(fs, nodes[i].children, Some(nodes[i].folder.id), f);
    }
  }

  /** A node of a placed level holds a folder of the list whose parent is that level's, and its own placed sub-tree. */
  lemma PlacedNode(fs: seq<MedicalFolder>, nodes: seq<FolderNode>, parent: Option<nat>, i: nat)
    requires Placed(fs, nodes, parent) && i < |nodes|
    ensures nodes[i].folder in fs && nodes[i].folder.parentId == parent
    ensures Placed(fs, nodes[i].children, Some(nodes[i].folder.id))
  {
    assert nodes[i] in nodes;
    assert Folders(nodes)[i] in Filter(fs, ChildOf(parent));
  }

  /**
    getFolders: the flat list holds exactly the account's folders (of the
    requested category when one is given), and the tree holds each of
    them under the folder its `parent_id` names, with the root-level
    folders (`parent_id` null) at the top. A folder whose parent is not in
    the flat list (a parent of another category) is in no place of the
    tree: `FilteredParentHidesFolder`.
  */
  function GetFolders(folders: seq<MedicalFolder>, accountId: nat, category: Option<string>): (r: FolderListing)
    requires ParentsPrecede(folders)
    ensures forall f :: f in r.flatFolders <==>
              f in folders && f.medicalAccountId == accountId && (Truthy(category) ==> f.category == category.value)
    ensures Placed(r.flatFolders, r.folders, None)
  {
    var flat := Filter(folders, FolderMatches(accountId, category));
    assert ParentsPrecede(flat) by {
      forall i | 0 <= i < |flat| && flat[i].parentId.Some? ensures flat[i].parentId.value < flat[i].id {
        assert flat[i] in folders;
      }
    }
    BuildTreePlaced(flat, None);
    FolderListing(BuildTree(flat, None), flat)
  }

  /**
    createFolder does not compare a parent's category with the new
    folder's, so a folder may sit under a parent of another category.
    Listing its own category then shows it in the flat list but nowhere
    in the tree.
  */
  lemma FilteredParentHidesFolder(folders: seq<MedicalFolder>, accountId: nat, category: Option<string>, f: MedicalFolder)
    requires ParentsPrecede(folders)
    requires f in folders && f.medicalAccountId == accountId
    requires Truthy(category) && f.category == category.value
    requires f.parentId.Some?
    requires forall g :: g in folders && g.id == f.parentId.value ==> g.category != category.value
    ensures f in GetFolders(folders, accountId, category).flatFolders
    ensures !InTree(GetFolders(folders, accountId, category).folders, f)
  {
    var r := GetFolders(folders, accountId, category);
    OrphanNotInTree(r.flatFolders, r.folders, None, f);
  }

  // ---------------------------------------------------------------- folders

  /** `!name || name.trim().length === 0`. */
  predicate Blank(name: Option<string>) {
    name.None? || Trim(name.value) == ""
  }

  /** `category || 'records'`. */
  function CategoryOr(category: Option<string>): string {
    if Truthy(category) then category.value else "records"
  }

  /** `parent_id || null`: a missing or zero parent id stands for the root. */
  function ParentOf(parentId: Option<nat>): Option<nat> {
    if parentId.Some? && parentId.value != 0 then parentId else None
  }

  function Sibling(accountId: nat, parent: Option<nat>, name: string): MedicalFolder -> bool {
    (f: MedicalFolder) => f.medicalAccountId == accountId && f.parentId == parent && f.folderName == name
  }

  /** A folder of the account under `parent` already has this name. */
  predicate NameTaken(fs: seq<MedicalFolder>, accountId: nat, parent: Option<nat>, name: string) {
    exists j :: 0 <= j < |fs| && fs[j].medicalAccountId == accountId && fs[j].parentId == parent && fs[j].folderName == name
  }

  /** A folder of the account under `parent`, other than folder `id`, already has this name. */
  predicate NameTakenByOther(fs: seq<MedicalFolder>, accountId: nat, parent: Option<nat>, name: string, id: nat) {
    exists j :: 0 <= j < |fs| && fs[j].medicalAccountId == accountId && fs[j].parentId == parent
                && fs[j].folderName == name && fs[j].id != id
  }

  /** A folder that is there stays there when a row is appended. */
  lemma HasFolderAppend(fs: seq<MedicalFolder>, f: MedicalFolder, accountId: nat, id: nat)
    requires HasFolder(fs, accountId, id)
    ensures HasFolder(fs + [f], accountId, id)
  {
    assert (fs + [f])[..|fs|] == fs;
  }

  /** Appending a folder that passed createFolder's checks keeps the store invariant. */
  lemma CreateKeepsIntegrity(fs: seq<MedicalFolder>, files: seq<MedicalFile>, f: MedicalFolder)
    requires Integrity(fs, files)
    requires f.id > 0 && forall i :: 0 <= i < |fs| ==> fs[i].id < f.id
    requires StoredName(f.folderName)
    requires f.parentId.Some? ==> HasFolder(fs, f.medicalAccountId, f.parentId.value)
    requires !NameTaken(fs, f.medicalAccountId, f.parentId, f.folderName)
    ensures Integrity(fs + [f], files)
  {
    var r := fs + [f];
    assert forall x :: x in r <==> x in fs || x == f;
    assert ParentsExist(r) by {
      forall x | x in r && x.parentId.Some?
        ensures x.parentId.value < x.id && HasFolder(r, x.medicalAccountId, x.parentId.value)
      {
        var p := x.parentId.value;
        assert HasFolder(fs, x.medicalAccountId, p);
        HasFolderAppend(fs, f, x.medicalAccountId, p);
        if x == f {
          HasFolderIff(fs, f.medicalAccountId, p);
          var j :| 0 <= j < |fs| && OwnedFolder(f.medicalAccountId, p)(fs[j]);
        }
      }
    }
    assert FilesInFolders(r, files) by {
      forall d | d in files && d.folderId.Some?
        ensures HasFolder(r, d.medicalAccountId, d.folderId.value)
      {
        HasFolderAppend(fs, f, d.medicalAccountId, d.folderId.value);
      }
    }
    assert SiblingNamesUnique(r) by {
      forall x, y | x in r && y in r && x.medicalAccountId == y.medicalAccountId && x.parentId == y.parentId && x.folderName == y.folderName
        ensures x.id == y.id
      {
      }
    }
  }

  /**
    createFolder. A blank name is a 400, then a category outside
    {records, bills, profile} (missing means records) a 400, then a parent
    id the account does not own a 404, then a name already used under that
    parent a 400; none of these writes. Otherwise one folder is appended
    with the trimmed name, and the store invariant still holds.
  */
  method CreateFolder(folders: FolderTable, files: FileTable, accountId: nat, folderName: Option<string>,
                      parentId: Option<nat>, category: Option<string>, now: int)
    returns (reply: Reply<MedicalFolder>)
    requires folders.Valid() && Integrity(folders.rows, files.rows)
    modifies folders
    ensures folders.Valid() && Integrity(folders.rows, files.rows)
    ensures Blank(folderName) ==> reply == Fail(BadRequest, "Folder name is required") && unchanged(folders)
    ensures !Blank(folderName) && CategoryOr(category) !in Categories ==>
              reply == Fail(BadRequest, "Invalid category") && unchanged(folders)
    ensures !Blank(folderName) && CategoryOr(category) in Categories && ParentOf(parentId).Some?
            && !HasFolder(old(folders.rows), accountId, ParentOf(parentId).value) ==>
              reply == Fail(NotFound, "Parent folder not found") && unchanged(folders)
    ensures !Blank(folderName) && CategoryOr(category) in Categories
            && (ParentOf(parentId).Some? ==> HasFolder(old(folders.rows), accountId, ParentOf(parentId).value)) ==>
              var name := Trim(folderName.value);
              if NameTaken(old(folders.rows), accountId, ParentOf(parentId), name) then
                reply == Fail(BadRequest, "Folder with this name already exists in this location") && unchanged(folders)
              else
                && reply == Ok(Created, MedicalFolder(old(folders.nextId), accountId, ParentOf(parentId), name,
                                                      CategoryOr(category), now))
                && folders.rows == old(folders.rows) + [reply.body] && folders.nextId == old(folders.nextId) + 1
  {
    if folderName.None? || Trim(folderName.value) == "" {
      return Fail(BadRequest, "Folder name is required");
    }
    var cat := CategoryOr(category);
    if cat !in Categories {
      return Fail(BadRequest, "Invalid category");
    }
    var parent := ParentOf(parentId);
    if parent.Some? {
      var p := FindFirst(folders.rows, OwnedFolder(accountId, parent.value));
      HasFolderFound(folders.rows, accountId, parent.value);
      if p.None? {
        return Fail(NotFound, "Parent folder not found");
      }
    }
    var name := Trim(folderName.value);
    var existing := FindFirst(folders.rows, Sibling(accountId, parent, name));
    if existing.Some? {
      return Fail(BadRequest, "Folder with this name already exists in this location");
    }
    var created := AddFolder(folders, files, accountId, parent, name, cat, now);
    reply := Ok(Created, created);
  }

  /** The write step of createFolder, once every check has passed: the store invariant survives the insert. */
  method AddFolder(folders: FolderTable, files: FileTable, accountId: nat, parent: Option<nat>, name: string,
                   category: string, now: int)
    returns (created: MedicalFolder)
    requires folders.Valid() && Integrity(folders.rows, files.rows)
    requires StoredName(name)
    requires parent.Some? ==> HasFolder(folders.rows, accountId, parent.value)
    requires !NameTaken(folders.rows, accountId, parent, name)
    modifies folders
    ensures folders.Valid() && Integrity(folders.rows, files.rows)
    ensures created == MedicalFolder(old(folders.nextId), accountId, parent, name, category, now)
    ensures folders.rows == old(folders.rows) + [created] && folders.nextId == old(folders.nextId) + 1
  {
    var f := MedicalFolder(folders.nextId, accountId, parent, name, category, now);
    assert forall i :: 0 <= i < |folders.rows| ==> folders.rows[i].id < f.id by {
      forall i | 0 <= i < |folders.rows| ensures folders.rows[i].id < f.id {
        assert folders.rows[i] in folders.rows;
      }
    }
    CreateKeepsIntegrity(folders.rows, files.rows, f);
    created := folders.Append(accountId, parent, name, category, now);
  }

  /** Changing a folder's name leaves every folder id with its account. */
  lemma HasFolderRename(fs: seq<MedicalFolder>, k: nat, name: string, accountId: nat, id: nat)
    requires k < |fs| && HasFolder(fs, accountId, id)
    ensures HasFolder(fs[k := fs[k].(folderName := name)], accountId, id)
  {
    HasFolderIff(fs, accountId, id);
    var j :| 0 <= j < |fs| && OwnedFolder(accountId, id)(fs[j]);
    var r := fs[k := fs[k].(folderName := name)];
    assert OwnedFolder(accountId, id)(r[j]);
    HasFolderIff(r, accountId, id);
  }

  /** Giving folder `k` a name no other sibling uses keeps the store invariant. */
  lemma RenameKeepsIntegrity(fs: seq<MedicalFolder>, files: seq<MedicalFile>, k: nat, name: string)
    requires Integrity(fs, files) && k < |fs|
    requires StoredName(name)
    requires !NameTakenByOther(fs, fs[k].medicalAccountId, fs[k].parentId, name, fs[k].id)
    requires IncreasingKeys(fs, FolderId)
    ensures Integrity(fs[k := fs[k].(folderName := name)], files)
  {
    var r := fs[k := fs[k].(folderName := name)];
    forall x | x in r ensures x == r[k] || exists j :: 0 <= j < |fs| && j != k && fs[j] == x {
      var j :| 0 <= j < |r| && r[j] == x;
      if j != k {
        assert fs[j] == x;
      }
    }
    assert fs[k] in fs;
    assert FoldersWellFormed(r) by {
      forall x | x in r ensures x.id > 0 && StoredName(x.folderName) {
        if x != r[k] {
          var j :| 0 <= j < |fs| && j != k && fs[j] == x;
        }
      }
    }
    assert ParentsExist(r) by {
      forall x | x in r && x.parentId.Some?
        ensures x.parentId.value < x.id && HasFolder(r, x.medicalAccountId, x.parentId.value)
      {
        if x != r[k] {
          var j :| 0 <= j < |fs| && j != k && fs[j] == x;
        }
        HasFolderRename(fs, k, name, x.medicalAccountId, x.parentId.value);
      }
    }
    assert FilesInFolders(r, files) by {
      forall d | d in files && d.folderId.Some?
        ensures HasFolder(r, d.medicalAccountId, d.folderId.value)
      {
        HasFolderRename(fs, k, name, d.medicalAccountId, d.folderId.value);
      }
    }
    assert SiblingNamesUnique(r) by {
      forall x, y | x in r && y in r && x.medicalAccountId == y.medicalAccountId && x.parentId == y.parentId && x.folderName == y.folderName
        ensures x.id == y.id
      {
        if x != r[k] && y != r[k] {
          var i :| 0 <= i < |fs| && i != k && fs[i] == x;
          var j :| 0 <= j < |fs| && j != k && fs[j] == y;
        }
      }
    }
  }

  /**
    Renaming a folder to its own current name (up to surrounding blanks) is
    never refused: the name is not blank and no other sibling holds it.
  */
  lemma RenameToOwnNameAllowed(fs: seq<MedicalFolder>, files: seq<MedicalFile>, k: nat, newName: string)
    requires Integrity(fs, files) && IncreasingKeys(fs, FolderId) && k < |fs|
    requires Trim(newName) == fs[k].folderName
    ensures !Blank(Some(newName))
    ensures !NameTakenByOther(fs, fs[k].medicalAccountId, fs[k].parentId, Trim(newName), fs[k].id)
  {
  }

  /**
    renameFolder. A blank new name is a 400 (before the folder is looked
    up), a folder the account does not own a 404, a name another folder
    under the same parent holds a 400; none of these writes. Otherwise only
    that folder's `folder_name` becomes the trimmed name.
  */
  method RenameFolder(folders: FolderTable, files: FileTable, accountId: nat, folderId: nat, newName: Option<string>)
    returns (reply: Reply<MedicalFolder>)
    requires folders.Valid() && Integrity(folders.rows, files.rows)
    modifies folders
    ensures folders.Valid() && Integrity(folders.rows, files.rows)
    ensures Blank(newName) ==> reply == Fail(BadRequest, "New folder name is required") && unchanged(folders)
    ensures !Blank(newName) ==>
              var k := FindFirst(old(folders.rows), OwnedFolder(accountId, folderId));
              && (k.None? ==> reply == Fail(NotFound, "Folder not found") && unchanged(folders))
              && (k.Some? ==>
                    var f := old(folders.rows)[k.value];
                    if NameTakenByOther(old(folders.rows), accountId, f.parentId, Trim(newName.value), folderId) then
                      reply == Fail(BadRequest, "Folder with this name already exists in this location") && unchanged(folders)
                    else
                      && reply == Ok(Success, f.(folderName := Trim(newName.value)))
                      && folders.rows == old(folders.rows)[k.value := reply.body]
                      && folders.nextId == old(folders.nextId))
  {
    if newName.None? || Trim(newName.value) == "" {
      return Fail(BadRequest, "New folder name is required");
    }
    var k := FindFirst(folders.rows, OwnedFolder(accountId, folderId));
    if k.None? {
      return Fail(NotFound, "Folder not found");
    }
    var f := folders.rows[k.value];
    var name := Trim(newName.value);
    var duplicate := FindFirst(folders.rows, (g: MedicalFolder) =>
                                 g.medicalAccountId == accountId && g.folderName == name && g.parentId == f.parentId && g.id != folderId);
    if duplicate.Some? {
      return Fail(BadRequest, "Folder with this name already exists in this location");
    }
    RenameKeepsIntegrity(folders.rows, files.rows, k.value, name);
    folders.Rename(k.value, name);
    reply := Ok(Success, f.(folderName := name));
  }

  function InFolder(folderId: nat): MedicalFile -> bool {
    (d: MedicalFile) => d.folderId == Some(folderId)
  }

  /** Removing folder `k` leaves every other folder id with its account. */
  lemma HasFolderRemove(fs: seq<MedicalFolder>, k: nat, accountId: nat, id: nat)
    requires k < |fs| && HasFolder(fs, accountId, id) && id != fs[k].id
    ensures HasFolder(fs[..k] + fs[k + 1..], accountId, id)
  {
    var r := fs[..k] + fs[k + 1..];
    HasFolderIff(fs, accountId, id);
    var j :| 0 <= j < |fs| && OwnedFolder(accountId, id)(fs[j]);
    var j' := if j < k then j else j - 1;
    assert r[j'] == fs[j];
    HasFolderIff(r, accountId, id);
  }

  /** Removing a folder that no folder names as parent and no file names as folder keeps the store invariant. */
  lemma DeleteKeepsIntegrity(fs: seq<MedicalFolder>, files: seq<MedicalFile>, k: nat)
    requires Integrity(fs, files) && k < |fs|
    requires forall i :: 0 <= i < |fs| ==> fs[i].parentId != Some(fs[k].id)
    requires forall i :: 0 <= i < |files| ==> files[i].folderId != Some(fs[k].id)
    ensures Integrity(fs[..k] + fs[k + 1..], files)
  {
    var r := fs[..k] + fs[k + 1..];
    forall x | x in r ensures x in fs {
      RemovedMember(fs, k, x);
    }
    assert ParentsExist(r) by {
      forall x | x in r && x.parentId.Some?
        ensures x.parentId.value < x.id && HasFolder(r, x.medicalAccountId, x.parentId.value)
      {
        var i :| 0 <= i < |fs| && fs[i] == x;
        HasFolderRemove(fs, k, x.medicalAccountId, x.parentId.value);
      }
    }
    assert FilesInFolders(r, files) by {
      forall d | d in files && d.folderId.Some?
        ensures HasFolder(r, d.medicalAccountId, d.folderId.value)
      {
        var i :| 0 <= i < |files| && files[i] == d;
        HasFolderRemove(fs, k, d.medicalAccountId, d.folderId.value);
      }
    }
  }

  /**
    deleteFolder. A folder the account does not own is a 404; a folder some
    folder names as parent is a 400, then one some file sits in is a 400;
    none of these writes. Otherwise the folder is removed and nothing else.
  */
  method DeleteFolder(folders: FolderTable, files: FileTable, accountId: nat, folderId: nat)
    returns (reply: Reply<()>)
    requires folders.Valid() && Integrity(folders.rows, files.rows)
    modifies folders
    ensures folders.Valid() && Integrity(folders.rows, files.rows)
    ensures !HasFolder(old(folders.rows), accountId, folderId) ==> reply == Fail(NotFound, "Folder not found") && unchanged(folders)
    ensures HasFolder(old(folders.rows), accountId, folderId) && Count(old(folders.rows), ChildOf(Some(folderId))) > 0 ==>
              reply == Fail(BadRequest, "Folder must be empty (no subfolders) to delete") && unchanged(folders)
    ensures HasFolder(old(folders.rows), accountId, folderId) && Count(old(folders.rows), ChildOf(Some(folderId))) == 0
            && Count(files.rows, InFolder(folderId)) > 0 ==>
              reply == Fail(BadRequest, "Folder must be empty (no files) to delete") && unchanged(folders)
    ensures reply.Ok? <==> HasFolder(old(folders.rows), accountId, folderId) && Count(old(folders.rows), ChildOf(Some(folderId))) == 0
                           && Count(files.rows, InFolder(folderId)) == 0
    ensures reply.Ok? ==>
              var k := FindFirst(old(folders.rows), OwnedFolder(accountId, folderId)).GetOr(0);
              && folders.rows == old(folders.rows)[..k] + old(folders.rows)[k + 1..]
              && folders.nextId == old(folders.nextId)
              && !HasFolder(folders.rows, accountId, folderId)
  {
    var k := FindFirst(folders.rows, OwnedFolder(accountId, folderId));
    HasFolderFound(folders.rows, accountId, folderId);
    if k.None? {
      return Fail(NotFound, "Folder not found");
    }
    if Count(folders.rows, ChildOf(Some(folderId))) > 0 {
      return Fail(BadRequest, "Folder must be empty (no subfolders) to delete");
    }
    if Count(files.rows, InFolder(folderId)) > 0 {
      return Fail(BadRequest, "Folder must be empty (no files) to delete");
    }
    RemoveEmptyFolder(folders, files, accountId, folderId, k.value);
    reply := Ok(Success, ());
  }

  /** The write step of deleteFolder, once the folder is known to be empty: it is gone and the store invariant holds. */
  method RemoveEmptyFolder(folders: FolderTable, files: FileTable, accountId: nat, folderId: nat, k: nat)
    requires folders.Valid() && Integrity(folders.rows, files.rows)
    requires k < |folders.rows| && OwnedFolder(accountId, folderId)(folders.rows[k])
    requires Count(folders.rows, ChildOf(Some(folderId))) == 0 && Count(files.rows, InFolder(folderId)) == 0
    modifies folders
    ensures folders.Valid() && Integrity(folders.rows, files.rows)
    ensures folders.rows == old(folders.rows)[..k] + old(folders.rows)[k + 1..]
    ensures folders.nextId == old(folders.nextId)
    ensures !HasFolder(folders.rows, accountId, folderId)
  {
    EmptyFolderRemovable(folders.rows, files.rows, k, accountId);
    folders.Remove(k);
  }

  /** An empty folder can be removed: the invariant holds afterwards and the folder is gone. */
  lemma EmptyFolderRemovable(fs: seq<MedicalFolder>, files: seq<MedicalFile>, k: nat, accountId: nat)
    requires Integrity(fs, files) && IncreasingKeys(fs, FolderId) && k < |fs|
    requires Count(fs, ChildOf(Some(fs[k].id))) == 0 && Count(files, InFolder(fs[k].id)) == 0
    ensures Integrity(fs[..k] + fs[k + 1..], files)
    ensures !HasFolder(fs[..k] + fs[k + 1..], accountId, fs[k].id)
  {
    CountZero(fs, ChildOf(Some(fs[k].id)));
    CountZero(files, InFolder(fs[k].id));
    DeleteKeepsIntegrity(fs, files, k);
    RemovedFolderGone(fs, k, accountId);
  }

  /** Folder ids are unique, so once row `k` is removed no row carries its id. */
  lemma RemovedFolderGone(fs: seq<MedicalFolder>, k: nat, accountId: nat)
    requires IncreasingKeys(fs, FolderId) && k < |fs|
    ensures !HasFolder(fs[..k] + fs[k + 1..], accountId, fs[k].id)
  {
    var r := fs[..k] + fs[k + 1..];
    forall j | 0 <= j < |r| ensures r[j].id != fs[k].id {
      RemovedIndex(fs, k, j);
    }
    HasFolderIff(r, accountId, fs[k].id);
  }

  // ---------------------------------------------------------------- files

  /** The query filter of getFiles: a non-empty `folder_id` picks one folder, an empty one the root. */
  function FileMatches(accountId: nat, folderId: Option<string>, category: Option<string>): MedicalFile -> bool {
    (d: MedicalFile) =>
      && d.medicalAccountId == accountId
      && (Truthy(category) ==> d.category == category.value)
      && (if Truthy(folderId) then d.folderId.Some? && DecimalString(d.folderId.value) == folderId.value
          else if folderId == Some("null") || folderId == Some("") then d.folderId.None?
          else true)
  }

  function FileCreatedAt(d: MedicalFile): int {
    d.createdAt
  }

  /** getFiles: exactly the account's files that pass the folder and category filters, newest first. */
  function GetFiles(files: seq<MedicalFile>, accountId: nat, folderId: Option<string>, category: Option<string>)
    : (r: seq<MedicalFile>)
    ensures forall d :: d in r <==> d in files && FileMatches(accountId, folderId, category)(d)
    ensures multiset(r) == multiset(Filter(files, FileMatches(accountId, folderId, category)))
    ensures SortedDesc(r, FileCreatedAt)
  {
    var m := Filter(files, FileMatches(accountId, folderId, category));
    var r := SortDesc(m, FileCreatedAt);
    assert forall d :: d in r <==> d in m by {
      forall d ensures d in r <==> d in m {
        assert d in r <==> d in multiset(r);
        assert d in m <==> d in multiset(m);
      }
    }
    r
  }

  /**
    `folder_id=null` is truthy, so it is used as a folder id that no folder
    has: it lists nothing rather than the root-level files.
  */
  lemma NullFolderQueryListsNothing(files: seq<MedicalFile>, accountId: nat, category: Option<string>)
    ensures GetFiles(files, accountId, Some("null"), category) == []
  {
    var p := FileMatches(accountId, Some("null"), category);
    forall d | d in files ensures !p(d) {
      if d.folderId.Some? {
        var s := DecimalString(d.folderId.value);
        assert IsDigit(s[0]);
      }
    }
    FilterNone(files, p);
  }

  /** An empty `folder_id` lists the account's root-level files. */
  lemma EmptyFolderQueryListsRoot(files: seq<MedicalFile>, accountId: nat, category: Option<string>)
    ensures forall d :: d in GetFiles(files, accountId, Some(""), category) <==>
              d in files && d.medicalAccountId == accountId && d.folderId.None? && (Truthy(category) ==> d.category == category.value)
  {
    var r := GetFiles(files, accountId, Some(""), category);
    forall d ensures d in r <==>
                     d in files && d.medicalAccountId == accountId && d.folderId.None? && (Truthy(category) ==> d.category == category.value)
    {
      assert !Truthy(Some(""));
      assert d in r <==> d in files && FileMatches(accountId, Some(""), category)(d);
    }
  }

  function OwnedFile(accountId: nat, fileId: nat): MedicalFile -> bool {
    (d: MedicalFile) => d.id == fileId && d.medicalAccountId == accountId
  }

  /** downloadFile: the account's file with that id, or a 404 when the account has none. */
  function DownloadFile(files: seq<MedicalFile>, accountId: nat, fileId: nat): (r: Reply<MedicalFile>)
    ensures r.Ok? <==> exists j :: 0 <= j < |files| && files[j].id == fileId && files[j].medicalAccountId == accountId
    ensures r.Ok? ==> r.status == Success && r.body in files && r.body.id == fileId && r.body.medicalAccountId == accountId
    ensures r.Fail? ==> r == Fail(NotFound, "File not found")
  {
    match FindFirst(files, OwnedFile(accountId, fileId))
    case None => Fail(NotFound, "File not found")
    case Some(j) => Ok(Success, files[j])
  }

  /**
    deleteFile: a file the account does not own is a 404 that removes
    nothing (exactly when downloading it is refused); otherwise the file's
    row is removed and a later download of it is a 404.
  */
  method DeleteFile(folders: FolderTable, files: FileTable, accountId: nat, fileId: nat)
    returns (reply: Reply<()>)
    requires files.Valid() && Integrity(folders.rows, files.rows)
    modifies files
    ensures files.Valid() && Integrity(folders.rows, files.rows)
    ensures reply.Ok? <==> DownloadFile(old(files.rows), accountId, fileId).Ok?
    ensures reply.Fail? ==> reply == Fail(NotFound, "File not found") && unchanged(files)
    ensures reply.Ok? ==>
              && reply == Ok(Success, ())
              && (forall d :: d in files.rows <==> d in old(files.rows) && d.id != fileId)
              && DownloadFile(files.rows, accountId, fileId).Fail?
  {
    var k := FindFirst(files.rows, OwnedFile(accountId, fileId));
    if k.None? {
      return Fail(NotFound, "File not found");
    }
    ghost var before := files.rows;
    files.Remove(k.value);
    assert forall i :: 0 <= i < |files.rows| ==> files.rows[i] in before;
    reply := Ok(Success, ());
  }

  /** What multer hands the handler for an uploaded file. */
  datatype Upload = Upload(originalName: string, mimeType: string, path: string, size: nat)

  /** The MIME types uploadFile accepts: PDF, DOC, DOCX, JPEG (two spellings) and PNG. */
  const AllowedTypes: set<string> :=
    {"application/pdf", "application/msword",
     "application/vnd.openxmlformats-officedocument.wordprocessingml.document",
     "image/jpeg", "image/jpg", "image/png"}

  /** The account's folder whose id is written `s`. */
  function FolderWritten(accountId: nat, s: string): MedicalFolder -> bool {
    (f: MedicalFolder) => f.medicalAccountId == accountId && DecimalString(f.id) == s
  }

  /**
    uploadFile. No file is a 400; a non-empty `folder_id` naming no folder
    of the account a 404; a MIME type outside the six allowed a 400; a
    category outside {records, bills, profile} (missing means records) a
    400; none of these writes. Otherwise one file uploaded by the user is
    appended, in the named folder or at the root.
  */
  method UploadFile(folders: FolderTable, files: FileTable, accountId: nat, file: Option<Upload>,
                    folderId: Option<string>, category: Option<string>, now: int)
    returns (reply: Reply<MedicalFile>)
    requires files.Valid() && Integrity(folders.rows, files.rows)
    modifies files
    ensures files.Valid() && Integrity(folders.rows, files.rows)
    ensures file.None? ==> reply == Fail(BadRequest, "No file uploaded") && unchanged(files)
    ensures file.Some? ==>
              var k := FindFirst(folders.rows, FolderWritten(accountId, folderId.GetOr("")));
              Truthy(folderId) && k.None? ==> reply == Fail(NotFound, "Folder not found") && unchanged(files)
    ensures file.Some? && (Truthy(folderId) ==> FindFirst(folders.rows, FolderWritten(accountId, folderId.value)).Some?) ==>
              && (file.value.mimeType !in AllowedTypes ==>
                    reply == Fail(BadRequest, "File type not allowed. Allowed: PDF, DOC, DOCX, JPG, PNG") && unchanged(files))
              && (file.value.mimeType in AllowedTypes && CategoryOr(category) !in Categories ==>
                    reply == Fail(BadRequest, "Invalid category") && unchanged(files))
              && (file.value.mimeType in AllowedTypes && CategoryOr(category) in Categories ==>
                    var u := file.value;
                    var folder := if Truthy(folderId)
                                  then Some(folders.rows[FindFirst(folders.rows, FolderWritten(accountId, folderId.value)).value].id)
                                  else None;
                    && reply == Ok(Created, MedicalFile(old(files.nextId), accountId, folder, CategoryOr(category), u.originalName,
                                                        u.mimeType, u.path, u.size, ByUser, accountId, now))
                    && files.rows == old(files.rows) + [reply.body] && files.nextId == old(files.nextId) + 1)
  {
    if file.None? {
      return Fail(BadRequest, "No file uploaded");
    }
    var folder: Option<nat> := None;
    if Truthy(folderId) {
      var k := FindFirst(folders.rows, FolderWritten(accountId, folderId.value));
      if k.None? {
        return Fail(NotFound, "Folder not found");
      }
      folder := Some(folders.rows[k.value].id);
      HasFolderIff(folders.rows, accountId, folder.value);
    }
    var u := file.value;
    if u.mimeType !in AllowedTypes {
      return Fail(BadRequest, "File type not allowed. Allowed: PDF, DOC, DOCX, JPG, PNG");
    }
    var cat := CategoryOr(category);
    if cat !in Categories {
      return Fail(BadRequest, "Invalid category");
    }
    var d := AddFile(folders, files, accountId, folder, cat, u, now);
    reply := Ok(Created, d);
  }

  /** The write step of uploadFile, once every check has passed: a file in a folder the account owns, or at the root. */
  method AddFile(folders: FolderTable, files: FileTable, accountId: nat, folder: Option<nat>, category: string,
                 u: Upload, now: int)
    returns (d: MedicalFile)
    requires files.Valid() && Integrity(folders.rows, files.rows)
    requires folder.Some? ==> HasFolder(folders.rows, accountId, folder.value)
    modifies files
    ensures files.Valid() && Integrity(folders.rows, files.rows)
    ensures d == MedicalFile(old(files.nextId), accountId, folder, category, u.originalName, u.mimeType, u.path, u.size,
                             ByUser, accountId, now)
    ensures files.rows == old(files.rows) + [d] && files.nextId == old(files.nextId) + 1
  {
    ghost var before := files.rows;
    d := files.Append(accountId, folder, category, u.originalName, u.mimeType, u.path, u.size, ByUser, accountId, now);
    assert forall i :: 0 <= i < |before| ==> files.rows[i] == before[i];
  }

  /** An uploaded file is listed in the account's unfiltered file list and can be downloaded. */
  lemma UploadedFileListed(files: seq<MedicalFile>, d: MedicalFile)
    ensures d in GetFiles(files + [d], d.medicalAccountId, None, None)
    ensures DownloadFile(files + [d], d.medicalAccountId, d.id).Ok?
  {
    assert (files + [d])[|files|] == d;
  }
}

=== FILE: medical_files.dfy ===
/**
  The patient's own document store: the `medical_folders` and
  `medical_files` tables.
*/
module MedicalFiles {
  import opened Wrappers
  import opened Query
  import opened MedicalData

  /** The values the `category` column of both tables accepts. */
  const Categories: set<string> := {"records", "bills", "profile"}

  datatype MedicalFolder = MedicalFolder(
    id: nat,
    medicalAccountId: nat,
    parentId: Option<nat>,
    folderName: string,
    category: string,
    createdAt: int)

  datatype MedicalFile = MedicalFile(
    id: nat,
    medicalAccountId: nat,
    folderId: Option<nat>,
    category: string,
    fileName: string,
    fileType: string,
    filePath: string,
    fileSize: nat,
    uploadedBy: Uploader,
    uploadedById: nat,
    createdAt: int)

  function FolderId(f: MedicalFolder): int {
    f.id
  }

  function FileId(f: MedicalFile): int {
    f.id
  }

  /** The `medical_folders` table. */
  class FolderTable {
    var rows: seq<MedicalFolder>
    var nextId: nat

    ghost predicate Valid()
      reads this
    {
      && nextId > 0
      && (forall f :: f in rows ==> 0 < f.id < nextId)
      && IncreasingKeys(rows, FolderId)
    }

    constructor ()
      ensures Valid() && rows == [] && nextId == 1
    {
      rows := [];
      nextId := 1;
    }

    method Append(medicalAccountId: nat, parentId: Option<nat>, folderName: string, category: string, now: int)
      returns (f: MedicalFolder)
      requires Valid()
      modifies this
      ensures Valid()
      ensures f == MedicalFolder(old(nextId), medicalAccountId, parentId, folderName, category, now)
      ensures rows == old(rows) + [f] && nextId == old(nextId) + 1
    {
      f := MedicalFolder(nextId, medicalAccountId, parentId, folderName, category, now);
      rows := rows + [f];
      nextId := nextId + 1;
    }

    /** `folder.folder_name = name; folder.save()` on the row at index `i`. */
    method Rename(i: nat, name: string)
      requires Valid() && i < |rows|
      modifies this
      ensures Valid()
      ensures rows == old(rows)[i := old(rows)[i].(folderName := name)] && nextId == old(nextId)
    {
      rows := rows[i := rows[i].(folderName := name)];
      assert forall j :: 0 <= j < |rows| ==> rows[j].id == old(rows)[j].id;
      forall f | f in rows ensures 0 < f.id < nextId {
        var j :| 0 <= j < |rows| && rows[j] == f;
        assert old(rows)[j] in old(rows);
      }
    }

    /** `folder.destroy()` on the row at index `i`. */
    method Remove(i: nat)
      requires Valid() && i < |rows|
      modifies this
      ensures Valid()
      ensures rows == old(rows)[..i] + old(rows)[i + 1..] && nextId == old(nextId)
      ensures forall f :: f in rows <==> f in old(rows) && f.id != old(rows)[i].id
    {
      RemoveAt(rows, i, FolderId);
      rows := rows[..i] + rows[i + 1..];
    }
  }

  /** The `medical_files` table. */
  class FileTable {
    var rows: seq<MedicalFile>
    var nextId: nat

    ghost predicate Valid()
      reads this
    {
      && nextId > 0
      && (forall f :: f in rows ==> 0 < f.id < nextId)
      && IncreasingKeys(rows, FileId)
    }

    constructor ()
      ensures Valid() && rows == [] && nextId == 1
    {
      rows := [];
      nextId := 1;
    }

    method Append(medicalAccountId: nat, folderId: Option<nat>, category: string, fileName: string, fileType: string,
                  filePath: string, fileSize: nat, uploadedBy: Uploader, uploadedById: nat, now: int)
      returns (f: MedicalFile)
      requires Valid()
      modifies this
      ensures Valid()
      ensures f == MedicalFile(old(nextId), medicalAccountId, folderId, category, fileName, fileType, filePath,
                               fileSize, uploadedBy, uploadedById, now)
      ensures rows == old(rows) + [f] && nextId == old(nextId) + 1
    {
      f := MedicalFile(nextId, medicalAccountId, folderId, category, fileName, fileType, filePath,
                       fileSize, uploadedBy, uploadedById, now);
      rows := rows + [f];
      nextId := nextId + 1;
    }

    /** `file.destroy()` on the row at index `i`. */
    method Remove(i: nat)
      requires Valid() && i < |rows|
      modifies this
      ensures Valid()
      ensures rows == old(rows)[..i] + old(rows)[i + 1..] && nextId == old(nextId)
      ensures forall f :: f in rows <==> f in old(rows) && f.id != old(rows)[i].id
    {
      RemoveAt(rows, i, FileId);
      rows := rows[..i] + rows[i + 1..];
    }
  }
}

=== FILE: otp.dfy ===
/**
  One-time passwords: a six-digit code stored with its e-mail, purpose
  and an expiry ten minutes after it was issued, and a check that spends
  the newest matching unused code.
*/
module OneTimePasswords {
  import opened Wrappers
  import opened Query
  import opened Text
  import opened DateTimeColumn

  /** The values the `purpose` column accepts. */
  datatype Purpose = MedicalAccountCreation | PasswordReset | LoginVerification

  datatype Otp = Otp(
    id: nat,
    email: string,
    otpCode: string,
    purpose: Purpose,
    expiresAt: int,
    isUsed: bool,
    createdAt: int)

  /** How long a code stays valid, in milliseconds. */
  const Lifetime := 10 * 60 * 1000

  function OtpId(o: Otp): int {
    o.id
  }

  function CreatedAt(o: Otp): int {
    o.createdAt
  }

  /** The `otps` table. */
  class OtpTable {
    var rows: seq<Otp>
    var nextId: nat

    ghost predicate Valid()
      reads this
    {
      && nextId > 0
      && (forall o :: o in rows ==> 0 < o.id < nextId)
      && IncreasingKeys(rows, OtpId)
    }

    constructor ()
      ensures Valid() && rows == [] && nextId == 1
    {
      rows := [];
      nextId := 1;
    }

    /** INSERT of an unused code. */
    method Insert(email: string, otpCode: string, purpose: Purpose, expiresAt: int, now: int) returns (o: Otp)
      requires Valid()
      modifies this
      ensures Valid()
      ensures o == Otp(old(nextId), email, otpCode, purpose, expiresAt, false, now)
      ensures rows == old(rows) + [o] && nextId == old(nextId) + 1
    {
      o := Otp(nextId, email, otpCode, purpose, expiresAt, false, now);
      rows := rows + [o];
      nextId := nextId + 1;
    }

    /** `otp.is_used = true; otp.save()` on the row at index `i`. */
    method MarkUsed(i: nat)
      requires Valid() && i < |rows|
      modifies this
      ensures Valid()
      ensures rows == old(rows)[i := old(rows)[i].(isUsed := true)] && nextId == old(nextId)
    {
      rows := rows[i := rows[i].(isUsed := true)];
      assert forall j :: 0 <= j < |rows| ==> rows[j].id == old(rows)[j].id;
      forall o | o in rows ensures 0 < o.id < nextId {
        var j :| 0 <= j < |rows| && rows[j] == o;
        assert old(rows)[j] in old(rows);
      }
    }
  }

  /** `d` times the quotient bounds the dividend: `(n * m) / d < m` when `n < d`. */
  lemma ScaledFractionBelow(n: nat, d: nat, m: nat)
    requires n < d && m > 0
    ensures (n * m) / d < m
  {
    var q := (n * m) / d;
    assert q * d <= n * m < d * m;
  }

  /**
    generateOTP with `Math.random()` given as the fraction `n / d`:
    `floor(100000 + n / d * 900000)`, written in decimal. The code is
    always six digits and its value lies in [100000, 999999].
  */
  function GenerateOtp(n: nat, d: nat): (code: string)
    requires n < d
    ensures |code| == 6 && forall i :: 0 <= i < |code| ==> IsDigit(code[i])
    ensures exists v :: 100000 <= v <= 999999 && code == DecimalString(v)
  {
    var v := 100000 + (n * 900000) / d;
    ScaledFractionBelow(n, d, 900000);
    assert Pow10(5) == 100000 by {
      assert Pow10(1) == 10 && Pow10(2) == 100 && Pow10(3) == 1000 && Pow10(4) == 10000;
    }
    DecimalStringLength(v, 6);
    DecimalString(v)
  }

  /** The result of verifyOTP. */
  datatype Verdict = Verified | Rejected(message: string)

  /** The rows the lookup considers: same e-mail, code and purpose, not yet used. */
  function Unused(email: string, otpCode: string, purpose: Purpose): Otp -> bool {
    (o: Otp) => o.email == email && o.otpCode == otpCode && o.purpose == purpose && !o.isUsed
  }

  /**
    sendOTP with the random draw `n / d` and the clock `now`: a new unused
    row whose code is the generated one and which expires ten minutes
    later, as the `expires_at` column stores it (without milliseconds, so
    up to a second early). The code is returned (the development reply);
    the e-mail is not part of this model. An absent purpose is
    `medical_account_creation`.
  */
  method SendOtp(otps: OtpTable, email: string, purpose: Option<Purpose>, n: nat, d: nat, now: int)
    returns (code: string)
    requires otps.Valid() && n < d
    modifies otps
    ensures otps.Valid()
    ensures code == GenerateOtp(n, d)
    ensures otps.rows == old(otps.rows) +
              [Otp(old(otps.nextId), email, code, purpose.GetOr(MedicalAccountCreation), Stored(now + Lifetime), false, now)]
    ensures now + Lifetime - 1000 < otps.rows[|otps.rows| - 1].expiresAt <= now + Lifetime
  {
    code := GenerateOtp(n, d);
    var expiresAt := Stored(now + Lifetime);
    var _ := otps.Insert(email, code, purpose.GetOr(MedicalAccountCreation), expiresAt, now);
  }

  /**
    verifyOTP at time `now`: the newest unused row with this e-mail, code
    and purpose decides. None is "Invalid OTP"; one whose stored expiry
    (whole seconds) is before `now` is "OTP has expired" and stays unused
    (the stored instant itself still passes); otherwise that row is marked
    used.
  */
  method VerifyOtp(otps: OtpTable, email: string, otpCode: string, purpose: Purpose, now: int)
    returns (v: Verdict)
    requires otps.Valid()
    modifies otps
    ensures otps.Valid()
    ensures var f := NewestWhere(old(otps.rows), Unused(email, otpCode, purpose), CreatedAt);
            && (f.None? ==> v == Rejected("Invalid OTP") && unchanged(otps))
            && (f.Some? && now > old(otps.rows)[f.value].expiresAt ==>
                  v == Rejected("OTP has expired") && unchanged(otps))
            && (f.Some? && now <= old(otps.rows)[f.value].expiresAt ==>
                  v == Verified && otps.rows == old(otps.rows)[f.value := old(otps.rows)[f.value].(isUsed := true)])
  {
    var f := NewestWhere(otps.rows, Unused(email, otpCode, purpose), CreatedAt);
    if f.None? {
      return Rejected("Invalid OTP");
    }
    if now > otps.rows[f.value].expiresAt {
      return Rejected("OTP has expired");
    }
    otps.MarkUsed(f.value);
    v := Verified;
  }

  /**
    A successful verify spends exactly the row it found: afterwards the
    lookup sees the same rows as before except that one.
  */
  lemma VerifySpendsOneRow(rows: seq<Otp>, email: string, otpCode: string, purpose: Purpose)
    requires NewestWhere(rows, Unused(email, otpCode, purpose), CreatedAt).Some?
    ensures var i := NewestWhere(rows, Unused(email, otpCode, purpose), CreatedAt).value;
            var after := rows[i := rows[i].(isUsed := true)];
            forall j :: 0 <= j < |rows| ==>
              (Unused(email, otpCode, purpose)(after[j]) <==> Unused(email, otpCode, purpose)(rows[j]) && j != i)
  {
  }

  /**
    A code verifies at most once: when the row found was the only unused
    match, a second verify of the same code says "Invalid OTP".
  */
  lemma SecondVerifyFails(rows: seq<Otp>, email: string, otpCode: string, purpose: Purpose)
    requires NewestWhere(rows, Unused(email, otpCode, purpose), CreatedAt).Some?
    requires var i := NewestWhere(rows, Unused(email, otpCode, purpose), CreatedAt).value;
             forall j :: 0 <= j < |rows| && j != i ==> !Unused(email, otpCode, purpose)(rows[j])
    ensures var i := NewestWhere(rows, Unused(email, otpCode, purpose), CreatedAt).value;
            NewestWhere(rows[i := rows[i].(isUsed := true)], Unused(email, otpCode, purpose), CreatedAt).None?
  {
    VerifySpendsOneRow(rows, email, otpCode, purpose);
  }

  /**
    A code just sent is the one the lookup finds, when every earlier row
    was created before it, so verifying it succeeds exactly up to and
    including its expiry instant (the cases of VerifyOtp).
  */
  lemma SentCodeFoundUntilExpiry(rows: seq<Otp>, o: Otp, now: int)
    requires !o.isUsed
    requires forall j :: 0 <= j < |rows| ==> rows[j].createdAt < o.createdAt
    ensures NewestWhere(rows + [o], Unused(o.email, o.otpCode, o.purpose), CreatedAt) == Some(|rows|)
  {
    var s := rows + [o];
    assert Unused(o.email, o.otpCode, o.purpose)(s[|rows|]);
  }
}

=== FILE: query.dfy ===
/**
  The parts of an ORM query the handlers rely on, over an in-memory table
  (a sequence of rows in insertion order): a WHERE filter, COUNT, ORDER BY
  ... DESC, LIMIT, and findOne (the first row that matches).
*/
module Query {
  import opened Wrappers

  /** WHERE: the rows that satisfy `p`, in table order. */
  function Filter<T(!new)>(s: seq<T>, p: T -> bool): (r: seq<T>)
    ensures |r| <= |s|
    ensures forall x :: x in r <==> x in s && p(x)
    ensures multiset(r) <= multiset(s)
  {
    if s == [] then []
    else
      assert s == [s[0]] + s[1..];
      (if p(s[0]) then [s[0]] else []) + Filter(s[1..], p)
  }

  /** Filtering out every row leaves nothing. */
  lemma FilterNone<T(!new)>(s: seq<T>, p: T -> bool)
    requires forall x :: x in s ==> !p(x)
    ensures Filter(s, p) == []
  {
  }

  /** COUNT(*) with a WHERE clause. */
  function Count<T(!new)>(s: seq<T>, p: T -> bool): nat {
    |Filter(s, p)|
  }

  /** A count of zero means no row matches. */
  lemma CountZero<T(!new)>(s: seq<T>, p: T -> bool)
    requires Count(s, p) == 0
    ensures forall i :: 0 <= i < |s| ==> !p(s[i])
  {
  }

  /** Filtering on an appended row adds that row exactly when it matches. */
  lemma {:induction false} FilterAppend<T(!new)>(s: seq<T>, x: T, p: T -> bool)
    ensures Filter(s + [x], p) == Filter(s, p) + (if p(x) then [x] else [])
  {
    if s == [] {
      assert [x][1..] == [];
    } else {
      assert (s + [x])[1..] == s[1..] + [x];
      FilterAppend(s[1..], x, p);
    }
  }

  /** Filtering is unaffected by rows that the predicate rejects in both versions. */
  lemma {:induction false} FilterPointwise<T(!new)>(s: seq<T>, t: seq<T>, p: T -> bool)
    requires |s| == |t|
    requires forall i :: 0 <= i < |s| ==> (p(s[i]) <==> p(t[i])) && (p(s[i]) ==> s[i] == t[i])
    ensures Filter(s, p) == Filter(t, p)
  {
    if s != [] {
      FilterPointwise(s[1..], t[1..], p);
    }
  }

  /** Keys strictly increase along `s`, as autoincrement ids do in insertion order. */
  predicate IncreasingKeys<T>(s: seq<T>, key: T -> int) {
    forall i, j :: 0 <= i < j < |s| ==> key(s[i]) < key(s[j])
  }

  /** Where row `i` of `s` with row `k` removed comes from. */
  lemma RemovedIndex<T>(s: seq<T>, k: nat, i: nat)
    requires k < |s| && i < |s| - 1
    ensures (s[..k] + s[k + 1..])[i] == s[if i < k then i else i + 1]
  {
  }

  /** Removing a row adds none. */
  lemma RemovedMember<T>(s: seq<T>, k: nat, x: T)
    requires k < |s| && x in s[..k] + s[k + 1..]
    ensures x in s
  {
    var i :| 0 <= i < |s| - 1 && (s[..k] + s[k + 1..])[i] == x;
    RemovedIndex(s, k, i);
  }

  /** Under increasing keys, a key identifies a row. */
  lemma IncreasingKeysIdentify<T>(s: seq<T>, key: T -> int)
    requires IncreasingKeys(s, key)
    ensures forall x, y :: x in s && y in s && key(x) == key(y) ==> x == y
  {
    forall x, y | x in s && y in s && key(x) == key(y) ensures x == y {
      var i :| 0 <= i < |s| && s[i] == x;
      var j :| 0 <= j < |s| && s[j] == y;
      assert !(i < j) && !(j < i);
    }
  }

  /** DELETE of the row at index `k`: the other rows stay, in order. */
  lemma RemoveAt<T>(s: seq<T>, k: nat, key: T -> int)
    requires IncreasingKeys(s, key) && k < |s|
    ensures IncreasingKeys(s[..k] + s[k + 1..], key)
    ensures forall x :: x in s[..k] + s[k + 1..] <==> x in s && key(x) != key(s[k])
  {
    var r := s[..k] + s[k + 1..];
    assert forall i :: 0 <= i < |r| ==> r[i] == if i < k then s[i] else s[i + 1];
    forall x ensures x in r <==> x in s && key(x) != key(s[k]) {
      if x in s && key(x) != key(s[k]) {
        var i :| 0 <= i < |s| && s[i] == x;
        assert i != k;
        if i < k {
          assert r[i] == x;
        } else {
          assert r[i - 1] == x;
        }
      }
    }
  }

  /** ORDER BY key DESC holds of `s`. */
  predicate SortedDesc<T>(s: seq<T>, key: T -> int) {
    forall i, j :: 0 <= i < j < |s| ==> key(s[i]) >= key(s[j])
  }

  /** Putting a row in front of a descending sequence whose keys are all at most its own keeps it descending. */
  lemma ConsSorted<T>(h: T, t: seq<T>, key: T -> int)
    requires SortedDesc(t, key)
    requires forall k :: 0 <= k < |t| ==> key(t[k]) <= key(h)
    ensures SortedDesc([h] + t, key)
  {
    var r := [h] + t;
    forall i, j | 0 <= i < j < |r| ensures key(r[i]) >= key(r[j]) {
      if i > 0 {
        assert r[i] == t[i - 1] && r[j] == t[j - 1];
      } else {
        assert r[j] == t[j - 1];
      }
    }
  }

  /** Every row of a sequence with the same rows as `t` plus `x` has a key at most `bound`, when all of those do. */
  lemma BoundedRows<T>(r: seq<T>, t: seq<T>, x: T, key: T -> int, bound: int)
    requires multiset(r) == multiset(t) + multiset{x}
    requires key(x) <= bound
    requires forall k :: 0 <= k < |t| ==> key(t[k]) <= bound
    ensures forall k :: 0 <= k < |r| ==> key(r[k]) <= bound
  {
    forall k | 0 <= k < |r| ensures key(r[k]) <= bound {
      assert r[k] in multiset(r);
      if r[k] != x {
        assert r[k] in multiset(t);
        var j :| 0 <= j < |t| && t[j] == r[k];
      }
    }
  }

  /** Inserts `x` into a descending sequence, before the rows whose key equals its own. */
  function Insert<T>(x: T, s: seq<T>, key: T -> int): (r: seq<T>)
    requires SortedDesc(s, key)
    ensures SortedDesc(r, key)
    ensures multiset(r) == multiset(s) + multiset{x}
    ensures |r| == |s| + 1
  {
    if s == [] then [x]
    else if key(x) >= key(s[0]) then
      ConsSorted(x, s, key);
      [x] + s
    else
      var rest := Insert(x, s[1..], key);
      assert s == [s[0]] + s[1..];
      BoundedRows(rest, s[1..], x, key, key(s[0]));
      ConsSorted(s[0], rest, key);
      [s[0]] + rest
  }

  /** ORDER BY key DESC: a descending permutation of the rows; rows with equal keys keep table order. */
  function SortDesc<T>(s: seq<T>, key: T -> int): (r: seq<T>)
    ensures SortedDesc(r, key)
    ensures multiset(r) == multiset(s)
    ensures |r| == |s|
  {
    if s == [] then []
    else
      assert s == [s[0]] + s[1..];
      Insert(s[0], SortDesc(s[1..], key), key)
  }

  /** In a descending sequence every row of a prefix has a key at least that of every later row. */
  lemma PrefixDominates<T>(t: seq<T>, key: T -> int, m: nat, x: T, y: T)
    requires SortedDesc(t, key) && m <= |t|
    requires x in t[..m] && y in t && y !in t[..m]
    ensures key(y) <= key(x)
  {
    assert forall j :: 0 <= j < m ==> t[..m][j] == t[j];
    var i :| 0 <= i < m && t[i] == x;
    var k :| 0 <= k < |t| && t[k] == y;
    assert k >= m;
  }

  function Min(a: int, b: int): int { if a <= b then a else b }

  /** The first `m` rows of a descending permutation of `s`: the facts `Newest` promises. */
  lemma PrefixOfSorted<T>(s: seq<T>, t: seq<T>, key: T -> int, m: nat)
    requires multiset(t) == multiset(s) && SortedDesc(t, key) && m <= |t|
    ensures SortedDesc(t[..m], key)
    ensures multiset(t[..m]) <= multiset(s)
    ensures m == |t| ==> multiset(t[..m]) == multiset(s)
    ensures forall x :: x in t[..m] ==> x in s
    ensures forall x, y :: x in t[..m] && y in s && y !in t[..m] ==> key(y) <= key(x)
  {
    var r := t[..m];
    assert t == r + t[m..];
    assert multiset(t) == multiset(r) + multiset(t[m..]);
    forall x | x in r ensures x in s {
      assert x in multiset(r);
      assert x in multiset(s);
    }
    forall x, y | x in r && y in s && y !in r ensures key(y) <= key(x) {
      assert y in multiset(t);
      PrefixDominates(t, key, m, x, y);
    }
  }

  /**
    ORDER BY key DESC LIMIT n: the `n` rows with the largest keys, largest
    first. A row left out never has a larger key than a row kept.
  */
  function Newest<T>(s: seq<T>, key: T -> int, n: nat): (r: seq<T>)
    ensures |r| == Min(n, |s|)
    ensures SortedDesc(r, key)
    ensures multiset(r) <= multiset(s)
    ensures |s| <= n ==> multiset(r) == multiset(s)
    ensures forall x :: x in r ==> x in s
    ensures forall x, y :: x in r && y in s && y !in r ==> key(y) <= key(x)
  {
    var t := SortDesc(s, key);
    PrefixOfSorted(s, t, key, Min(n, |s|));
    t[..Min(n, |s|)]
  }

  /** A page of the newest matching rows leaves out no matching row newer than one it keeps. */
  lemma NewestPage<T(!new)>(s: seq<T>, p: T -> bool, key: T -> int, n: nat)
    ensures forall x, y :: x in Newest(Filter(s, p), key, n) && y in s && p(y) && y !in Newest(Filter(s, p), key, n)
              ==> key(y) <= key(x)
  {
    var f := Filter(s, p);
    forall x, y | x in Newest(f, key, n) && y in s && p(y) && y !in Newest(f, key, n)
      ensures key(y) <= key(x)
    {
      assert y in f;
    }
  }

  /** findOne: the index of the first row that matches, if any. */
  function FindFirst<T>(s: seq<T>, p: T -> bool): (r: Option<nat>)
    ensures r.Some? ==> r.value < |s| && p(s[r.value])
    ensures r.Some? ==> forall j :: 0 <= j < r.value ==> !p(s[j])
    ensures r.None? <==> forall j :: 0 <= j < |s| ==> !p(s[j])
  {
    if s == [] then None
    else if p(s[0]) then Some(0)
    else
      match FindFirst(s[1..], p)
      case None => None
      case Some(i) => Some(i + 1)
  }

  /** Whatever row matches first is the one findOne returns. */
  lemma FindFirstIsFirstMatch<T>(s: seq<T>, p: T -> bool)
    ensures forall k :: 0 <= k < |s| && p(s[k]) && (forall j :: 0 <= j < k ==> !p(s[j])) ==> FindFirst(s, p) == Some(k)
  {
  }

  /** findOne gives the same answer on two tables whose rows match `p` at the same positions. */
  lemma {:induction false} FindFirstPointwise<T>(s: seq<T>, t: seq<T>, p: T -> bool)
    requires |s| == |t|
    requires forall i :: 0 <= i < |s| ==> (p(s[i]) <==> p(t[i]))
    ensures FindFirst(s, p) == FindFirst(t, p)
  {
    if s != [] && !p(s[0]) {
      FindFirstPointwise(s[1..], t[1..], p);
    }
  }

  /**
    findOne ... ORDER BY key DESC: the index of a matching row with the
    largest key; among several, the earliest in table order.
  */
  function NewestWhere<T>(s: seq<T>, p: T -> bool, key: T -> int): (r: Option<nat>)
    ensures r.Some? ==> r.value < |s| && p(s[r.value])
    ensures r.Some? ==> forall j :: 0 <= j < |s| && p(s[j]) ==> key(s[j]) <= key(s[r.value])
    ensures r.None? <==> forall j :: 0 <= j < |s| ==> !p(s[j])
  {
    if s == [] then None
    else
      var last := |s| - 1;
      var earlier := NewestWhere(s[..last], p, key);
      assert forall j :: 0 <= j < last ==> s[..last][j] == s[j];
      if p(s[last]) && (earlier.None? || key(s[last]) > key(s[earlier.value])) then Some(last)
      else earlier
  }
}

=== FILE: text.dfy ===
/**
  The JavaScript string operations the handlers use: `trim()`, the regular
  expression classes `\s` and `\d`, `parseInt`, `String(n)` for a
  non-negative integer, `replace` with a string pattern, and `join`.
  Strings are sequences of Unicode scalar values.
*/
module Text {
  import opened Wrappers

  /** JavaScript's WhiteSpace and LineTerminator characters: what `\s` matches and what `trim()` removes. */
  predicate IsJsSpace(c: char) {
    || c == '\t' || c == '\n' || c == '\U{B}' || c == '\U{C}' || c == '\r' || c == ' '
    || c == '\U{A0}' || c == '\U{1680}' || ('\U{2000}' <= c <= '\U{200A}')
    || c == '\U{2028}' || c == '\U{2029}' || c == '\U{202F}' || c == '\U{205F}'
    || c == '\U{3000}' || c == '\U{FEFF}'
  }

  /** Every character of `s` is white space. */
  predicate AllSpace(s: string) {
    forall i :: 0 <= i < |s| ==> IsJsSpace(s[i])
  }

  /** A white-space character followed by white space is white space. */
  lemma SpacePrefixCons(s: string, n: nat)
    requires 0 < n <= |s| && IsJsSpace(s[0]) && AllSpace(s[1..][..n - 1])
    ensures AllSpace(s[..n])
  {
    forall i | 0 < i < n ensures IsJsSpace(s[..n][i]) {
      assert s[..n][i] == s[1..][..n - 1][i - 1];
    }
  }

  /** `s.trimStart()`: the suffix of `s` after its leading white space. */
  function TrimStart(s: string): (r: string)
    ensures |r| <= |s| && r == s[|s| - |r|..]
    ensures AllSpace(s[..|s| - |r|])
    ensures r != [] ==> !IsJsSpace(r[0])
  {
    if s != [] && IsJsSpace(s[0]) then
      var t := s[1..];
      var r := TrimStart(t);
      assert r == s[|s| - |r|..];
      SpacePrefixCons(s, |s| - |r|);
      r
    else s
  }

  /** `s.trimEnd()`: the prefix of `s` before its trailing white space. */
  function TrimEnd(s: string): (r: string)
    ensures |r| <= |s| && r == s[..|r|]
    ensures AllSpace(s[|r|..])
    ensures r != [] ==> !IsJsSpace(r[|r| - 1])
  {
    if s != [] && IsJsSpace(s[|s| - 1]) then
      var r := TrimEnd(s[..|s| - 1]);
      assert s[|r|..] == s[..|s| - 1][|r|..] + [s[|s| - 1]];
      r
    else s
  }

  /** `s.trim()`: `s` without the white space at either end; it neither starts nor ends with white space. */
  function Trim(s: string): (r: string)
    ensures r != [] ==> !IsJsSpace(r[0]) && !IsJsSpace(r[|r| - 1])
  {
    var t := TrimStart(s);
    var r := TrimEnd(t);
    assert r != [] ==> r[0] == t[0];
    r
  }

  /** What `trim()` leaves is the middle of `s`, with only white space cut off at either end. */
  lemma TrimIsMiddle(s: string)
    ensures exists i, j :: 0 <= i <= j <= |s| && Trim(s) == s[i..j] && AllSpace(s[..i]) && AllSpace(s[j..])
  {
    var t := TrimStart(s);
    var r := TrimEnd(t);
    var i := |s| - |t|;
    var j := i + |r|;
    assert t == s[i..];
    assert s[j..] == t[|r|..];
    assert r == s[i..j] && AllSpace(s[..i]) && AllSpace(s[j..]);
  }

  lemma {:induction false} TrimStartBlank(s: string)
    requires AllSpace(s)
    ensures TrimStart(s) == []
  {
    if s != [] {
      TrimStartBlank(s[1..]);
    }
  }

  /** A character that is not white space survives `trimStart`. */
  lemma {:induction false} TrimStartKeeps(s: string, k: nat)
    requires k < |s| && !IsJsSpace(s[k])
    ensures |s| - |TrimStart(s)| <= k
  {
    if IsJsSpace(s[0]) {
      TrimStartKeeps(s[1..], k - 1);
    }
  }

  /** A character that is not white space survives `trimEnd`. */
  lemma {:induction false} TrimEndKeeps(s: string, k: nat)
    requires k < |s| && !IsJsSpace(s[k])
    ensures k < |TrimEnd(s)|
  {
    if IsJsSpace(s[|s| - 1]) {
      TrimEndKeeps(s[..|s| - 1], k);
    }
  }

  lemma TrimOfBlank(s: string)
    requires AllSpace(s)
    ensures Trim(s) == []
  {
    TrimStartBlank(s);
    assert TrimEnd(TrimStart(s)) == [];
  }

  /** A character that is not white space keeps `trim()` from giving the empty string. */
  lemma TrimOfNonBlank(s: string, k: nat)
    requires k < |s| && !IsJsSpace(s[k])
    ensures Trim(s) != []
  {
    var t := TrimStart(s);
    TrimStartKeeps(s, k);
    var d := |s| - |t|;
    assert t[k - d] == s[k];
    TrimEndKeeps(t, k - d);
  }

  /** `s.trim().length === 0` holds exactly of the strings made of white space only. */
  lemma TrimEmptyIffBlank(s: string)
    ensures Trim(s) == [] <==> AllSpace(s)
  {
    if AllSpace(s) {
      TrimOfBlank(s);
    } else {
      var k :| 0 <= k < |s| && !IsJsSpace(s[k]);
      TrimOfNonBlank(s, k);
    }
  }

  /** Trimming twice gives what trimming once does. */
  lemma TrimIdempotent(s: string)
    ensures Trim(Trim(s)) == Trim(s)
  {
    var r := Trim(s);
    assert TrimStart(r) == r by {
      if r != [] {
        assert !IsJsSpace(r[0]);
      }
    }
    assert TrimEnd(r) == r by {
      if r != [] {
        assert !IsJsSpace(r[|r| - 1]);
      }
    }
  }

  /** JavaScript truthiness of an optional string: present and not empty. */
  predicate Truthy(s: Option<string>) {
    s.Some? && s.value != ""
  }

  predicate IsDigit(c: char) {
    '0' <= c <= '9'
  }

  predicate IsHexDigit(c: char) {
    IsDigit(c) || 'a' <= c <= 'f' || 'A' <= c <= 'F'
  }

  /** The regular expression `^\d{n}$`: exactly `n` characters, all ASCII digits. */
  predicate DigitsOfLength(s: string, n: nat) {
    |s| == n && forall i :: 0 <= i < |s| ==> IsDigit(s[i])
  }

  function DigitValue(c: char): (v: nat)
    requires IsHexDigit(c)
    ensures v < 16 && (IsDigit(c) ==> v < 10)
  {
    if IsDigit(c) then c as int - '0' as int
    else if 'a' <= c <= 'f' then c as int - 'a' as int + 10
    else c as int - 'A' as int + 10
  }

  /** The number of leading characters of `s` that satisfy `p`. */
  function LeadingRun(s: string, p: char -> bool): (k: nat)
    ensures k <= |s|
    ensures forall i :: 0 <= i < k ==> p(s[i])
    ensures k < |s| ==> !p(s[k])
  {
    if s != [] && p(s[0]) then 1 + LeadingRun(s[1..], p) else 0
  }

  /** The value of a string of digits in the given base, most significant first. */
  function Value(ds: string, base: nat): nat
    requires forall i :: 0 <= i < |ds| ==> IsHexDigit(ds[i])
  {
    if ds == [] then 0
    else Value(ds[..|ds| - 1], base) * base + DigitValue(ds[|ds| - 1])
  }

  /**
    `parseInt(s)` with no radix: leading white space is skipped, then an
    optional sign; a `0x`/`0X` prefix selects base 16; the longest run of
    digits that follows is the value. No digits at all gives NaN (`None`).
  */
  function ParseInt(s: string): (r: Option<int>)
  {
    var t := TrimStart(s);
    var negative := t != [] && t[0] == '-';
    var u := if t != [] && (t[0] == '-' || t[0] == '+') then t[1..] else t;
    var sign := if negative then -1 else 1;
    if |u| >= 2 && u[0] == '0' && (u[1] == 'x' || u[1] == 'X') then
      var h := LeadingRun(u[2..], IsHexDigit);
      if h == 0 then None else Some(sign * Value(u[2..][..h], 16))
    else
      var d := LeadingRun(u, IsDigit);
      if d == 0 then None else Some(sign * Value(u[..d], 10))
  }

  function DigitChar(d: nat): (c: char)
    requires d < 10
    ensures IsDigit(c) && DigitValue(c) == d
  {
    ('0' as int + d) as char
  }

  /** `String(n)` for a non-negative integer: its decimal digits, with no leading zero. */
  function DecimalString(n: nat): (s: string)
    ensures |s| >= 1
    ensures forall i :: 0 <= i < |s| ==> IsDigit(s[i])
    ensures s[0] == '0' ==> n == 0
  {
    if n < 10 then [DigitChar(n)] else DecimalString(n / 10) + [DigitChar(n % 10)]
  }

  /** Reading back the digits of `String(n)` gives `n`. */
  lemma {:induction false} DecimalValueRoundTrip(n: nat)
    ensures Value(DecimalString(n), 10) == n
  {
    if n >= 10 {
      var s := DecimalString(n);
      assert s[..|s| - 1] == DecimalString(n / 10);
      DecimalValueRoundTrip(n / 10);
    }
  }

  /** `parseInt(String(n)) === n` for every non-negative integer `n`. */
  lemma ParseIntRoundTrip(n: nat)
    ensures ParseInt(DecimalString(n)) == Some(n)
  {
    var s := DecimalString(n);
    assert !IsJsSpace(s[0]);
    assert TrimStart(s) == s;
    assert LeadingRun(s, IsDigit) == |s|;
    assert s[..|s|] == s;
    DecimalValueRoundTrip(n);
  }

  function Pow10(k: nat): (p: nat)
    ensures p >= 1
  {
    if k == 0 then 1 else 10 * Pow10(k - 1)
  }

  /** `String(n)` has `k` digits when 10^(k-1) <= n < 10^k. */
  lemma {:induction false} DecimalStringLength(n: nat, k: nat)
    requires k >= 1 && Pow10(k - 1) <= n < Pow10(k)
    ensures |DecimalString(n)| == k
  {
    if k > 1 {
      assert n >= 10;
      DecimalStringLength(n / 10, k - 1);
    }
  }

  /** `s` contains `pat` starting at index `i`. */
  predicate OccursAt(s: string, pat: string, i: nat) {
    i + |pat| <= |s| && s[i..i + |pat|] == pat
  }

  /** `s.indexOf(pat, from)`. */
  function IndexFrom(s: string, pat: string, from: nat): (r: Option<nat>)
    requires from <= |s|
    ensures r.Some? ==> from <= r.value && OccursAt(s, pat, r.value)
    ensures r.Some? ==> forall j :: from <= j < r.value ==> !OccursAt(s, pat, j)
    ensures r.None? ==> forall j :: from <= j <= |s| ==> !OccursAt(s, pat, j)
    decreases |s| - from
  {
    if OccursAt(s, pat, from) then Some(from)
    else if from == |s| then None
    else IndexFrom(s, pat, from + 1)
  }

  /** `s.replace(pat, rep)` with a string pattern: only the first occurrence is replaced. */
  function ReplaceFirst(s: string, pat: string, rep: string): (r: string)
  {
    match IndexFrom(s, pat, 0)
    case None => s
    case Some(i) => s[..i] + rep + s[i + |pat|..]
  }

  /** `parts.join(sep)`. */
  function Join(parts: seq<string>, sep: string): string {
    if parts == [] then ""
    else if |parts| == 1 then parts[0]
    else parts[0] + sep + Join(parts[1..], sep)
  }
}

=== FILE: wrappers.dfy ===
/** Optional values: JavaScript's `undefined`/`null` on one side, a value on the other. */
module Wrappers {

  datatype Option<+T> = None | Some(value: T) {

    function GetOr(default: T): T {
      match this
      case Some(v) => v
      case None => default
    }
  }
}

/** The shape of an Express handler's reply: a status code with a body, or a status code with an error message. */
module Http {

  datatype Reply<+T> = Ok(status: int, body: T) | Fail(status: int, message: string)

  const BadRequest := 400
  const Unauthorized := 401
  const Forbidden := 403
  const NotFound := 404
  const ServerError := 500
  const Created := 201
  const Success := 200
}
